=== FILE: README.md ===
# Cork: upload route, pipeline script builders and the two pages

Cork is a web tool that turns a CSV file and a handful of switches into a
machine-learning pipeline. This project models its core in Dafny and
proves properties of that model:

- `POST /upload` (`server/routes/upload_routes.py`). It reads the multipart
  request and decodes the `options` JSON. It builds the builders' argument
  list, dispatches on `selectedAlgorithm` and answers with a JSON body:
  200, 400 or 500.
- The two script builders it calls:
  - `func_polynomialRegression` (`server/algos/regression.py`);
  - `func_decisionTreeClassifier` (`env/server/algos/classification.py`).

  Each one appends Python fragments to a script text `s` according to its
  switches, runs the pipeline and returns the paths of the saved model,
  script and plot together with the score line.
- The dashboard page (`client/src/app/dashboard/page.tsx`):
  - CSV upload and preview;
  - the switches and the algorithm choice;
  - the request "Run & Fetch" sends;
  - how the response is read back into the editor and the stored plot and
    model links;
  - save, copy, clear and download.
- The client page (`client/src/app/page.tsx`). It does the same upload, and
  `generateCode` builds a script from fragments in the browser.

Modules, one per file:

| module | what it holds |
|---|---|
| `Outcomes` | `Option`, `Result`, toasts |
| `Text` | trim, split, lower-casing, decimal text, Python's `int()` on text |
| `Values` | JSON values, JavaScript truthiness, Python `== 1` / `== True` and `str()` |
| `Exceptions` | the exceptions the route turns into 500 |
| `Http` | form fields and `request.form.get` |
| `Options` | the six-switch record, `toggleOption`, `JSON.stringify` and `json.loads` of it |
| `Paths` | `os.path.join` / `basename` |
| `Csv` | `parseCSV` and the `.csv` name check |
| `Scripts` | a script as blocks that read and bind names: which names are read before being bound |
| `Order` | fragment order |
| `Pipeline` | the builders' fragments |
| `Builder` | the run after the script is built |
| `Regression`, `Classification` | the builders |
| `Route` | the upload route |
| `ClientPage`, `Dashboard` | the pages |
| `EndToEnd` | one run from the dashboard through the route and back |

Where Python has no static check, the model makes the check explicit. A
name read before it is bound is a `NameError`/`UnboundLocalError`, and the
`Scripts` def/use analysis finds such names. Indexing past the end of a
list or string is a `ListIndex`/`StringIndex` exception. `int()` of
non-numeric text is `IntLiteral`.

Notes on how the code behaves, which the model follows:

- A CSV cell is trimmed first and has its double quotes removed after, so
  `" a"` (quoted, with a blank inside) keeps the blank.
- When the `options` field is missing, the route calls `json.loads(None)`,
  which raises `TypeError`. The answer is then 500, not the 400 for
  malformed options. Options that decode to something other than an object
  also give 500.
- The regression builder starts the load at column 0 when `dropFirstColumn`
  equals `False`, and at column 1 otherwise. The classifier slices at the
  value itself.
- The regression builder tests `miss == True`; the classifier tests
  `miss == 1`. These are the same test in Python (`Values.EqTrueIsEqOne`).
- The regression run label-encodes the target when
  `categoricalTargetPresent` is set, but never writes that step into its
  script.
- The classifier's plot always reads the scaler `sc`. A decision-tree run
  without scaling therefore fails after the model is saved, and the route
  answers 500.
- On the client page, the algorithm select offers only the category values
  `"classification"` and `"regression"`. `handleAlgorithmChange` stores the
  chosen value as the algorithm, so no case of the model `switch` ever
  matches and no model fragment is ever emitted
  (`ClientPage.NoModelAfterAlgorithmChange`).
- `PROCESSED_FOLDER` is a Windows path, so `os.path` is read as `ntpath`:
  both `\` and `/` separate.

## Model

| member | source | states |
|---|---|---|
| Route.ColumnSpec | server/routes/upload_routes.py:69 | A column is found exactly for an empty field or text `int()` reads. The decimal text of an integer gives that integer, an empty field means the same column -1 as the text `-1`, and rejected text is reported as `int()`'s error on it. |
| Route.SwitchSpec | server/routes/upload_routes.py:57-62 | A switch reads as the last value the options carry under its name (as `json.loads` keeps the last duplicate), and as `False` when the options leave it out. |
| Route.AbsentSwitchesAreFalse | server/routes/upload_routes.py:57-73 | A drop, missing-data, split or scaling switch that the options leave out reaches the builders as `False`. |
| Route.ArgumentsFromSwitches | server/routes/upload_routes.py:57-73 | Sent as JSON and decoded, the switch record gives the builders exactly its drop, missing-data, split and scaling switches as booleans. Changing `importLibraries` or `categoricalData` changes no argument. |
| Route.ArgumentsOfFlags | server/routes/upload_routes.py:57-73 | The eight arguments of a decoded switch record, entry by entry. |
| Route.Build | server/routes/upload_routes.py:96-107 | `polynomial-regression` goes to the regression branch and `decision-tree` to the classifier branch. Any other algorithm leaves `output_path` as `'ans'`. A builder's list has four entries as written and five once corrected, and its paths are text. |
| Route.BuildRegression | server/routes/upload_routes.py:96-101 | A degree field that `int()` rejects ends the branch with that exception. With a readable degree, a random-state field `int()` rejects ends it with that one. A completed branch hands on the builder's list. |
| Route.BuildClassification | server/routes/upload_routes.py:102-107 | A random-state field that `int()` rejects ends the branch with that exception. A completed branch hands on the builder's list. |
| Route.CriterionSpec | server/routes/upload_routes.py:103 | The criterion is not checked: the first text sent under the field reaches the classifier whatever it is, and `None` does exactly when the field was not sent. |
| Route.Respond | server/routes/upload_routes.py:151-167 | `'ans'` raises the string index error, and an empty list or one of two to four results raises the list index error. A single result is passed on as it is. Five results whose paths are text give the 200 body. |
| Route.MembersGet | server/routes/upload_routes.py:160-167 | The dashboard finds `modelPath`, `rawPyStr` and `plot_path` in the 200 body under their keys. |
| Route.ProcessedFields | server/routes/upload_routes.py:154-167 | The 200 body links the model at `/download/<basename>` and the plot at `/plot/<basename>`, and carries the fifth result as `rawPyStr`. |
| Route.Process | server/routes/upload_routes.py:23-167 | No file or an empty file name gives a 400 "No file uploaded". The only 400 messages are that one and "Invalid options format". Without the corrected builders, processing never completes. |
| Route.Reply | server/routes/upload_routes.py:169-171 | The status is 200 exactly for a processed body, 400 exactly for a rejected request and 500 exactly for a raised exception. |
| Route.Handle | server/routes/upload_routes.py:21-171 | The route as written answers only 400 or 500, never 200. |
| Route.HandleIntended | server/routes/upload_routes.py:21-171 | With builders that return the script as the fifth result, the route answers 200 exactly when processing completes. |
| Route.NoFileIs400 | server/routes/upload_routes.py:45-46 | A request without a file is answered 400 with `{"error": "No file uploaded"}`, before and after the correction. |
| Route.ProcessFailures | server/routes/upload_routes.py:52-69 | With a file present: a missing `options` field raises `TypeError`; options that are not JSON are rejected as "Invalid options format"; options that are JSON but not an object raise `AttributeError`; a categorical field `int()` rejects raises that error. A 400 happens exactly when the options are not JSON. |
| Route.BadOptionsIs400 | server/routes/upload_routes.py:52-55 | Options text that is not JSON is answered 400 with `{"error": "Invalid options format"}`, before and after the correction. |
| Route.MissingOptionsIs500 | server/routes/upload_routes.py:52-55 | A request without an `options` field is answered 500: `json.loads(None)` raises `TypeError`, which the decode handler does not catch. |
| Route.NonObjectOptionsIs500 | server/routes/upload_routes.py:57 | Options that decode to something other than an object are answered 500, because `options.get` raises. |
| Route.BadColumnIs500 | server/routes/upload_routes.py:69 | A categorical field `int()` rejects is answered 500 with that error before any builder runs. |
| Route.CompletedRunIsListIndex | server/routes/upload_routes.py:151-158 | Every run a builder completes is answered 500 with the list index error. |
| Route.ProcessAdmitted | server/routes/upload_routes.py:52-167 | An admitted request is answered with the body built from the builder's results. |
| Route.ProcessRaises | server/routes/upload_routes.py:169-171 | An admitted request whose builder raises is answered with that exception. |
| Route.RegressionBuilt | server/routes/upload_routes.py:96-101 | With readable degree and random state and a run that succeeds, the corrected regression branch hands on five results whose paths are text. |
| Route.RegressionAnswered | server/routes/upload_routes.py:96-167 | An admitted polynomial-regression request whose run succeeds is answered 200 with the body built from the builder's five results. |
| Route.ClassificationBuilt | server/routes/upload_routes.py:102-107 | With a readable random state, scaling on and a run that succeeds, the corrected classifier branch hands on five results whose paths are text. |
| Route.ClassifierSucceeds | env/server/algos/classification.py:337-415 | A classifier run with scaling on and nothing failing returns five results whose paths are text. |
| Route.ClassificationAnswered | server/routes/upload_routes.py:102-167 | An admitted decision-tree request with scaling on whose run succeeds is answered 200 with the body built from the classifier's five results. |
| Route.UnscaledTreeRaises | env/server/algos/classification.py:358-360 | Without scaling, the classifier branch raises the unbound scaler once the model is fitted and saved. |
| Route.UnscaledTreeIs500 | env/server/algos/classification.py:337-360 | An admitted decision-tree request without scaling is answered 500 with the unbound-scaler error, before and after the correction. |
| Route.ProcessFallback | server/routes/upload_routes.py:96-158 | An admitted request for an algorithm with no builder leaves `output_path` as `'ans'` and is processed into the string index error. |
| Route.NoBuilderIs500 | server/routes/upload_routes.py:96-158 | An admitted request for an algorithm with no builder is answered 500 with the string index error, before and after the correction. |
| Route.EmptyRandomStateIs500 | server/routes/upload_routes.py:96-104 | An admitted regression or decision-tree request whose random-state field is empty, as the dashboard sends it until one is typed, is answered 500 with `int('')`'s error, before and after the correction. For regression this holds once the degree is readable, since the degree is read first. |
| Route.Shared | server/routes/upload_routes.py:64-73 | The shared arguments of an admitted request start with the file and the processed folder. They carry the column and whether the target field is exactly `'true'`. |
| Regression.PolynomialRegression | server/algos/regression.py:126-262 | A run succeeds exactly when fitting, dumping, plotting and writing succeed and the folder is text. It returns four text results: the score line, and the model, script and plot paths, whose base names are `r3_model.joblib`, `r3.py` and `r3_plot_<timestamp>.png`. A fitting error is returned as it is. |
| Regression.PolynomialRegressionIntended | server/algos/regression.py:257-262 | Appends the script text as a fifth result and otherwise agrees with the builder as written. |
| Regression.ScriptSwitches | server/algos/regression.py:138-255 | The script opens with the imports and the load at the column the drop switch selects. It holds imputation, encoding, split and scaling exactly when their switches are on, never the target encoding, and closes with the polynomial fit. |
| Regression.ScriptUnbound | server/algos/regression.py:138-255 | The script reads only `filepath` and `PROCESSED_FOLDER` from its runner, plus the training and test sets when the split is off. |
| Regression.DegreeInScript | server/algos/regression.py:227-231 | The requested degree is written into the script. |
| Regression.SplitInScript | server/algos/regression.py:178-188 | With the split on, the test size 0.2 and the random state are written into the script. |
| Regression.ScriptIgnoresTarget | server/algos/regression.py:174-176 | The script text does not depend on `categoricalTargetPresent`. |
| Classification.DecisionTreeClassifier | env/server/algos/classification.py:269-415 | A run succeeds exactly when fitting, dumping, plotting and writing succeed, the folder is text and scaling is 1. Without scaling it raises the unbound scaler after the model is saved. The results are named `c6_model.joblib`, `c6.py` and `c6_plot_<timestamp>.png`. |
| Classification.DecisionTreeClassifierIntended | env/server/algos/classification.py:410-415 | Appends the script text as a fifth result and otherwise agrees with the builder as written. |
| Classification.ScriptSwitches | env/server/algos/classification.py:281-408 | The script opens with the imports and the load at the drop option's value. It holds imputation, encoding, target encoding, split and scaling exactly when their switches are on, and closes with the tree fit. |
| Classification.ScriptUnbound | env/server/algos/classification.py:281-408 | The script reads `filepath` and `PROCESSED_FOLDER` from its runner, the training and test sets when the split is off, and `sc` exactly when scaling is off. |
| Classification.ScalerAgreement | env/server/algos/classification.py:337-360 | When every library step succeeds, the run succeeds exactly when the script binds `sc` before reading it. |
| Classification.CriterionInScript | env/server/algos/classification.py:376-380 | The criterion and the random state are written into the script. |
| Classification.SplitInScript | env/server/algos/classification.py:325-335 | With the split on, the test size 0.25 and the random state are written into the script. |
| Builder.Run | server/algos/regression.py:203-260 | The steps after the script is built, in order: fit, path join, dump, scaler read, plot, write. The first failure is the result. Success returns the four outputs with the score line `label + score + "%"`. |
| Builder.Outputs | server/algos/regression.py:212-262 | A successful run returns four text results, the third being the score line. |
| Builder.OutputNames | server/algos/regression.py:212-217 | The base names of the saved model, script and plot are the names the builder gave them. |
| Builder.NamesArePlain | server/algos/regression.py:212-217 | The model, script and plot file names hold no path separator. |
| Builder.IntTextIsPlain | server/algos/regression.py:216-217 | The decimal text of the timestamp holds no path separator. |
| Pipeline.FragsContain | server/algos/regression.py:138-255 | A builder's script always holds the imports, the load and the model fragment, and holds each preprocessing fragment exactly when its switch is on. |
| Pipeline.FragsUndefined | env/server/algos/classification.py:281-408 | A builder's script reads unbound exactly `filepath` and `PROCESSED_FOLDER`, the training and test sets when the split is off, and `sc` for the classifier without scaling. |
| Pipeline.PrefixUnbound | server/algos/regression.py:138-200 | The preprocessing part leaves only `filepath` unbound, plus the training and test sets when scaling runs without a split. |
| Pipeline.PrefixBound | server/algos/regression.py:138-200 | The preprocessing part binds the training and test sets exactly when split or scaling is on, the targets exactly when split is on, and `sc` exactly when scaling is on. |
| Pipeline.SplitDoneShape | server/algos/regression.py:138-188 | Up to the split only `filepath` is unbound. The training and test sets are bound exactly when the split is on. |
| Pipeline.AddOpt | server/algos/regression.py:154-200 | Appending a switchable fragment adds its unbound reads and its bindings exactly when its switch is on. |
| Pipeline.ShapeOfBlocks | server/algos/regression.py:138-255 | The fragment-level def/use sets agree with the script-level analysis whatever the texts. |
| Pipeline.FragLineOccurs | server/algos/regression.py:138-255 | Every line of every fragment appears in the script text. |
| Pipeline.ScriptStartsWithImports | server/algos/regression.py:138-142 | A script opens with the import fragment. |
| Pipeline.SplitLineOccurs | server/algos/regression.py:178-188 | When the split fragment is present, its `train_test_split` line appears in the script. |
| Pipeline.DegreeLineOccurs | server/algos/regression.py:227-231 | When the polynomial fit is present, its degree line appears in the script. |
| Pipeline.CriterionLineOccurs | env/server/algos/classification.py:376-380 | When the tree fit is present, its criterion line appears in the script. |
| Scripts.UndefinedSpec | client/src/app/page.tsx:121-284 | The analysis reports exactly the names some block reads before any earlier block binds them. |
| Scripts.DefinedSpec | client/src/app/page.tsx:121-284 | A name is defined exactly when some block binds it. |
| Scripts.UndefinedAppend | client/src/app/page.tsx:121-284 | Appending blocks adds exactly the names they read that the earlier blocks do not bind. |
| Scripts.RenderAppend | client/src/app/page.tsx:121-284 | Rendering distributes over appending blocks. |
| Scripts.BlockInRender | client/src/app/page.tsx:121-284 | Every block's text appears in the rendered script. |
| Scripts.RenderStartsWithFirst | client/src/app/page.tsx:121-284 | The rendered script opens with the first block's text. |
| Scripts.RenderEmpty | client/src/app/page.tsx:121-284 | A script renders to nothing exactly when every block's text is empty. |
| Scripts.UndefinedOfSkeleton | client/src/app/page.tsx:121-284 | The def/use analysis does not depend on the block texts. |
| ClientPage.HandleFileUpload | client/src/app/page.tsx:91-119 | No file changes nothing. A name not ending in `.csv` gives "Please upload a CSV file." and changes nothing. A rejected `file.text()` gives the parse-error toast. Success happens exactly when the file is read and parses, and stores its description. |
| ClientPage.ToggleOption | client/src/app/page.tsx:286-288 | Exactly the toggled switch flips; the rest of the page state is unchanged. |
| ClientPage.FindOption | client/src/app/page.tsx:55-58 | Finds an entry with the value asked for, or reports that none has it. |
| ClientPage.HandleAlgorithmChange | client/src/app/page.tsx:374-379 | The chosen value becomes the algorithm. The category is classification or regression exactly when the value names it. Nothing else changes. |
| ClientPage.ModelFor | client/src/app/page.tsx:190-281 | A model fragment needs a category and one of the algorithms the `switch` lists. |
| ClientPage.StagesSpec | client/src/app/page.tsx:121-284 | `generateCode` emits exactly the fragments that are switched on, in the fixed order, and the load names the uploaded file. |
| ClientPage.StagesInOrder | client/src/app/page.tsx:121-284 | Every emitted fragment is switched on and is the one its rank prescribes. Positions increase along the script. |
| ClientPage.IndexOfRank | client/src/app/page.tsx:121-284 | Every fragment that is switched on is emitted. |
| ClientPage.UsesAreProvided | client/src/app/page.tsx:121-284 | Under the prerequisites, every name a fragment reads is bound by a fragment that is switched on at an earlier position. |
| ClientPage.ClosedIfPrerequisites | client/src/app/page.tsx:121-284 | If the prerequisites hold, every name is bound before it is read. |
| ClientPage.UserIsUndefined | client/src/app/page.tsx:121-284 | A name a fragment reads that no earlier fragment binds is reported unbound. |
| ClientPage.NotClosedIfViolated | client/src/app/page.tsx:121-284 | If the prerequisites fail, some name is read before it is bound. |
| ClientPage.ClosedIff | client/src/app/page.tsx:121-284 | A generated script binds every name before reading it exactly when pandas is imported before a load, the drop precedes every preprocessing step, the imports precede the library steps, and the split precedes scaling and the model. |
| ClientPage.PandasReadBeforeImport | client/src/app/page.tsx:125-148 | As written, with a dataset uploaded, the script reads `pd` before it imports pandas. |
| ClientPage.AsWrittenClosedIff | client/src/app/page.tsx:121-284 | As written, the only scripts that bind every name they read are the empty one and the bare import block. |
| ClientPage.IntendedDefaultsAreClosed | client/src/app/page.tsx:62-69 | With the imports first, the initial switches and an uploaded dataset give a script that binds every name before reading it. |
| ClientPage.GenerateCodeEmptyIff | client/src/app/page.tsx:121-284 | `generateCode` produces empty code exactly when no fragment is switched on. |
| ClientPage.RenderEmptyIff | client/src/app/page.tsx:121-284 | With fragment texts that are never empty, the code is empty exactly when no fragment is switched on. |
| ClientPage.GenerateCodeStartsWithLoad | client/src/app/page.tsx:125-133 | With a dataset uploaded, the code opens by reading that file with `pd.read_csv`. |
| ClientPage.FragmentOccurs | client/src/app/page.tsx:121-284 | Every fragment that is switched on appears in the code. |
| ClientPage.EncoderLineOccurs | client/src/app/page.tsx:166-172 | With categorical data on, the code holds the one-hot `ColumnTransformer` on column 0. |
| ClientPage.SplitLineOccurs | client/src/app/page.tsx:174-179 | With the split on, the code splits with test size 0.2 and random state 0. |
| ClientPage.NoModelAfterAlgorithmChange | client/src/app/page.tsx:374-379 | After any algorithm change, no model fragment is emitted. |
| ClientPage.NoModelInitially | client/src/app/page.tsx:60-75 | The initial state emits no model fragment. |
| ClientPage.ModelUnaffectedByOtherHandlers | client/src/app/page.tsx:91-119 | Uploads and toggles leave the model switch unchanged. |
| Csv.Parse | client/src/app/page.tsx:84-89 | `parseCSV` fails exactly when the text is whitespace only. Otherwise the headers come from the first non-blank line, at most five rows follow, and the row count excludes the header. |
| Csv.Cell | client/src/app/page.tsx:86-87 | A cleaned cell holds no double quote. |
| Csv.Cells | client/src/app/page.tsx:86-87 | A line gives at least one cell, none of which holds a double quote. |
| Csv.KeepNonBlank | client/src/app/page.tsx:85 | Filtering keeps no blank line and never adds lines. A line is in the result exactly when it is among the input lines and not blank. |
| Csv.KeepNonBlankAppend | client/src/app/page.tsx:85 | The filter splits over concatenation, so it keeps the non-blank lines in their order. |
| Csv.KeepNonBlankCount | client/src/app/page.tsx:85 | The filter keeps one line for each non-blank line. |
| Csv.RowCount | client/src/app/page.tsx:85-88 | `totalRows` is the number of non-blank lines less the header. |
| Csv.KeepNonBlankEmpty | client/src/app/page.tsx:85 | The filter leaves nothing exactly when every line is blank. |
| Csv.NoLinesIffAllSpace | client/src/app/page.tsx:85 | There is no non-blank line exactly when the whole text is whitespace. |
| Csv.HeaderIsFirstNonBlankLine | client/src/app/page.tsx:85-86 | The header row is the first raw line that is not whitespace only, cut at every comma into cleaned cells. |
| Csv.HeaderOnly | client/src/app/page.tsx:86-88 | A file with only a header line has zero rows and an empty preview. |
| Csv.QuotedPaddingIsKept | client/src/app/page.tsx:86-87 | A cell written as quotes around quote-free text becomes exactly that text, blanks inside the quotes included, because quotes are removed after trimming. |
| Csv.IsCsvNameSpec | client/src/app/page.tsx:95-98 | A name passes the check exactly when it ends in `.csv` in any mix of letter cases. |
| Csv.Describe | client/src/app/dashboard/page.tsx:113-146 | A name not ending in `.csv` is rejected, a rejected `file.text()` is unreadable, and whitespace-only text is unparseable. A description is produced exactly for a `.csv` name whose text was read and is not all whitespace, and it keeps the file name and the parsed table. |
| Dashboard.HandleFileUpload | client/src/app/dashboard/page.tsx:113-146 | No file changes nothing, and an error changes nothing. A rejected `file.text()` gives the parse-error toast. Success happens exactly when the file is a CSV that is read and parses, and then the file also becomes the dataset the form sends. |
| Dashboard.ToggleOption | client/src/app/dashboard/page.tsx:157-165 | Exactly the toggled switch flips. The flipped record is written to both copies, which then agree. |
| Dashboard.InitialSwitchesDisagree | client/src/app/dashboard/page.tsx:64-97 | Initially the switches shown and the options a run sends disagree on exactly drop, split and scaling. |
| Dashboard.Offered | client/src/app/dashboard/page.tsx:623-750 | Regression offers linear and polynomial regression, classification offers logistic regression and the decision tree, and any other category offers nothing. |
| Dashboard.OfferedWithoutBuilder | client/src/app/dashboard/page.tsx:623-750 | Apart from polynomial regression and the decision tree, the only offered algorithms are linear and logistic regression. |
| Dashboard.SelectCategory | client/src/app/dashboard/page.tsx:605-620 | Choosing a category records it in both copies and clears the selected algorithm. Nothing else changes. |
| Dashboard.HandleAlgorithmSelect | client/src/app/dashboard/page.tsx:293-300 | The algorithm is recorded in both copies. Nothing else changes. |
| Dashboard.SetInput | client/src/app/dashboard/page.tsx:576-750 | An input takes the typed value and every other input is unchanged. |
| Dashboard.SetTargetPresent | client/src/app/dashboard/page.tsx:588-590 | The switch sets the target flag and leaves the inputs unchanged. |
| Dashboard.RunRequest | client/src/app/dashboard/page.tsx:167-189 | Without a dataset nothing is sent and the error says so. Otherwise the route reads back every field, with `options` taken from `formData.options`. |
| Dashboard.FormValues | client/src/app/dashboard/page.tsx:176-189 | One value for each of the eight fields, in append order. |
| Dashboard.FormReadsBack | client/src/app/dashboard/page.tsx:176-189 | Each field is appended once, so the route reads back exactly what was put in. |
| Dashboard.RunRequestIntended | client/src/app/dashboard/page.tsx:167-189 | The corrected request sends the switches shown and otherwise behaves like the request as written. |
| Dashboard.FirstRunSendsOtherOptions | client/src/app/dashboard/page.tsx:64-97 | A run straight after an upload sends drop, split and scaling off while the switches show them on. |
| Dashboard.IntendedAgreesWhenMirrored | client/src/app/dashboard/page.tsx:157-189 | When the two copies agree, the corrected request equals the one as written. |
| Dashboard.RequestIgnoresDisplayOnly | client/src/app/dashboard/page.tsx:176-189 | The category and the `formData` copies of the algorithm and the code are never sent. |
| Dashboard.FirstTruthy | client/src/app/dashboard/page.tsx:203-236 | Finds the first key whose member is truthy, or none exactly when no member is truthy. |
| Dashboard.ApplyResponse | client/src/app/dashboard/page.tsx:190-243 | Success happens exactly for a 2xx response with a non-null body. It sets both code copies to the chosen script member and updates the plot and model paths by their precedence chains; nothing else changes. Any other outcome gives the error toast with the state unchanged. |
| Dashboard.ScriptChain | client/src/app/dashboard/page.tsx:203-222 | The three-way `if` chain over `rawPyStr`, `python_code` and `code` picks the first truthy member. |
| Dashboard.PathChain | client/src/app/dashboard/page.tsx:225-236 | Each two-way path chain picks the first truthy member, or keeps the stored path. |
| Dashboard.ApplyResponseKeepsPathsTruthy | client/src/app/dashboard/page.tsx:225-236 | A run never stores a falsy path. |
| Dashboard.Shown | client/src/app/dashboard/page.tsx:443 | The editor shows nothing exactly when both code copies are empty. |
| Dashboard.EditCode | client/src/app/dashboard/page.tsx:444-448 | The editor shows what was typed. Nothing else changes. |
| Dashboard.SaveCode | client/src/app/dashboard/page.tsx:249-264 | Something is saved exactly when the editor shows text, and it is that text. Otherwise the error toast appears. |
| Dashboard.CopyCode | client/src/app/dashboard/page.tsx:266-279 | Something is copied exactly when the editor shows text and the browser accepts the write. An empty editor gives "No code to copy." |
| Dashboard.SaveAndCopyAgree | client/src/app/dashboard/page.tsx:249-279 | Saving and a successful copy deliver the same text, and refuse in the same states. |
| Dashboard.SaveAfterEdit | client/src/app/dashboard/page.tsx:249-264 | What was typed is what is saved. |
| Dashboard.ShownAfterRun | client/src/app/dashboard/page.tsx:203-222 | After a successful run, the editor shows the script the response carried. |
| Dashboard.Cleared | client/src/app/dashboard/page.tsx:281-291 | The editor is empty and the plot and model paths are gone. Nothing else changes. |
| Dashboard.ClearEditor | client/src/app/dashboard/page.tsx:281-291 | Clears the editor and the links, and records an empty generated code. |
| Dashboard.GenerateCode | client/src/app/dashboard/page.tsx:148-155 | This page's `generateCode` generates nothing; it only clears and shows the info toast. |
| Dashboard.ClearingEmptiesEditor | client/src/app/dashboard/page.tsx:148-155 | After either button nothing can be saved, and pressing it twice is pressing it once. |
| Dashboard.DownloadUrl | client/src/app/dashboard/page.tsx:302-329 | A download fails with its message exactly when no truthy path is stored. Otherwise the browser goes to the server origin followed by the stored path, and the success toast is shown. |
| Dashboard.DownloadIffStored | client/src/app/dashboard/page.tsx:302-329 | On every reachable state, a download is offered exactly when a path is stored. A stored text path is fetched from the server at that path, with "Plot download started!" or "Model download started!". |
| Dashboard.Step | client/src/app/dashboard/page.tsx:113-300 | Input events show no toast. A run without a dataset shows the error and changes nothing. |
| Dashboard.InitialReachable | client/src/app/dashboard/page.tsx:60-104 | The initial state satisfies the page invariant. |
| Dashboard.StepKeepsReachable | client/src/app/dashboard/page.tsx:113-300 | Every event the page offers keeps the invariant: stored paths are truthy, the selected algorithm is one its category offers, the selects hold offered values, and the dataset has a `.csv` name. |
| EndToEnd.RunAlwaysFails | client/src/app/dashboard/page.tsx:190-243 | As written, every run ends in the error toast with the page unchanged, whatever the data and the libraries do. |
| EndToEnd.RequestAdmitted | client/src/app/dashboard/page.tsx:167-189 | The corrected request is admitted by the route. It carries the shared arguments of the page state, the scaling switch shown, the criterion and the inputs. |
| EndToEnd.AdmittedOf | server/routes/upload_routes.py:24-69 | A request that reads back the page state's fields is admitted for the selected algorithm. |
| EndToEnd.SharedOf | server/routes/upload_routes.py:29-73 | Such a request carries exactly the shared arguments the page state stands for. |
| EndToEnd.SharedArguments | server/routes/upload_routes.py:64-73 | The arguments the page state stands for carry the processed folder and the scaling switch shown. |
| EndToEnd.BodyShown | client/src/app/dashboard/page.tsx:203-238 | A 200 body linking a script, a plot and a model shows the script and stores both links, with the success toast. |
| EndToEnd.ScriptNotEmpty | server/algos/regression.py:138-142 | A script that starts with the imports is never empty. |
| EndToEnd.RegressionBody | server/routes/upload_routes.py:154-167 | The corrected body of a regression run links `r3_plot_<timestamp>.png` and `r3_model.joblib`, and carries the script. |
| EndToEnd.RegressionRequestAnswered | server/routes/upload_routes.py:96-167 | The corrected regression request is answered 200 with the body built from the page state's arguments: the shared arguments, then the degree and the random state. |
| EndToEnd.RegressionResponse | server/routes/upload_routes.py:154-167 | The response to the corrected regression request links the script, plot and model. |
| EndToEnd.RegressionRun | client/src/app/dashboard/page.tsx:167-243 | With the corrections, a successful regression run shows the success toast and puts into the editor the script for exactly the switches and inputs on screen. It stores `/plot/r3_plot_<timestamp>.png` and `/download/r3_model.joblib`. |
| EndToEnd.TreeBody | server/routes/upload_routes.py:154-167 | The corrected body of a classifier run links `c6_plot_<timestamp>.png` and `c6_model.joblib`, and carries the script. |
| EndToEnd.TreeRequestAnswered | server/routes/upload_routes.py:102-167 | The corrected decision-tree request with scaling on is answered 200 with the body built from the page state's arguments: the shared arguments, then the criterion as typed and the random state. |
| EndToEnd.TreeResponse | server/routes/upload_routes.py:154-167 | The response to the corrected decision-tree request links the script, plot and model. |
| EndToEnd.TreeRun | client/src/app/dashboard/page.tsx:167-243 | With the corrections, a successful decision-tree run with scaling shows the success toast. It puts into the editor the script for exactly the switches, criterion and random state on screen, and stores the `c6` links. |
| EndToEnd.TreeAdmitted | server/routes/upload_routes.py:102-106 | A decision-tree request is admitted and read back field by field. |
| EndToEnd.UnscaledAdmitted | server/routes/upload_routes.py:102-106 | The corrected decision-tree request with scaling off is admitted and takes the unscaled branch. |
| EndToEnd.UnscaledTreeRejected | env/server/algos/classification.py:358-360 | Without scaling, the corrected decision-tree request is answered 500. |
| EndToEnd.OfferedWithoutBuilderIs500 | server/routes/upload_routes.py:96-158 | Linear or logistic regression, chosen on the dashboard, has no builder on the server, so the corrected request is answered 500 with the string index error. |
| EndToEnd.UnscaledTreeFails | client/src/app/dashboard/page.tsx:240-243 | So such a run ends in the error toast with the page unchanged. |
| Options.Set | client/src/app/dashboard/page.tsx:157-165 | The key takes the new value and every other key keeps its value. |
| Options.Toggle | client/src/app/page.tsx:286-288 | The key flips and every other key keeps its value. |
| Options.ToggleTwice | client/src/app/page.tsx:286-288 | Toggling a key twice restores the record. |
| Options.ToggleCommutes | client/src/app/page.tsx:286-288 | Toggles of two keys commute. |
| Options.FlagsExtensional | client/src/app/page.tsx:62-69 | Two records are equal exactly when they agree on every key. |
| Options.AsValueGet | server/routes/upload_routes.py:57-62 | Sent as `JSON.stringify(options)` and decoded, each switch reads back under its page name as the boolean sent. |
| Http.FormGetSpec | server/routes/upload_routes.py:24-29 | `request.form.get` finds nothing exactly when the key was not sent. Otherwise it finds a value sent under the key: the first one. |
| Http.FormGetFirst | server/routes/upload_routes.py:24-29 | The first field sent under a key is the one the route reads. |
| Http.ZipGet | client/src/app/dashboard/page.tsx:176-189 | With no key repeated, the route reads back each value under its key. |
| Exceptions.PyInt | server/routes/upload_routes.py:97-98 | A missing field raises the `int(None)` error. Text converts exactly when the model's `int()` accepts it: surrounding whitespace, an optional sign, and ASCII digits with single underscores between them. The rejected text is named in the error. |
| Exceptions.PyIntOfDecimal | server/routes/upload_routes.py:97-98 | A field holding the decimal text of an integer converts back to it. |
| Values.Get | server/routes/upload_routes.py:57-62 | Lookup fails exactly when the key is absent. Otherwise it returns the last entry under the key. |
| Values.GetLast | server/routes/upload_routes.py:57-62 | A key that occurs once is found at its entry. |
| Values.EqTrueIsEqOne | server/algos/regression.py:154 | `v == True` and `v == 1` hold of the same values, `True` and `1`; `v == False` and `v == 0` likewise. |
| Values.PyStrOfScalars | server/algos/regression.py:148-152 | `str()` writes booleans as `True`/`False` and integers in decimal text that `int()` reads back. |
| Paths.Join | server/algos/regression.py:212-217 | A joined path ends with the file name. |
| Paths.Basename | server/routes/upload_routes.py:162-166 | A base name holds no separator and is a suffix of the path. |
| Paths.BasenameOfJoin | server/routes/upload_routes.py:162-166 | The base name of a folder joined with a plain name is that name. |
| Paths.BasenameAfterSep | server/routes/upload_routes.py:162-166 | A plain name after a separator is the base name. |
| Paths.BasenameOfPlain | server/routes/upload_routes.py:162-166 | A plain name is its own base name. |
| Order.Schedule | client/src/app/page.tsx:121-284 | The schedule lists each of the eight fragment ranks. |
| Order.Filter | client/src/app/page.tsx:121-284 | Filtering keeps only switched-on entries of the schedule. |
| Order.FilterIncreasing | client/src/app/page.tsx:121-284 | Dropping entries keeps the rest in order. |
| Order.FilterComplete | client/src/app/page.tsx:121-284 | Every switched-on entry is kept. |
| Text.TrimStartSpec | client/src/app/page.tsx:85-87 | Trimming the start keeps a suffix that does not start with whitespace and cuts off only whitespace. |
| Text.TrimEndSpec | client/src/app/page.tsx:85-87 | Trimming the end keeps a prefix that does not end with whitespace and cuts off only whitespace. |
| Text.TrimIsSlice | client/src/app/page.tsx:85-87 | `trim()` returns a slice of the input with no whitespace at either end, and only whitespace is cut off around it. |
| Text.TrimEmptyIffBlank | client/src/app/page.tsx:85 | `line.trim()` is empty exactly when the line is all whitespace. |
| Text.TrimOfUnpadded | client/src/app/page.tsx:86-87 | A string without whitespace at either end is its own trim. |
| Text.TrimIdempotent | client/src/app/page.tsx:86-87 | Trimming twice is trimming once. |
| Text.RemoveAll | client/src/app/page.tsx:86-87 | Removing the quotes leaves no quote, keeps every other character, and changes nothing when there is none. |
| Text.Split | client/src/app/page.tsx:85-87 | `split` gives at least one piece, and no piece holds the separator. |
| Text.JoinSplit | client/src/app/page.tsx:85-87 | Joining the pieces of a split gives back the text. |
| Text.SplitJoin | client/src/app/page.tsx:85-87 | Splitting a join of separator-free pieces gives back the pieces. |
| Text.ToLowerAsciiSpec | client/src/app/page.tsx:95 | Lower-casing leaves no upper-case ASCII letter, turns each into a lower-case one and keeps every other character. It fixes exactly the strings without upper-case letters and is idempotent. |
| Text.LinesContains | server/algos/regression.py:227-255 | Every line of a template occurs in its text. |
| Text.NatToString | server/algos/regression.py:216-217 | Decimal text is non-empty, all digits, with no leading zero. |
| Text.IntToString | server/algos/regression.py:216-217 | The text starts with `-` exactly for negative numbers and ends with a digit. |
| Text.DigitsValueOfNatToString | server/algos/regression.py:216-217 | The digits read back as the number. |
| Text.ParseIntOfIntToString | server/routes/upload_routes.py:97-98 | `int()` reads back what `str()` writes for every integer. |
| Text.ParseIntOfBlank | server/routes/upload_routes.py:97-98 | `int()` rejects empty and blank text. |

## Left out

- Network, browser and file-system effects are out of scope, and the model
  records only the decisions around them:
  - `fetch`;
  - toasts as UI;
  - the clipboard API;
  - Blob downloads and `window.location`;
  - `file.text()`: what it resolves to, or that it rejected, is part of
    the `picked` parameter. The model follows both outcomes; a rejection
    shows the parse-error toast.
- `json.loads` is the parameter `loads`, `JSON.stringify` is `stringify`,
  and `str(e)` of an exception is `describe`. Their exact texts belong to
  the runtimes.
- pandas, scikit-learn, matplotlib and joblib are not modelled, and neither
  are `time.time()` and the writes to disk. One run's outcome is the
  `Builder.Runtime` parameter: the score text or the fitting error, the
  dump, plot and write errors, and the clock reading.
- Exceptions.PyInt: only ASCII digits are modelled. Python's `int()` also
  accepts the other Unicode decimal digits (category Nd, such as the
  fullwidth `４２`), and the random-state inputs are text fields, so such
  text can reach the route. The model rejects it with `IntLiteral` where
  Python would convert it. The Nd table is not modelled.
- Values: JSON numbers are integers only. A float in the options, such as
  `{"dropFirstColumn": 0.0}`, cannot be expressed. The dashboard sends
  booleans for every switch.
- Builder.Run: the score is the text of `str(round(score * 100, 2))`. Floats
  are not modelled.
- Dashboard.DownloadUrl: the `catch` branch with "Failed to download plot"
  or "Failed to download model" is not modelled. Assigning
  `window.location.href` is browser navigation, and the model treats it as
  succeeding.
- The `print` calls in the route and the commented-out code are left out.
  They have no effect on the response.
- The download and plot routes that serve `/download/...` and `/plot/...`
  are not part of this model. The model stops at the links the route
  writes.
- Paths.Basename: it models `ntpath.basename` for paths with `\` or `/`
  separators. Drive letters and UNC prefixes are not modelled; the names
  the builders produce have none.
- ClientPage: `handleRunCode`, save, copy and clear on the client page are
  not modelled. `handleRunCode` posts to `/api/run-ml-pipeline`, a route
  the server does not define; the others are the same UI effects the
  dashboard model covers.
- ClientPage.ModelFor: the model fragments' texts are modelled by the names
  they read and bind. Only their first lines and the lines the properties
  quote are checked word for word.
- The other builders in `regression.py` and `classification.py` are not
  part of this model. The route never calls them.
- Csv.Parse: strings are sequences of characters. There is no UTF-16
  surrogate handling, and `toLowerCase` folds ASCII letters only.
- Dashboard.FirstTruthy: the script and path members are read as JSON
  values. `AsText` of a non-string goes through the `stringify` parameter.
- EndToEnd: the corrected end-to-end runs assume that `json.loads` reads
  back what `JSON.stringify` wrote for the switches (`DecodesSwitches`).
  It is a property of the two runtimes, stated as a precondition.

## Findings

| source | as written | input that shows it | evidently intended | confidence | as-written member | corrected member |
|---|---|---|---|---|---|---|
| client/src/app/page.tsx:125-148 | `generateCode` appends the load fragment (`pd.read_csv`) before the import fragment (`import pandas as pd`) | any uploaded CSV with the initial switches: the script's first statement reads `pd` | the imports come first, so the initial switches give a script whose names are all bound | not executed | ClientPage.PandasReadBeforeImport | ClientPage.IntendedDefaultsAreClosed |
| server/routes/upload_routes.py:151-158 | the route reads `output_path[4]`, but the builders return four results and `output_path` starts as the 3-character `'ans'` | a `polynomial-regression` request whose run succeeds gives a 4-item list, so `output_path[4]` raises IndexError and the answer is 500 | the builders also return the script `s`, and a successful run is answered 200 | not executed | Route.CompletedRunIsListIndex | Route.RegressionAnswered |
| client/src/app/dashboard/page.tsx:182 | the request sends `formData.options`, initialised with only `importLibraries` on, while the switches show `options` with drop, split and scaling on; only a toggle copies one into the other | upload a CSV and press "Run & Fetch" without touching a switch: drop, split and scaling are sent as `false` | the request sends the switches shown | not executed | Dashboard.FirstRunSendsOtherOptions | Dashboard.IntendedAgreesWhenMirrored |

=== FILE: builder.dfy ===
/**
  What the two builders do after the script text is built: the steps
  whose outcome depends on the data and the libraries, and the list of
  results a successful run returns. pandas, scikit-learn, matplotlib,
  joblib, the clock and the file system are not modelled; what they do in
  one run is a `Runtime` value.
 */
module Builder {

  import opened Outcomes
  import Text
  import opened Values
  import opened Exceptions
  import Paths

  /** What the libraries and the file system do during one run: the score
      the fitted model reaches (the text of `str(round(score * 100, 2))`)
      or the message of the exception reading, preprocessing or fitting
      raised; the message of an exception raised while saving the model,
      the plot or the script, if any; and the clock reading
      `int(time.time())`. */
  datatype Runtime = Runtime(
    fit: Result<string, string>,
    dump: Option<string>,
    plot: Option<string>,
    write: Option<string>,
    timestamp: int)

  /** The names of the files a run saves under the processed folder; `tag`
      is the builder's prefix (`r3`, `c6`). */
  function ModelName(tag: string): string {
    tag + "_model.joblib"
  }

  function ScriptName(tag: string): string {
    tag + ".py"
  }

  function PlotName(tag: string, timestamp: int): string {
    tag + "_plot_" + Text.IntToString(timestamp) + ".png"
  }

  /** The decimal text of an integer holds no path separator. */
  lemma IntTextIsPlain(n: int)
    ensures Paths.IsPlainName(Text.IntToString(n))
  {
    var t := Text.IntToString(n);
    if n < 0 {
      assert forall i :: 1 <= i < |t| ==> t[i] == Text.NatToString(-n)[i - 1];
    }
  }

  /** With a plain tag, the three file names are plain. */
  lemma NamesArePlain(tag: string, timestamp: int)
    requires Paths.IsPlainName(tag)
    ensures Paths.IsPlainName(ModelName(tag))
    ensures Paths.IsPlainName(ScriptName(tag))
    ensures Paths.IsPlainName(PlotName(tag, timestamp))
  {
    IntTextIsPlain(timestamp);
  }

  /** The four results of a successful run: the saved model, the saved
      script, the score line and the saved plot. */
  function Outputs(folder: string, tag: string, scoreLabel: string, score: string, timestamp: int)
    : (out: seq<Value>)
    ensures |out| == 4 && forall i :: 0 <= i < 4 ==> out[i].Str?
    ensures out[2] == Str(scoreLabel + score + "%")
  {
    [Str(Paths.Join(folder, ModelName(tag))),
     Str(Paths.Join(folder, ScriptName(tag))),
     Str(scoreLabel + score + "%"),
     Str(Paths.Join(folder, PlotName(tag, timestamp)))]
  }

  /** The route shows each saved file by its base name: the names the
      builder gave them under the processed folder. */
  lemma OutputNames(folder: string, tag: string, scoreLabel: string, score: string, timestamp: int)
    requires Paths.IsPlainName(tag)
    ensures var out := Outputs(folder, tag, scoreLabel, score, timestamp);
      && Paths.Basename(out[0].s) == ModelName(tag)
      && Paths.Basename(out[1].s) == ScriptName(tag)
      && Paths.Basename(out[3].s) == PlotName(tag, timestamp)
  {
    NamesArePlain(tag, timestamp);
    Paths.BasenameOfJoin(folder, ModelName(tag));
    Paths.BasenameOfJoin(folder, ScriptName(tag));
    Paths.BasenameOfJoin(folder, PlotName(tag, timestamp));
  }

  /** The steps of a run after the script text is built, in the order the
      builders take them: fitting (which reads, preprocesses and scores),
      joining the model path onto the folder, dumping the model, reading
      the scaler for the plot when `scalerUnbound`, saving the plot and
      writing the script. The first that fails ends the run. */
  function Run(rt: Runtime, folder: Value, tag: string, scoreLabel: string, scalerUnbound: bool)
    : (r: Result<seq<Value>, Exc>)
    ensures r.Ok? <==> rt.fit.Ok? && folder.Str? && rt.dump.None? && !scalerUnbound
                       && rt.plot.None? && rt.write.None?
    ensures r.Ok? ==> r.value == Outputs(folder.s, tag, scoreLabel, rt.fit.value, rt.timestamp)
    ensures rt.fit.Err? ==> r == Err(Library(rt.fit.error))
    ensures rt.fit.Ok? && !folder.Str? ==> r == Err(PathType)
    ensures rt.fit.Ok? && folder.Str? && rt.dump.None? && scalerUnbound ==> r == Err(UnboundScaler)
  {
    if rt.fit.Err? then Err(Library(rt.fit.error))
    else if !folder.Str? then Err(PathType)
    else if rt.dump.Some? then Err(Library(rt.dump.value))
    else if scalerUnbound then Err(UnboundScaler)
    else if rt.plot.Some? then Err(Library(rt.plot.value))
    else if rt.write.Some? then Err(Library(rt.write.value))
    else Ok(Outputs(folder.s, tag, scoreLabel, rt.fit.value, rt.timestamp))
  }
}

=== FILE: classification.dfy ===
/**
  `func_decisionTreeClassifier`: reads its ten arguments, builds the text
  of a script that repeats the run, runs the pipeline and returns the
  paths of the saved model, script and plot with the accuracy line.

  The arguments, in the order the upload route passes them: the uploaded
  file, the processed folder, `dropFirstColumn`, `handleMissingData`, the
  categorical column (or -1), `categoricalTargetPresent`, `splitDataset`,
  `performScaling`, the split criterion and the random state.
 */
module Classification {

  import opened Outcomes
  import opened Values
  import opened Exceptions
  import opened Scripts
  import opened Pipeline
  import opened Builder
  import Paths
  import Text

  const Tag := "c6"
  const ScoreLabel := "Accuracy score = "
  const TestSize := "0.25"

  /** The switches, read as the builder reads them: the load starts at
      the drop option itself (`False` and `True` slice as 0 and 1), and
      imputation, the target encoding, the split and the scaling run when
      their option equals 1; a column is encoded unless the categorical
      argument is -1. */
  function Switches(arr: seq<Value>): Plan
    requires |arr| == 10
  {
    Plan(
      ind := PyStr(arr[2]),
      impute := PyEqNum(arr[3], 1),
      encode := !PyEqNum(arr[4], -1),
      cat := PyStr(arr[4]),
      labelTarget := PyEqNum(arr[5], 1),
      split := PyEqNum(arr[6], 1),
      rs := PyStr(arr[9]),
      scale := PyEqNum(arr[7], 1))
  }

  /** The fragments of the script, closing with the decision tree of the
      requested criterion and random state. */
  function Fragments(arr: seq<Value>): seq<Frag>
    requires |arr| == 10
  {
    Frags(Switches(arr), TestSize, TreeFit(PyStr(arr[8]), PyStr(arr[9])))
  }

  /** The script text the builder writes to `c6.py`. */
  function Script(arr: seq<Value>): string
    requires |arr| == 10
  {
    ScriptText(Fragments(arr))
  }

  /** One call: the four results on success, the first exception
      otherwise. The decision-region plot reads the scaler, so a run
      without scaling stops there. */
  function DecisionTreeClassifier(arr: seq<Value>, rt: Runtime): (r: Result<seq<Value>, Exc>)
    requires |arr| == 10
    ensures r.Ok? <==> rt.fit.Ok? && arr[1].Str? && rt.dump.None? && PyEqNum(arr[7], 1)
                       && rt.plot.None? && rt.write.None?
    ensures r.Ok? ==> |r.value| == 4 && r.value[2] == Str(ScoreLabel + rt.fit.value + "%")
    ensures r.Ok? ==> forall i :: 0 <= i < 4 ==> r.value[i].Str?
    ensures r.Ok? ==>
      && Paths.Basename(r.value[0].s) == ModelName(Tag)
      && Paths.Basename(r.value[1].s) == ScriptName(Tag)
      && Paths.Basename(r.value[3].s) == PlotName(Tag, rt.timestamp)
    ensures rt.fit.Err? ==> r == Err(Library(rt.fit.error))
    ensures rt.fit.Ok? && !arr[1].Str? ==> r == Err(PathType)
    ensures rt.fit.Ok? && arr[1].Str? && rt.dump.None? && !PyEqNum(arr[7], 1) ==>
      r == Err(UnboundScaler)
  {
    var r := Run(rt, arr[1], Tag, ScoreLabel, !PyEqNum(arr[7], 1));
    if r.Ok? then
      OutputNames(arr[1].s, Tag, ScoreLabel, rt.fit.value, rt.timestamp);
      r
    else r
  }

  /** The builder as the upload route reads its result: the same call,
      returning the script text as a fifth result. */
  function DecisionTreeClassifierIntended(arr: seq<Value>, rt: Runtime): (r: Result<seq<Value>, Exc>)
    requires |arr| == 10
    ensures r.Ok? <==> DecisionTreeClassifier(arr, rt).Ok?
    ensures r.Err? ==> r == DecisionTreeClassifier(arr, rt)
    ensures r.Ok? ==> |r.value| == 5 && r.value[..4] == DecisionTreeClassifier(arr, rt).value
    ensures r.Ok? ==> r.value[4] == Str(Script(arr))
  {
    match DecisionTreeClassifier(arr, rt)
    case Ok(out) => Ok(out + [Str(Script(arr))])
    case Err(e) => Err(e)
  }

  // ---------------------------------------------------------------------
  // The script
  // ---------------------------------------------------------------------

  /** The script holds a fragment exactly when its switch is on. */
  lemma ScriptSwitches(arr: seq<Value>)
    requires |arr| == 10
    ensures var fs := Fragments(arr);
      && fs[0] == Imports
      && fs[1] == Load(PyStr(arr[2]))
      && (Impute in fs <==> PyEqNum(arr[3], 1))
      && (Encode(PyStr(arr[4])) in fs <==> !PyEqNum(arr[4], -1))
      && (Label in fs <==> PyEqNum(arr[5], 1))
      && (Split(TestSize, PyStr(arr[9])) in fs <==> PyEqNum(arr[6], 1))
      && (Scale in fs <==> PyEqNum(arr[7], 1))
      && fs[|fs| - 1] == TreeFit(PyStr(arr[8]), PyStr(arr[9]))
  {
    FragsContain(Switches(arr), TestSize, TreeFit(PyStr(arr[8]), PyStr(arr[9])));
  }

  /** The script reads `filepath` and `PROCESSED_FOLDER` from its runner,
      the training and test sets when the split is off, and the scaler
      `sc` when the scaling is off. */
  lemma ScriptUnbound(arr: seq<Value>)
    requires |arr| == 10
    ensures Undefined(Blocks(Fragments(arr), FragText))
      == {Filepath, ProcessedFolder}
         + (if PyEqNum(arr[6], 1) then {} else {XTrain, XTest, YTrain, YTest})
         + (if PyEqNum(arr[7], 1) then {} else {Sc})
    ensures Sc in Undefined(Blocks(Fragments(arr), FragText)) <==> !PyEqNum(arr[7], 1)
  {
    FragsUndefined(Switches(arr), TestSize, TreeFit(PyStr(arr[8]), PyStr(arr[9])), FragText);
  }

  /** The script and the run agree on the scaler: when every library step
      succeeds, the run succeeds exactly when the script binds `sc`
      before the plot reads it. */
  lemma ScalerAgreement(arr: seq<Value>, rt: Runtime)
    requires |arr| == 10 && arr[1].Str?
    requires rt.fit.Ok? && rt.dump.None? && rt.plot.None? && rt.write.None?
    ensures DecisionTreeClassifier(arr, rt).Ok? <==> Sc !in Undefined(Blocks(Fragments(arr), FragText))
  {
    ScriptUnbound(arr);
  }

  /** The criterion and the random state are written into the script. */
  lemma CriterionInScript(arr: seq<Value>) returns (off: int)
    requires |arr| == 10
    ensures Text.OccursAt(CriterionLine(PyStr(arr[8]), PyStr(arr[9])), Script(arr), off)
  {
    var fs := Fragments(arr);
    assert fs[|fs| - 1] == TreeFit(PyStr(arr[8]), PyStr(arr[9]));
    off := CriterionLineOccurs(fs, PyStr(arr[8]), PyStr(arr[9]));
  }

  /** With the split on, its test size and random state are written into
      the script. */
  lemma SplitInScript(arr: seq<Value>) returns (off: int)
    requires |arr| == 10 && PyEqNum(arr[6], 1)
    ensures Text.OccursAt(SplitLine(TestSize, PyStr(arr[9])), Script(arr), off)
  {
    FragsContain(Switches(arr), TestSize, TreeFit(PyStr(arr[8]), PyStr(arr[9])));
    off := SplitLineOccurs(Fragments(arr), TestSize, PyStr(arr[9]));
  }
}

=== FILE: client_page.dfy ===
/**
  The generator page (`client/src/app/page.tsx`): the state it keeps,
  `handleFileUpload`, `toggleOption`, `handleAlgorithmChange` with its
  `algorithmOptions` table, and `generateCode`, which appends fixed
  fragments in a fixed order, each switched on by one flag.
 */
module ClientPage {

  import opened Outcomes
  import Text
  import Csv
  import Options
  import opened Scripts
  import opened Order

  // ---------------------------------------------------------------------
  // State
  // ---------------------------------------------------------------------

  /** `algorithmCategory`: `""`, `"classification"` or `"regression"`. */
  datatype Category = NoCategory | Classification | Regression

  /** The state of the page that `generateCode` reads and the handlers write. */
  datatype PageState = PageState(
    code: string,
    options: Options.Flags,
    selectedAlgorithm: string,
    algorithmCategory: Category,
    uploadedFile: Option<string>,
    datasetInfo: Option<Csv.DatasetInfo>)

  const InitialState := PageState("", Options.InitialOptions, "", NoCategory, None, None)

  // ---------------------------------------------------------------------
  // Upload
  // ---------------------------------------------------------------------

  /** `handleFileUpload`: `picked` is the chosen file's name and what
      `file.text()` resolved to (`None` when it rejected), or `None` when
      the picker returned nothing. */
  function HandleFileUpload(s: PageState, picked: Option<(string, Option<string>)>): (r: (PageState, Toast))
    ensures picked.None? ==> r == (s, NoToast)
    ensures picked.Some? && !Csv.IsCsvName(picked.value.0) ==> r == (s, ErrorToast("Please upload a CSV file."))
    ensures picked.Some? && Csv.IsCsvName(picked.value.0) && picked.value.1.None? ==>
      r == (s, ErrorToast("Could not parse the CSV file. Please check the format."))
    ensures r.0.datasetInfo != s.datasetInfo ==> picked.Some? && Csv.IsCsvName(picked.value.0)
    ensures r.1.ErrorToast? ==> r.0 == s
    ensures r.1.SuccessToast? <==> (picked.Some? && Csv.Describe(picked.value.0, picked.value.1).Ok?)
    ensures r.1.SuccessToast? ==> && r.0.datasetInfo == Some(Csv.Describe(picked.value.0, picked.value.1).value)
                                  && r.0.uploadedFile == Some(picked.value.0)
  {
    match picked
    case None => (s, NoToast)
    case Some((name, text)) =>
      match Csv.Describe(name, text)
      case Err(e) => (s, ErrorToast(Csv.UploadErrorMessage(e)))
      case Ok(info) =>
        (s.(uploadedFile := Some(name), datasetInfo := Some(info)), SuccessToast(Csv.UploadedMessage(info)))
  }

  // ---------------------------------------------------------------------
  // Toggles and the algorithm select
  // ---------------------------------------------------------------------

  /** `toggleOption(key)`: only the one flag changes. */
  function ToggleOption(s: PageState, k: Options.Key): (r: PageState)
    ensures Options.Get(r.options, k) != Options.Get(s.options, k)
    ensures forall k' :: k' != k ==> Options.Get(r.options, k') == Options.Get(s.options, k')
    ensures r.(options := s.options) == s
  {
    s.(options := Options.Toggle(s.options, k))
  }

  /** An entry of `algorithmOptions`. */
  datatype AlgorithmOption = AlgorithmOption(title: string, value: string, category: Category)

  /** `algorithmOptions`: the select offers the two categories themselves. */
  const AlgorithmOptions: seq<AlgorithmOption> := [
    AlgorithmOption("Classification", "classification", Classification),
    AlgorithmOption("Regression", "regression", Regression)
  ]

  /** `algorithmOptions.find((a) => a.value === value)`. */
  function FindOption(table: seq<AlgorithmOption>, value: string): (r: Option<AlgorithmOption>)
    ensures r.Some? ==> r.value in table && r.value.value == value
    ensures r.None? ==> forall i :: 0 <= i < |table| ==> table[i].value != value
  {
    if |table| == 0 then None
    else if table[0].value == value then Some(table[0])
    else FindOption(table[1..], value)
  }

  /** `handleAlgorithmChange`: the selected value becomes the algorithm,
      and its category is looked up in `algorithmOptions`. */
  function HandleAlgorithmChange(s: PageState, value: string): (r: PageState)
    ensures r.selectedAlgorithm == value
    ensures r.algorithmCategory == Classification <==> value == "classification"
    ensures r.algorithmCategory == Regression <==> value == "regression"
    ensures r.(selectedAlgorithm := s.selectedAlgorithm, algorithmCategory := s.algorithmCategory) == s
  {
    var found := FindOption(AlgorithmOptions, value);
    s.(selectedAlgorithm := value,
       algorithmCategory := if found.Some? then found.value.category else NoCategory)
  }

  // ---------------------------------------------------------------------
  // The fragments of generateCode
  // ---------------------------------------------------------------------

  /** The model fragments of the two `switch` statements. */
  datatype ModelKind =
    | LogisticRegressionModel | SvmModel | DecisionTreeModel
    | RandomForestClassifierModel | NaiveBayesModel
    | LinearRegressionModel | PolynomialRegressionModel | SvrModel
    | DecisionTreeRegressionModel | RandomForestRegressionModel

  /** The `switch` on `(algorithmCategory, selectedAlgorithm)`; pairs not
      listed add nothing. */
  function ModelFor(category: Category, algorithm: string): (r: Option<ModelKind>)
    ensures r.Some? ==> category != NoCategory
    ensures r.Some? ==> algorithm in {"logistic-regression", "svm", "decision-tree",
    "random-forest-classifier", "naive-bayes", "linear-regression", "polynomial-regression",
    "svr", "decision-tree-regression", "random-forest-regression"}
  {
    match category
    case NoCategory => None
    case Classification =>
      if algorithm == "logistic-regression" then Some(LogisticRegressionModel)
      else if algorithm == "svm" then Some(SvmModel)
      else if algorithm == "decision-tree" then Some(DecisionTreeModel)
      else if algorithm == "random-forest-classifier" then Some(RandomForestClassifierModel)
      else if algorithm == "naive-bayes" then Some(NaiveBayesModel)
      else None
    case Regression =>
      if algorithm == "linear-regression" then Some(LinearRegressionModel)
      else if algorithm == "polynomial-regression" then Some(PolynomialRegressionModel)
      else if algorithm == "svr" then Some(SvrModel)
      else if algorithm == "decision-tree-regression" then Some(DecisionTreeRegressionModel)
      else if algorithm == "random-forest-regression" then Some(RandomForestRegressionModel)
      else None
  }

  /** One fragment `generateCode` may append. */
  datatype Stage =
    | LoadStage(fileName: string)
    | ImportsStage
    | DropStage
    | ImputeStage
    | EncodeStage
    | SplitStage
    | ScaleStage
    | ModelStage(kind: ModelKind)

  /** The position of each fragment in the fixed order. */
  function Rank(st: Stage): nat {
    match st
    case LoadStage(_) => 0
    case ImportsStage => 1
    case DropStage => 2
    case ImputeStage => 3
    case EncodeStage => 4
    case SplitStage => 5
    case ScaleStage => 6
    case ModelStage(_) => 7
  }

  const LoadPrefix := "# Load dataset\ndataset = pd.read_csv('"
  const EncoderLine := "ct = ColumnTransformer(transformers=[('encoder', OneHotEncoder(), [0])], remainder='passthrough')"
  const SplitLine := "X_train, X_test, y_train, y_test = train_test_split(X, y, test_size=0.2, random_state=0)"
  const EncodeLines := ["# Encode categorical data", EncoderLine, "X = np.array(ct.fit_transform(X))"]
  const SplitLines := ["# Split dataset into training and test set", SplitLine]

  /** The lines of a model fragment: a heading comment, the import of the
      estimator, its construction, the fit on the training set and the
      prediction on the test set. */
  function ModelLines(k: ModelKind): (ls: seq<string>) {
    [ModelHeading(k)] + ModelBody(k)
  }

  /** The heading comment of a model fragment. */
  function ModelHeading(k: ModelKind): string {
    match k
    case LogisticRegressionModel => "# Logistic Regression"
    case SvmModel => "# Support Vector Machine"
    case DecisionTreeModel => "# Decision Tree Classification"
    case RandomForestClassifierModel => "# Random Forest Classification"
    case NaiveBayesModel => "# Naive Bayes"
    case LinearRegressionModel => "# Linear Regression"
    case PolynomialRegressionModel => "# Polynomial Regression"
    case SvrModel => "# Support Vector Regression"
    case DecisionTreeRegressionModel => "# Decision Tree Regression"
    case RandomForestRegressionModel => "# Random Forest Regression"
  }

  /** The lines of a model fragment after its heading. */
  function ModelBody(k: ModelKind): seq<string> {
    match k
    case LogisticRegressionModel => [
      "from sklearn.linear_model import LogisticRegression",
      "classifier = LogisticRegression(random_state=0)",
      "classifier.fit(X_train, y_train)",
      "y_pred = classifier.predict(X_test)"]
    case SvmModel => [
      "from sklearn.svm import SVC",
      "classifier = SVC(kernel='rbf', random_state=0)",
      "classifier.fit(X_train, y_train)",
      "y_pred = classifier.predict(X_test)"]
    case DecisionTreeModel => [
      "from sklearn.tree import DecisionTreeClassifier",
      "classifier = DecisionTreeClassifier(criterion='entropy', random_state=0)",
      "classifier.fit(X_train, y_train)",
      "y_pred = classifier.predict(X_test)"]
    case RandomForestClassifierModel => [
      "from sklearn.ensemble import RandomForestClassifier",
      "classifier = RandomForestClassifier(n_estimators=10, criterion='entropy', random_state=0)",
      "classifier.fit(X_train, y_train)",
      "y_pred = classifier.predict(X_test)"]
    case NaiveBayesModel => [
      "from sklearn.naive_bayes import GaussianNB",
      "classifier = GaussianNB()",
      "classifier.fit(X_train, y_train)",
      "y_pred = classifier.predict(X_test)"]
    case LinearRegressionModel => [
      "from sklearn.linear_model import LinearRegression",
      "regressor = LinearRegression()",
      "regressor.fit(X_train, y_train)",
      "y_pred = regressor.predict(X_test)"]
    case PolynomialRegressionModel => [
      "from sklearn.preprocessing import PolynomialFeatures",
      "from sklearn.linear_model import LinearRegression",
      "poly_reg = PolynomialFeatures(degree=4)",
      "X_poly = poly_reg.fit_transform(X_train)",
      "regressor = LinearRegression()",
      "regressor.fit(X_poly, y_train)",
      "y_pred = regressor.predict(poly_reg.transform(X_test))"]
    case SvrModel => [
      "from sklearn.svm import SVR",
      "regressor = SVR(kernel='rbf')",
      "regressor.fit(X_train, y_train)",
      "y_pred = regressor.predict(X_test)"]
    case DecisionTreeRegressionModel => [
      "from sklearn.tree import DecisionTreeRegressor",
      "regressor = DecisionTreeRegressor(random_state=0)",
      "regressor.fit(X_train, y_train)",
      "y_pred = regressor.predict(X_test)"]
    case RandomForestRegressionModel => [
      "from sklearn.ensemble import RandomForestRegressor",
      "regressor = RandomForestRegressor(n_estimators=10, random_state=0)",
      "regressor.fit(X_train, y_train)",
      "y_pred = regressor.predict(X_test)"]
  }

  function ModelText(k: ModelKind): string {
    Text.Lines(ModelLines(k))
  }

  /** The lines of the fragments other than the load and the model; each
      of these fragments ends with a blank line. */
  function FragmentLines(st: Stage): seq<string>
    requires !st.LoadStage? && !st.ModelStage?
  {
    match st
    case ImportsStage => [
      "from sklearn.model_selection import train_test_split",
      "from sklearn.preprocessing import StandardScaler",
      "from sklearn.compose import ColumnTransformer",
      "from sklearn.preprocessing import OneHotEncoder",
      "from sklearn.impute import SimpleImputer",
      "from sklearn.preprocessing import PolynomialFeatures",
      "from sklearn.linear_model import LinearRegression",
      "from sklearn.metrics import r2_score",
      "import pandas as pd",
      "import numpy as np"]
    case DropStage => [
      "# Drop first column",
      "X = dataset.iloc[:, 1:-1].values",
      "y = dataset.iloc[:, -1].values"]
    case ImputeStage => [
      "# Handle missing data",
      "imputer = SimpleImputer(missing_values=np.nan, strategy='mean')",
      "X = imputer.fit_transform(X)"]
    case EncodeStage => EncodeLines
    case SplitStage => SplitLines
    case ScaleStage => [
      "# Feature scaling",
      "sc = StandardScaler()",
      "X_train = sc.fit_transform(X_train)",
      "X_test = sc.transform(X_test)"]
  }

  /** The load fragment, which reads the uploaded file by its name. */
  function LoadText(fileName: string): string {
    LoadPrefix + fileName + "')\n" + Text.Lines([
      "print(f\"Dataset shape: {dataset.shape}\")",
      "print(f\"Dataset info:\")",
      "print(dataset.info())",
      ""])
  }

  /** The names a model fragment binds: its estimator class, the fitted
      estimator and the predictions. */
  function ModelBinds(k: ModelKind): set<Symbol> {
    match k
    case LogisticRegressionModel => {LogisticRegression, Classifier, YPred}
    case SvmModel => {Svc, Classifier, YPred}
    case DecisionTreeModel => {DecisionTreeClassifier, Classifier, YPred}
    case RandomForestClassifierModel => {RandomForestClassifier, Classifier, YPred}
    case NaiveBayesModel => {GaussianNB, Classifier, YPred}
    case LinearRegressionModel => {LinearRegression, Regressor, YPred}
    case PolynomialRegressionModel => {PolynomialFeatures, LinearRegression, PolyReg, XPoly, Regressor, YPred}
    case SvrModel => {Svr, Regressor, YPred}
    case DecisionTreeRegressionModel => {DecisionTreeRegressor, Regressor, YPred}
    case RandomForestRegressionModel => {RandomForestRegressor, Regressor, YPred}
  }

  /** A fragment as a script block: its text, taken from `text`, and the
      names it reads and binds. The text table is a parameter so that the
      facts that do not depend on the wording are stated for every table;
      the page uses `StageText`. */
  function StageBlock(st: Stage, text: Stage -> string): Block {
    Block(text(st), StageUses(st), StageBinds(st))
  }

  /** The text of a fragment. */
  function StageText(st: Stage): string {
    match st
    case LoadStage(f) => LoadText(f)
    case ModelStage(k) => ModelText(k)
    case _ => Text.Lines(FragmentLines(st) + [""])
  }

  /** The names a fragment reads before binding them. */
  function StageUses(st: Stage): set<Symbol> {
    match st
    case LoadStage(_) => {Pd}
    case ImportsStage => {}
    case DropStage => {Dataset}
    case ImputeStage => {SimpleImputer, Np, X}
    case EncodeStage => {ColumnTransformer, OneHotEncoder, Np, X}
    case SplitStage => {TrainTestSplit, X, Y}
    case ScaleStage => {StandardScaler, XTrain, XTest}
    case ModelStage(_) => {XTrain, YTrain, XTest}
  }

  /** The names a fragment binds. */
  function StageBinds(st: Stage): set<Symbol> {
    match st
    case LoadStage(_) => {Dataset}
    case ImportsStage =>
      {TrainTestSplit, StandardScaler, ColumnTransformer, OneHotEncoder, SimpleImputer,
       PolynomialFeatures, LinearRegression, R2Score, Pd, Np}
    case DropStage => {X, Y}
    case ImputeStage => {Imputer, X}
    case EncodeStage => {Ct, X}
    case SplitStage => {XTrain, XTest, YTrain, YTest}
    case ScaleStage => {Sc, XTrain, XTest}
    case ModelStage(k) => ModelBinds(k)
  }

  function Blocks(sts: seq<Stage>, text: Stage -> string): (bs: seq<Block>)
    ensures |bs| == |sts|
    ensures forall i :: 0 <= i < |sts| ==> bs[i] == StageBlock(sts[i], text)
  {
    seq(|sts|, i requires 0 <= i < |sts| => StageBlock(sts[i], text))
  }

  // ---------------------------------------------------------------------
  // generateCode
  // ---------------------------------------------------------------------

  /** Whether the fragment of a given rank is switched on. */
  predicate IsActive(s: PageState, rank: int) {
    if rank == 0 then s.datasetInfo.Some?
    else if rank == 1 then s.options.importLibraries
    else if rank == 2 then s.options.dropFirstColumn
    else if rank == 3 then s.options.handleMissingData
    else if rank == 4 then s.options.categoricalData
    else if rank == 5 then s.options.splitDataset
    else if rank == 6 then s.options.performScaling
    else if rank == 7 then s.selectedAlgorithm != "" && s.algorithmCategory != NoCategory
                           && ModelFor(s.algorithmCategory, s.selectedAlgorithm).Some?
    else false
  }

  /** The fragment of a given rank, built from the page state. */
  function StageAt(s: PageState, rank: int): (st: Stage)
    requires IsActive(s, rank)
    ensures Rank(st) == rank
  {
    if rank == 0 then LoadStage(s.datasetInfo.value.fileName)
    else if rank == 1 then ImportsStage
    else if rank == 2 then DropStage
    else if rank == 3 then ImputeStage
    else if rank == 4 then EncodeStage
    else if rank == 5 then SplitStage
    else if rank == 6 then ScaleStage
    else ModelStage(ModelFor(s.algorithmCategory, s.selectedAlgorithm).value)
  }

  /** The ranks of the emitted fragments, in script order. */
  function Ranks(s: PageState, importsFirst: bool): (rs: seq<int>)
    ensures forall i :: 0 <= i < |rs| ==> IsActive(s, rs[i])
  {
    var rs := Filter(r => IsActive(s, r), Schedule(importsFirst));
    assert forall i :: 0 <= i < |rs| ==> rs[i] in rs;
    rs
  }

  /** The fragments `generateCode` appends, in order. */
  function Stages(s: PageState, importsFirst: bool): (sts: seq<Stage>)
    ensures |sts| == |Ranks(s, importsFirst)|
    ensures forall i :: 0 <= i < |sts| ==> sts[i] == StageAt(s, Ranks(s, importsFirst)[i])
  {
    var rs := Ranks(s, importsFirst);
    seq(|rs|, i requires 0 <= i < |rs| => StageAt(s, rs[i]))
  }

  /** The code `generateCode` stores with `setCode`. */
  function GenerateCode(s: PageState): string {
    Render(Blocks(Stages(s, false), StageText))
  }

  /** The same fragments with the imports moved in front of the load. */
  function GenerateCodeIntended(s: PageState): string {
    Render(Blocks(Stages(s, true), StageText))
  }

  // ---------------------------------------------------------------------
  // Which fragments are emitted, and in which order
  // ---------------------------------------------------------------------

  /** Every emitted fragment is switched on, is the one its rank
      prescribes, and the positions of the fragments increase along the
      script. */
  lemma StagesInOrder(s: PageState, importsFirst: bool)
    ensures var sts := Stages(s, importsFirst);
      forall i :: 0 <= i < |sts| ==>
        IsActive(s, Rank(sts[i])) && sts[i] == StageAt(s, Rank(sts[i]))
    ensures var sts := Stages(s, importsFirst);
      forall i, j :: 0 <= i < j < |sts| ==>
        Pos(Rank(sts[i]), importsFirst) < Pos(Rank(sts[j]), importsFirst)
  {
    ScheduleIncreasing(importsFirst);
    FilterIncreasing(r => IsActive(s, r), Schedule(importsFirst), importsFirst);
  }

  /** Every fragment that is switched on is emitted. */
  lemma IndexOfRank(s: PageState, importsFirst: bool, r: int) returns (i: int)
    requires IsActive(s, r)
    ensures 0 <= i < |Stages(s, importsFirst)|
    ensures Stages(s, importsFirst)[i] == StageAt(s, r)
  {
    var rs := Ranks(s, importsFirst);
    assert r in Schedule(importsFirst);
    FilterComplete(r => IsActive(s, r), Schedule(importsFirst), r);
    i :| 0 <= i < |rs| && rs[i] == r;
  }

  /** The emitted fragments are exactly those switched on, in the fixed
      order, and the load fragment names the uploaded file. */
  lemma StagesSpec(s: PageState, importsFirst: bool)
    ensures var sts := Stages(s, importsFirst);
      forall r :: (exists i :: 0 <= i < |sts| && Rank(sts[i]) == r) <==> IsActive(s, r)
    ensures var sts := Stages(s, importsFirst);
      forall i, j :: 0 <= i < j < |sts| ==>
        Pos(Rank(sts[i]), importsFirst) < Pos(Rank(sts[j]), importsFirst)
    ensures var sts := Stages(s, importsFirst);
      forall i :: 0 <= i < |sts| && sts[i].LoadStage? ==>
        s.datasetInfo.Some? && sts[i].fileName == s.datasetInfo.value.fileName
  {
    var sts := Stages(s, importsFirst);
    StagesInOrder(s, importsFirst);
    forall r | IsActive(s, r)
      ensures exists i :: 0 <= i < |sts| && Rank(sts[i]) == r
    {
      var i := IndexOfRank(s, importsFirst, r);
      assert Rank(sts[i]) == r;
    }
  }

  // ---------------------------------------------------------------------
  // Does the generated script bind every name before reading it?
  // ---------------------------------------------------------------------

  /** Whether a model fragment is emitted. */
  predicate HasModel(s: PageState) {
    IsActive(s, 7)
  }

  /** What the script needs for every name to be bound before it is read:
      pandas must be imported before the dataset is loaded, the first
      column drop is the only fragment that binds `X` and `y` from the
      dataset, the library fragment binds the preprocessing classes, and
      the split binds the training and test sets. */
  predicate Prerequisites(s: PageState, importsFirst: bool) {
    && (s.datasetInfo.Some? ==> importsFirst && s.options.importLibraries)
    && (s.options.dropFirstColumn ==> s.datasetInfo.Some?)
    && (s.options.handleMissingData ==> s.options.importLibraries && s.options.dropFirstColumn)
    && (s.options.categoricalData ==> s.options.importLibraries && s.options.dropFirstColumn)
    && (s.options.splitDataset ==> s.options.importLibraries && s.options.dropFirstColumn)
    && (s.options.performScaling ==> s.options.importLibraries && s.options.splitDataset)
    && (HasModel(s) ==> s.options.splitDataset)
  }

  /** The rank of the fragment that first binds a name some fragment reads. */
  function Binder(x: Symbol): int {
    match x
    case Dataset => 0
    case X => 2
    case Y => 2
    case XTrain => 5
    case XTest => 5
    case YTrain => 5
    case _ => 1
  }

  /** Under the prerequisites, every name a fragment reads is bound by a
      fragment that is emitted at an earlier position. */
  lemma UsesAreProvided(s: PageState, importsFirst: bool, r: int, x: Symbol)
    requires Prerequisites(s, importsFirst)
    requires IsActive(s, r) && x in StageUses(StageAt(s, r))
    ensures IsActive(s, Binder(x))
    ensures Pos(Binder(x), importsFirst) < Pos(r, importsFirst)
    ensures x in StageBinds(StageAt(s, Binder(x)))
  {
    BinderBinds(StageAt(s, r), x, StageAt(s, Binder(x)));
  }

  /** A name some fragment reads is bound by the fragment of the rank
      `Binder` gives it. */
  lemma BinderBinds(st: Stage, x: Symbol, b: Stage)
    requires x in StageUses(st) && Rank(b) == Binder(x)
    ensures x in StageBinds(b)
  {
  }

  /** The def/use view of the fragments, without their texts. */
  function Shapes(sts: seq<Stage>): (bs: seq<Block>)
    ensures |bs| == |sts|
    ensures forall i :: 0 <= i < |sts| ==> bs[i] == Block("", StageUses(sts[i]), StageBinds(sts[i]))
  {
    seq(|sts|, i requires 0 <= i < |sts| => Block("", StageUses(sts[i]), StageBinds(sts[i])))
  }

  lemma UndefinedOfBlocks(sts: seq<Stage>, text: Stage -> string)
    ensures Undefined(Blocks(sts, text)) == Undefined(Shapes(sts))
  {
    assert Skeleton(Blocks(sts, text)) == Shapes(sts);
    UndefinedOfSkeleton(Blocks(sts, text));
  }

  lemma ClosedIfPrerequisites(s: PageState, importsFirst: bool)
    requires Prerequisites(s, importsFirst)
    ensures Closed(Shapes(Stages(s, importsFirst)))
  {
    var sts := Stages(s, importsFirst);
    var bs := Shapes(sts);
    StagesInOrder(s, importsFirst);
    forall i, x | 0 <= i < |bs| && x in bs[i].uses
      ensures exists j :: 0 <= j < i && x in bs[j].binds
    {
      var r := Rank(sts[i]);
      assert sts[i] == StageAt(s, r);
      UsesAreProvided(s, importsFirst, r, x);
      var j := IndexOfRank(s, importsFirst, Binder(x));
      assert Pos(Rank(sts[j]), importsFirst) < Pos(Rank(sts[i]), importsFirst);
      assert j < i;
      assert x in bs[j].binds;
    }
    forall x
      ensures x !in Undefined(bs)
    {
      UndefinedSpec(bs, x);
    }
  }

  /** A fragment reads `x` and no fragment at an earlier position binds
      it, so the script reads `x` unbound. */
  lemma UserIsUndefined(s: PageState, importsFirst: bool, r: int, x: Symbol)
    requires IsActive(s, r) && x in StageUses(StageAt(s, r))
    requires forall q :: IsActive(s, q) && Pos(q, importsFirst) < Pos(r, importsFirst) ==>
      x !in StageBinds(StageAt(s, q))
    ensures x in Undefined(Shapes(Stages(s, importsFirst)))
  {
    var sts := Stages(s, importsFirst);
    var bs := Shapes(sts);
    StagesInOrder(s, importsFirst);
    var i := IndexOfRank(s, importsFirst, r);
    forall j | 0 <= j < i
      ensures x !in bs[j].binds
    {
      assert Pos(Rank(sts[j]), importsFirst) < Pos(Rank(sts[i]), importsFirst);
    }
    assert UsedBeforeBound(bs, x, i);
    UsedBeforeBoundIsUndefined(bs, x, i);
  }

  lemma NotClosedIfViolated(s: PageState, importsFirst: bool)
    requires !Prerequisites(s, importsFirst)
    ensures !Closed(Shapes(Stages(s, importsFirst)))
  {
    var o := s.options;
    if s.datasetInfo.Some? && !(importsFirst && o.importLibraries) {
      UserIsUndefined(s, importsFirst, 0, Pd);
    } else if o.dropFirstColumn && s.datasetInfo.None? {
      UserIsUndefined(s, importsFirst, 2, Dataset);
    } else if o.handleMissingData && !o.importLibraries {
      UserIsUndefined(s, importsFirst, 3, SimpleImputer);
    } else if o.handleMissingData && !o.dropFirstColumn {
      UserIsUndefined(s, importsFirst, 3, X);
    } else if o.categoricalData && !o.importLibraries {
      UserIsUndefined(s, importsFirst, 4, ColumnTransformer);
    } else if o.categoricalData && !o.dropFirstColumn {
      UserIsUndefined(s, importsFirst, 4, X);
    } else {
      LaterStageViolated(s, importsFirst);
    }
  }

  /** The cases of the previous lemma where the split, the scaling or the
      model fragment lacks what it reads. */
  lemma LaterStageViolated(s: PageState, importsFirst: bool)
    requires !Prerequisites(s, importsFirst)
    requires s.datasetInfo.Some? ==> importsFirst && s.options.importLibraries
    requires s.options.dropFirstColumn ==> s.datasetInfo.Some?
    requires s.options.handleMissingData ==> s.options.importLibraries && s.options.dropFirstColumn
    requires s.options.categoricalData ==> s.options.importLibraries && s.options.dropFirstColumn
    ensures !Closed(Shapes(Stages(s, importsFirst)))
  {
    var o := s.options;
    if o.splitDataset && !o.importLibraries {
      UserIsUndefined(s, importsFirst, 5, TrainTestSplit);
    } else if o.splitDataset && !o.dropFirstColumn {
      UserIsUndefined(s, importsFirst, 5, Y);
    } else if o.performScaling && !o.importLibraries {
      UserIsUndefined(s, importsFirst, 6, StandardScaler);
    } else if o.performScaling && !o.splitDataset {
      UserIsUndefined(s, importsFirst, 6, XTrain);
    } else {
      UserIsUndefined(s, importsFirst, 7, YTrain);
    }
  }

  /** The script binds every name before reading it exactly when the
      prerequisites hold. */
  lemma ClosedIff(s: PageState, importsFirst: bool)
    ensures Closed(Blocks(Stages(s, importsFirst), StageText)) <==> Prerequisites(s, importsFirst)
  {
    UndefinedOfBlocks(Stages(s, importsFirst), StageText);
    if Prerequisites(s, importsFirst) {
      ClosedIfPrerequisites(s, importsFirst);
    } else {
      NotClosedIfViolated(s, importsFirst);
    }
  }

  /** As written, the load fragment reads `pd` before the import fragment
      binds it, so every script for an uploaded dataset fails there. */
  lemma PandasReadBeforeImport(s: PageState)
    requires s.datasetInfo.Some?
    ensures Pd in Undefined(Blocks(Stages(s, false), StageText))
  {
    UserIsUndefined(s, false, 0, Pd);
    UndefinedOfBlocks(Stages(s, false), StageText);
  }

  /** As written, the only scripts that bind every name they read are the
      empty one and the bare import block. */
  lemma AsWrittenClosedIff(s: PageState)
    ensures Closed(Blocks(Stages(s, false), StageText)) <==>
      forall i :: 0 <= i < |Stages(s, false)| ==> Stages(s, false)[i] == ImportsStage
  {
    ClosedIff(s, false);
    StagesInOrder(s, false);
    if !Prerequisites(s, false) {
      var r := ActiveBesidesImports(s);
      var i := IndexOfRank(s, false, r);
      assert Rank(Stages(s, false)[i]) == r;
    }
  }

  /** When the as-written prerequisites fail, some fragment other than the
      import block is switched on. */
  lemma ActiveBesidesImports(s: PageState) returns (r: int)
    requires !Prerequisites(s, false)
    ensures IsActive(s, r) && r != 1
  {
    var o := s.options;
    r := if s.datasetInfo.Some? then 0 else if o.dropFirstColumn then 2
      else if o.handleMissingData then 3 else if o.categoricalData then 4
      else if o.splitDataset then 5 else if o.performScaling then 6 else 7;
  }

  /** With the imports in front, the default options and an uploaded
      dataset give a script that binds every name it reads. */
  lemma IntendedDefaultsAreClosed(s: PageState)
    requires s.options == Options.InitialOptions && s.datasetInfo.Some?
    ensures Closed(Blocks(Stages(s, true), StageText))
  {
    ClosedIff(s, true);
  }

  // ---------------------------------------------------------------------
  // The generated text
  // ---------------------------------------------------------------------

  lemma StageTextNonEmpty(st: Stage)
    ensures StageText(st) != ""
  {
    match st
    case LoadStage(f) => LoadTextStartsWithRead(f);
    case ModelStage(k) => ModelTextNonEmpty(k);
    case _ => FragmentTextNonEmpty(st);
  }

  lemma ModelTextNonEmpty(k: ModelKind)
    ensures ModelText(k) != ""
  {
    assert |ModelLines(k)| >= 1;
  }

  lemma FragmentTextNonEmpty(st: Stage)
    requires !st.LoadStage? && !st.ModelStage?
    ensures Text.Lines(FragmentLines(st) + [""]) != ""
  {
    assert |FragmentLines(st) + [""]| >= 1;
  }

  /** For any text table with no empty fragment, the code is empty
      exactly when no fragment is switched on. */
  lemma RenderEmptyIff(s: PageState, importsFirst: bool, text: Stage -> string)
    requires forall st :: text(st) != ""
    ensures Render(Blocks(Stages(s, importsFirst), text)) == "" <==> forall r :: !IsActive(s, r)
  {
    var sts := Stages(s, importsFirst);
    RenderEmpty(Blocks(sts, text));
    StagesSpec(s, importsFirst);
    StagesInOrder(s, importsFirst);
  }

  /** `generateCode` leaves the editor empty exactly when no fragment is
      switched on. */
  lemma GenerateCodeEmptyIff(s: PageState)
    ensures GenerateCode(s) == "" <==> forall r :: !IsActive(s, r)
  {
    forall st ensures StageText(st) != "" {
      StageTextNonEmpty(st);
    }
    RenderEmptyIff(s, false, StageText);
  }

  /** With a dataset uploaded, the script starts with the load fragment,
      whatever the texts of the others. */
  lemma RenderStartsWithLoad(s: PageState, text: Stage -> string)
    requires s.datasetInfo.Some?
    ensures var load := text(LoadStage(s.datasetInfo.value.fileName));
      var code := Render(Blocks(Stages(s, false), text));
      |load| <= |code| && code[..|load|] == load
  {
    var sts := Stages(s, false);
    assert Ranks(s, false)[0] == 0;
    Scripts.RenderStartsWithFirst(Blocks(sts, text));
  }

  /** The load fragment opens by reading the file by its name. */
  lemma LoadTextStartsWithRead(f: string)
    ensures var head := LoadPrefix + f + "')";
      |head| <= |LoadText(f)| && LoadText(f)[..|head|] == head
  {
  }

  /** With a dataset uploaded, the code opens by reading the uploaded
      file by its name. */
  lemma GenerateCodeStartsWithLoad(s: PageState)
    requires s.datasetInfo.Some?
    ensures var head := LoadPrefix + s.datasetInfo.value.fileName + "')";
      |head| <= |GenerateCode(s)| && GenerateCode(s)[..|head|] == head
  {
    var f := s.datasetInfo.value.fileName;
    var head := LoadPrefix + f + "')";
    var load := LoadText(f);
    var code := GenerateCode(s);
    RenderStartsWithLoad(s, StageText);
    assert StageText(LoadStage(f)) == load;
    LoadTextStartsWithRead(f);
    Text.PrefixTransitive(code, load, head);
  }

  /** Every fragment that is switched on appears in the code, whatever the
      text table. */
  lemma FragmentOccurs(s: PageState, importsFirst: bool, text: Stage -> string, r: int) returns (off: int)
    requires IsActive(s, r)
    ensures Text.OccursAt(text(StageAt(s, r)), Render(Blocks(Stages(s, importsFirst), text)), off)
  {
    var i := IndexOfRank(s, importsFirst, r);
    off := BlockInRender(Blocks(Stages(s, importsFirst), text), i);
  }

  /** A fragment made of the lines `ls` puts each of them into the code. */
  lemma FragmentLineOccurs(s: PageState, text: Stage -> string, r: int, ls: seq<string>, k: int)
    returns (off: int)
    requires IsActive(s, r) && text(StageAt(s, r)) == Text.Lines(ls) && 0 <= k < |ls|
    ensures Text.OccursAt(ls[k], Render(Blocks(Stages(s, false), text)), off)
  {
    var code := Render(Blocks(Stages(s, false), text));
    var o1 := FragmentOccurs(s, false, text, r);
    var o2 := Text.LinesContains(ls, k);
    Text.OccursTransitive(ls[k], Text.Lines(ls), code, o2, o1);
    off := o1 + o2;
  }

  /** With categorical encoding switched on, the code builds the
      one-hot `ColumnTransformer` on column 0. */
  lemma EncoderLineOccurs(s: PageState) returns (off: int)
    requires s.options.categoricalData
    ensures Text.OccursAt(EncoderLine, GenerateCode(s), off)
  {
    assert StageAt(s, 4) == EncodeStage;
    assert StageText(EncodeStage) == Text.Lines(EncodeLines + [""]);
    off := FragmentLineOccurs(s, StageText, 4, EncodeLines + [""], 1);
  }

  /** With splitting switched on, the code holds out a fifth of the rows
      with a fixed seed. */
  lemma SplitLineOccurs(s: PageState) returns (off: int)
    requires s.options.splitDataset
    ensures Text.OccursAt(SplitLine, GenerateCode(s), off)
  {
    assert StageAt(s, 5) == SplitStage;
    assert StageText(SplitStage) == Text.Lines(SplitLines + [""]);
    off := FragmentLineOccurs(s, StageText, 5, SplitLines + [""], 1);
  }

  // ---------------------------------------------------------------------
  // Reachability of the model fragments
  // ---------------------------------------------------------------------

  /** The select hands `handleAlgorithmChange` a category value, so the
      selected algorithm is then `"classification"` or `"regression"` and
      matches no case of either `switch`: after any change no model
      fragment is emitted. */
  lemma NoModelAfterAlgorithmChange(s: PageState, value: string)
    ensures !HasModel(HandleAlgorithmChange(s, value))
  {
  }

  /** The initial state emits no model fragment either. */
  lemma NoModelInitially()
    ensures !HasModel(InitialState)
  {
  }

  /** Other handlers leave the model switch as they found it. */
  lemma ModelUnaffectedByOtherHandlers(s: PageState, k: Options.Key, picked: Option<(string, Option<string>)>)
    ensures HasModel(ToggleOption(s, k)) == HasModel(s)
    ensures HasModel(HandleFileUpload(s, picked).0) == HasModel(s)
  {
  }
}

=== FILE: csv.dfy ===
/**
  The dataset descriptor both client pages build from an uploaded file:
  `parseCSV` (identical on the generator page and on the dashboard) and
  the checks of `handleFileUpload` around it.
 */
module Csv {

  import opened Outcomes
  import Text

  /** What `parseCSV` returns. */
  datatype Table = Table(headers: seq<string>, rows: seq<seq<string>>, totalRows: int)

  /** The `datasetInfo` record the pages keep after a successful upload. */
  datatype DatasetInfo = DatasetInfo(fileName: string, rows: int, columns: seq<string>, preview: seq<seq<string>>)

  /** Why an upload did not replace `datasetInfo`. */
  datatype UploadError =
    | NotCsv       // the name does not end in `.csv`
    | Unreadable   // `file.text()` rejected
    | Unparseable  // the reader threw

  /** One cell: trimmed first, then every double quote removed, wherever
      it stands. Because quotes are removed after trimming, blanks that
      stood inside quotes survive. */
  function Cell(raw: string): (c: string)
    ensures '"' !in c
  {
    Text.RemoveAll(Text.JsTrim(raw), '"')
  }

  /** The cells of one line, split on every comma. */
  function Cells(line: string): (cs: seq<string>)
    ensures |cs| >= 1
    ensures forall i :: 0 <= i < |cs| ==> '"' !in cs[i]
  {
    var parts := Text.Split(line, ',');
    seq(|parts|, i requires 0 <= i < |parts| => Cell(parts[i]))
  }

  /** `line.trim()` is falsy. */
  predicate IsBlank(line: string) {
    Text.JsTrim(line) == ""
  }

  /** `lines.filter((line) => line.trim())`. */
  function KeepNonBlank(lines: seq<string>): (r: seq<string>)
    ensures |r| <= |lines|
    ensures forall i :: 0 <= i < |r| ==> !IsBlank(r[i])
    ensures forall x :: x in r <==> x in lines && !IsBlank(x)
  {
    if |lines| == 0 then []
    else if IsBlank(lines[0]) then KeepNonBlank(lines[1..])
    else [lines[0]] + KeepNonBlank(lines[1..])
  }

  /** The lines of the text, split on `\n` only, without the blank ones. */
  function NonBlankLines(text: string): seq<string> {
    KeepNonBlank(Text.Split(text, '\n'))
  }

  function Min(a: int, b: int): int {
    if a <= b then a else b
  }

  /** `parseCSV`. With no non-blank line, `lines[0]` is `undefined` and the
      call to `split` on it throws; that is the error case. */
  function Parse(text: string): (r: Result<Table, UploadError>)
    ensures r.Err? <==> Text.AllSpace(text, Text.IsJsSpace)
    ensures r.Err? ==> r.error == Unparseable
    ensures r.Ok? ==> TableOf(NonBlankLines(text), r.value)
  {
    NoLinesIffAllSpace(text);
    ParseLines(NonBlankLines(text))
  }

  /** `t` is what the reader makes of the non-blank lines `lines`: the
      header from the first, at most five preview rows from the next ones,
      and a row count that leaves the header out. */
  predicate TableOf(lines: seq<string>, t: Table) {
    && |lines| >= 1
    && t.totalRows == |lines| - 1
    && |t.rows| == Min(5, t.totalRows)
    && t.headers == Cells(lines[0])
    && (forall i :: 0 <= i < |t.rows| ==> t.rows[i] == Cells(lines[i + 1]))
  }

  function ParseLines(lines: seq<string>): (r: Result<Table, UploadError>)
    ensures r.Err? <==> |lines| == 0
    ensures r.Err? ==> r.error == Unparseable
    ensures r.Ok? ==> TableOf(lines, r.value)
  {
    if |lines| == 0 then Err(Unparseable)
    else
      var n := Min(5, |lines| - 1);
      Ok(Table(Cells(lines[0]), seq(n, i requires 0 <= i < n => Cells(lines[i + 1])), |lines| - 1))
  }

  // ---------------------------------------------------------------------
  // Properties of the reader
  // ---------------------------------------------------------------------

  lemma {:induction false} KeepNonBlankEmpty(lines: seq<string>)
    ensures KeepNonBlank(lines) == [] <==> forall i :: 0 <= i < |lines| ==> IsBlank(lines[i])
  {
    if |lines| > 0 {
      KeepNonBlankEmpty(lines[1..]);
      assert forall i :: 1 <= i < |lines| ==> lines[i] == lines[1..][i - 1];
    }
  }

  lemma {:induction false} JoinAllSpace(parts: seq<string>)
    ensures Text.AllSpace(Text.Join(parts, '\n'), Text.IsJsSpace)
      <==> forall i :: 0 <= i < |parts| ==> Text.AllSpace(parts[i], Text.IsJsSpace)
  {
    if |parts| > 1 {
      JoinAllSpace(parts[1..]);
      var j := Text.Join(parts, '\n');
      var rest := Text.Join(parts[1..], '\n');
      assert j == parts[0] + ("\n" + rest);
      assert forall i :: 1 <= i < |parts| ==> parts[i] == parts[1..][i - 1];
      AllSpaceConcat(parts[0], "\n" + rest);
      AllSpaceConcat("\n", rest);
    }
  }

  lemma AllSpaceConcat(a: string, b: string)
    ensures Text.AllSpace(a + b, Text.IsJsSpace)
      <==> Text.AllSpace(a, Text.IsJsSpace) && Text.AllSpace(b, Text.IsJsSpace)
  {
    if Text.AllSpace(a, Text.IsJsSpace) && Text.AllSpace(b, Text.IsJsSpace) {
      forall i | 0 <= i < |a + b| ensures Text.IsJsSpace((a + b)[i]) {
        if i >= |a| {
          assert (a + b)[i] == b[i - |a|];
        }
      }
    }
    if Text.AllSpace(a + b, Text.IsJsSpace) {
      assert forall i :: 0 <= i < |a| ==> (a + b)[i] == a[i];
      assert forall i :: 0 <= i < |b| ==> (a + b)[|a| + i] == b[i];
    }
  }

  /** The reader fails exactly when the text is whitespace only. */
  lemma NoLinesIffAllSpace(text: string)
    ensures NonBlankLines(text) == [] <==> Text.AllSpace(text, Text.IsJsSpace)
  {
    var lines := Text.Split(text, '\n');
    KeepNonBlankEmpty(lines);
    forall i | 0 <= i < |lines|
      ensures IsBlank(lines[i]) <==> Text.AllSpace(lines[i], Text.IsJsSpace)
    {
      Text.TrimEmptyIffBlank(lines[i], Text.IsJsSpace);
    }
    Text.JoinSplit(text, '\n');
    JoinAllSpace(lines);
  }

  /** The line at index `k` of the raw text is the first one that is not
      whitespace only. */
  predicate FirstNonBlankAt(lines: seq<string>, k: int) {
    0 <= k < |lines| && !IsBlank(lines[k])
    && forall j :: 0 <= j < k ==> IsBlank(lines[j])
  }

  lemma {:induction false} KeepNonBlankHead(lines: seq<string>) returns (k: int)
    requires KeepNonBlank(lines) != []
    ensures FirstNonBlankAt(lines, k) && KeepNonBlank(lines)[0] == lines[k]
  {
    if IsBlank(lines[0]) {
      var k1 := KeepNonBlankHead(lines[1..]);
      k := k1 + 1;
      forall j | 0 <= j < k ensures IsBlank(lines[j]) {
        if j > 0 {
          assert lines[j] == lines[1..][j - 1];
        }
      }
    } else {
      k := 0;
    }
  }

  /** The header row is the first raw line that is not whitespace only,
      cut at every comma into cleaned cells. */
  lemma HeaderIsFirstNonBlankLine(text: string) returns (k: int)
    requires Parse(text).Ok?
    ensures FirstNonBlankAt(Text.Split(text, '\n'), k)
    ensures Parse(text).value.headers == Cells(Text.Split(text, '\n')[k])
  {
    var lines := Text.Split(text, '\n');
    var t := Parse(text).value;
    assert t.headers == Cells(KeepNonBlank(lines)[0]);
    k := KeepNonBlankHead(lines);
  }

  /** A file whose only non-blank line is the header has no rows and an
      empty preview. */
  lemma HeaderOnly(text: string)
    requires |NonBlankLines(text)| == 1
    ensures Parse(text).Ok?
    ensures Parse(text).value.totalRows == 0 && Parse(text).value.rows == []
  {
    NoLinesIffAllSpace(text);
  }

  /** Quotes are removed after trimming, so a quoted cell keeps the blanks
      written inside its quotes. */
  lemma QuotedPaddingIsKept(s: string)
    requires '"' !in s
    ensures Cell("\"" + s + "\"") == s
  {
    var q := "\"" + s + "\"";
    assert !Text.IsJsSpace(q[0]) && !Text.IsJsSpace(q[|q| - 1]);
    assert Text.TrimStart(q, Text.IsJsSpace) == q;
    assert Text.TrimEnd(q, Text.IsJsSpace) == q;
    assert q == "\"" + (s + "\"");
    Text.RemoveAllAppend("\"", s + "\"", '"');
    Text.RemoveAllAppend(s, "\"", '"');
  }

  /** The filter splits over concatenation: it keeps the non-blank lines
      of each part, in their order. */
  lemma {:induction false} KeepNonBlankAppend(a: seq<string>, b: seq<string>)
    ensures KeepNonBlank(a + b) == KeepNonBlank(a) + KeepNonBlank(b)
    decreases |a|
  {
    if |a| == 0 {
      assert a + b == b;
    } else {
      assert (a + b)[0] == a[0];
      assert (a + b)[1..] == a[1..] + b;
      KeepNonBlankAppend(a[1..], b);
    }
  }

  /** The positions of the non-blank lines. */
  function NonBlankIndices(lines: seq<string>): set<int> {
    set i | 0 <= i < |lines| && !IsBlank(lines[i])
  }

  /** The filter keeps one line for each non-blank line. */
  lemma {:induction false} KeepNonBlankCount(lines: seq<string>)
    ensures |KeepNonBlank(lines)| == |NonBlankIndices(lines)|
    decreases |lines|
  {
    if |lines| == 0 {
      assert NonBlankIndices(lines) == {};
    } else {
      var init := lines[..|lines| - 1];
      var last := lines[|lines| - 1];
      assert lines == init + [last];
      KeepNonBlankAppend(init, [last]);
      KeepNonBlankCount(init);
      assert [last][1..] == [];
      NonBlankIndicesSnoc(init, last);
    }
  }

  /** One more line adds its position exactly when it is not blank. */
  lemma NonBlankIndicesSnoc(init: seq<string>, last: string)
    ensures IsBlank(last) ==> NonBlankIndices(init + [last]) == NonBlankIndices(init)
    ensures !IsBlank(last) ==> NonBlankIndices(init + [last]) == NonBlankIndices(init) + {|init|}
    ensures |init| !in NonBlankIndices(init)
  {
    var lines := init + [last];
    assert forall i :: 0 <= i < |init| ==> lines[i] == init[i];
    assert lines[|init|] == last;
  }

  /** `totalRows` is the number of non-blank lines less the header. */
  lemma RowCount(text: string)
    ensures Parse(text).Ok? ==>
      Parse(text).value.totalRows == |NonBlankIndices(Text.Split(text, '\n'))| - 1
  {
    KeepNonBlankCount(Text.Split(text, '\n'));
  }

  // ---------------------------------------------------------------------
  // handleFileUpload
  // ---------------------------------------------------------------------

  /** `file.name.toLowerCase().endsWith(".csv")`, with ASCII case folding. */
  predicate IsCsvName(name: string) {
    Text.EndsWith(Text.ToLowerAscii(name), ".csv")
  }

  /** The name ends in a dot followed by `csv` in any mix of cases. */
  lemma IsCsvNameSpec(name: string)
    ensures IsCsvName(name) <==>
      && |name| >= 4
      && name[|name| - 4] == '.'
      && name[|name| - 3] in {'c', 'C'}
      && name[|name| - 2] in {'s', 'S'}
      && name[|name| - 1] in {'v', 'V'}
  {
    var n := |name|;
    var l := Text.ToLowerAscii(name);
    if n >= 4 {
      assert l[n - 4..] == [l[n - 4], l[n - 3], l[n - 2], l[n - 1]];
    }
  }

  /** The part of `handleFileUpload` after a file was picked: the name
      check, then reading (`text` is what `file.text()` resolved to, `None`
      when it rejected) and parsing; on success the new `datasetInfo`. */
  function Describe(fileName: string, text: Option<string>): (r: Result<DatasetInfo, UploadError>)
    ensures !IsCsvName(fileName) ==> r == Err(NotCsv)
    ensures IsCsvName(fileName) && text.None? ==> r == Err(Unreadable)
    ensures IsCsvName(fileName) && text.Some? && Text.AllSpace(text.value, Text.IsJsSpace) ==> r == Err(Unparseable)
    ensures r.Ok? <==> IsCsvName(fileName) && text.Some? && !Text.AllSpace(text.value, Text.IsJsSpace)
    ensures r.Ok? ==> && r.value.fileName == fileName
                      && r.value.rows == Parse(text.value).value.totalRows
                      && r.value.columns == Parse(text.value).value.headers
                      && r.value.preview == Parse(text.value).value.rows
                      && |r.value.preview| <= 5
  {
    if !IsCsvName(fileName) then Err(NotCsv)
    else if text.None? then Err(Unreadable)
    else match Parse(text.value)
      case Err(e) => Err(e)
      case Ok(t) => Ok(DatasetInfo(fileName, t.totalRows, t.headers, t.rows))
  }

  /** The error toasts of `handleFileUpload`. */
  function UploadErrorMessage(e: UploadError): string {
    match e
    case NotCsv => "Please upload a CSV file."
    case Unreadable | Unparseable => "Could not parse the CSV file. Please check the format."
  }

  /** The success toast: `Dataset uploaded: name (R rows, C columns)`. */
  function UploadedMessage(info: DatasetInfo): string {
    "Dataset uploaded: " + info.fileName + " (" + Text.IntToString(info.rows)
      + " rows, " + Text.IntToString(|info.columns|) + " columns)"
  }
}

=== FILE: dashboard.dfy ===
/**
  The dashboard page (`/dashboard`): the editor, the preprocessing
  switches, the algorithm panel and the "Run & Fetch" round trip to the
  upload route. The page state is the set of React state hooks; every
  handler is a function from the state (and what the user or the browser
  supplied) to the next state and the notification it shows.

  Two copies of the switches live in the state: `options`, which the
  switches display, and `formData.options`, which is what a run sends.
  They start out different and `toggleOption` writes the same record to
  both, so they agree from the first toggle on.
 */
module Dashboard {

  import opened Outcomes
  import Text
  import Csv
  import Options
  import opened Values
  import Http

  // ---------------------------------------------------------------------
  // State
  // ---------------------------------------------------------------------

  /** The `formData` record. `selectedAlgorithm` and `generatedCode` are
      not in the initial literal and appear once a handler sets them. */
  datatype FormData = FormData(
    dataset: Option<string>,
    options: Options.Flags,
    algorithmCategory: string,
    selectedAlgorithm: Option<string>,
    generatedCode: Option<string>)

  /** The algorithm parameters the side panel edits. */
  datatype Inputs = Inputs(
    categoricalInput: string,
    categoricalTargetPresent: bool,
    polynomialDegree: string,
    regressionRandomState: string,
    decisionTreeCriterion: string,
    classificationRandomState: string)

  /** The page state. A file is kept by its name; `plotPath` and
      `modelPath` hold whatever JSON value the server sent under those
      keys (`None` is `null`). */
  datatype DashState = DashState(
    code: string,
    pythonFile: string,
    plotPath: Option<Value>,
    modelPath: Option<Value>,
    options: Options.Flags,
    selectedAlgorithm: string,
    algorithmCategory: string,
    uploadedFile: Option<string>,
    datasetInfo: Option<Csv.DatasetInfo>,
    formData: FormData,
    inputs: Inputs)

  /** The switches `formData.options` starts with: only the imports. */
  const InitialSentOptions := Options.Flags(
    importLibraries := true, dropFirstColumn := false, handleMissingData := false,
    categoricalData := false, splitDataset := false, performScaling := false)

  /** The state after the first render. */
  const InitialState := DashState(
    code := "", pythonFile := "", plotPath := None, modelPath := None,
    options := Options.InitialOptions,
    selectedAlgorithm := "", algorithmCategory := "",
    uploadedFile := None, datasetInfo := None,
    formData := FormData(None, InitialSentOptions, "classification", None, None),
    inputs := Inputs("", false, "2", "", "gini", ""))

  // ---------------------------------------------------------------------
  // Upload and switches
  // ---------------------------------------------------------------------

  /** `handleFileUpload`: `picked` is the first chosen file, if any, by
      name and what `file.text()` resolved to (`None` when it rejected).
      On success the file also becomes `formData.dataset`. */
  function HandleFileUpload(s: DashState, picked: Option<(string, Option<string>)>): (r: (DashState, Toast))
    ensures picked.None? ==> r == (s, NoToast)
    ensures picked.Some? && !Csv.IsCsvName(picked.value.0) ==>
      r == (s, ErrorToast(Csv.UploadErrorMessage(Csv.NotCsv)))
    ensures picked.Some? && Csv.IsCsvName(picked.value.0) && picked.value.1.None? ==>
      r == (s, ErrorToast(Csv.UploadErrorMessage(Csv.Unparseable)))
    ensures r.1.ErrorToast? ==> r.0 == s
    ensures r.1.SuccessToast? <==> (picked.Some? && Csv.Describe(picked.value.0, picked.value.1).Ok?)
    ensures r.1.SuccessToast? ==>
      && r.0.datasetInfo == Some(Csv.Describe(picked.value.0, picked.value.1).value)
      && r.0.uploadedFile == Some(picked.value.0)
      && r.0.formData.dataset == Some(picked.value.0)
    ensures r.0.formData.dataset != s.formData.dataset ==>
      r.0.formData.dataset.Some? && Csv.IsCsvName(r.0.formData.dataset.value)
  {
    match picked
    case None => (s, NoToast)
    case Some((name, text)) =>
      match Csv.Describe(name, text)
      case Err(e) => (s, ErrorToast(Csv.UploadErrorMessage(e)))
      case Ok(info) =>
        (s.(uploadedFile := Some(name), datasetInfo := Some(info),
            formData := s.formData.(dataset := Some(name))),
         SuccessToast(Csv.UploadedMessage(info)))
  }

  /** What the switches show and what a run sends are the same record. */
  predicate Mirrored(s: DashState) {
    s.formData.options == s.options
  }

  /** `toggleOption(key)`: the flipped record is written to both copies. */
  function ToggleOption(s: DashState, k: Options.Key): (r: DashState)
    ensures Options.Get(r.options, k) != Options.Get(s.options, k)
    ensures forall k' :: k' != k ==> Options.Get(r.options, k') == Options.Get(s.options, k')
    ensures Mirrored(r)
    ensures r.(options := s.options, formData := s.formData) == s
    ensures r.formData.(options := s.formData.options) == s.formData
  {
    var flipped := Options.Toggle(s.options, k);
    s.(options := flipped, formData := s.formData.(options := flipped))
  }

  /** On the first render the switches show imports, drop, split and scale
      switched on, while the record a run would send has only the imports:
      they disagree on three switches. */
  lemma InitialSwitchesDisagree()
    ensures !Mirrored(InitialState)
    ensures Options.Differences(InitialState.options, InitialState.formData.options)
      == {Options.DropFirstColumn, Options.SplitDataset, Options.PerformScaling}
  {
    var d := Options.Differences(InitialState.options, InitialState.formData.options);
    assert Options.DropFirstColumn in d;
  }

  // ---------------------------------------------------------------------
  // The algorithm panel
  // ---------------------------------------------------------------------

  /** The radio buttons each category shows; no category shows none. */
  function Offered(category: string): (algs: seq<string>)
    ensures category == "regression" ==> algs == ["linear-regression", "polynomial-regression"]
    ensures category == "classification" ==> algs == ["logistic-regression", "decision-tree"]
    ensures category != "regression" && category != "classification" ==> algs == []
    ensures |algs| <= 2
  {
    if category == "regression" then ["linear-regression", "polynomial-regression"]
    else if category == "classification" then ["logistic-regression", "decision-tree"]
    else []
  }

  /** Of the offered algorithms, all but polynomial regression and the
      decision tree are linear and logistic regression. */
  lemma OfferedWithoutBuilder(category: string, a: string)
    requires a in Offered(category)
    requires a != "polynomial-regression" && a != "decision-tree"
    ensures a == "linear-regression" || a == "logistic-regression"
  {
  }

  /** The category select. Choosing a category (even the same one again)
      clears the selected algorithm. */
  function SelectCategory(s: DashState, value: string): (r: DashState)
    ensures r.algorithmCategory == value && r.formData.algorithmCategory == value
    ensures r.selectedAlgorithm == ""
    ensures r.(algorithmCategory := s.algorithmCategory, selectedAlgorithm := s.selectedAlgorithm,
               formData := s.formData) == s
    ensures r.formData.(algorithmCategory := s.formData.algorithmCategory) == s.formData
  {
    s.(algorithmCategory := value, selectedAlgorithm := "",
       formData := s.formData.(algorithmCategory := value))
  }

  /** `handleAlgorithmSelect(algorithm)`. */
  function HandleAlgorithmSelect(s: DashState, algorithm: string): (r: DashState)
    ensures r.selectedAlgorithm == algorithm && r.formData.selectedAlgorithm == Some(algorithm)
    ensures r.(selectedAlgorithm := s.selectedAlgorithm, formData := s.formData) == s
    ensures r.formData.(selectedAlgorithm := s.formData.selectedAlgorithm) == s.formData
  {
    s.(selectedAlgorithm := algorithm, formData := s.formData.(selectedAlgorithm := Some(algorithm)))
  }

  /** The text and select inputs of the side panel. */
  datatype InputField =
    | CategoricalInput | PolynomialDegree | RegressionRandomState
    | DecisionTreeCriterion | ClassificationRandomState

  /** An input's `onChange`: its state hook takes the new value. */
  function SetInput(s: DashState, f: InputField, v: string): (r: DashState)
    ensures InputText(r.inputs, f) == v
    ensures forall g :: g != f ==> InputText(r.inputs, g) == InputText(s.inputs, g)
    ensures r.inputs.categoricalTargetPresent == s.inputs.categoricalTargetPresent
    ensures r.(inputs := s.inputs) == s
  {
    var i := s.inputs;
    s.(inputs := Inputs(
      if f == CategoricalInput then v else i.categoricalInput,
      i.categoricalTargetPresent,
      if f == PolynomialDegree then v else i.polynomialDegree,
      if f == RegressionRandomState then v else i.regressionRandomState,
      if f == DecisionTreeCriterion then v else i.decisionTreeCriterion,
      if f == ClassificationRandomState then v else i.classificationRandomState))
  }

  /** The value an input holds. */
  function InputText(i: Inputs, f: InputField): string {
    match f
    case CategoricalInput => i.categoricalInput
    case PolynomialDegree => i.polynomialDegree
    case RegressionRandomState => i.regressionRandomState
    case DecisionTreeCriterion => i.decisionTreeCriterion
    case ClassificationRandomState => i.classificationRandomState
  }

  /** The "categorical target present" switch. */
  function SetTargetPresent(s: DashState, b: bool): (r: DashState)
    ensures r.inputs.categoricalTargetPresent == b
    ensures forall f :: InputText(r.inputs, f) == InputText(s.inputs, f)
    ensures r.(inputs := s.inputs) == s
  {
    s.(inputs := s.inputs.(categoricalTargetPresent := b))
  }

  // ---------------------------------------------------------------------
  // Run & Fetch: the request
  // ---------------------------------------------------------------------

  const NoDatasetMessage := "Please upload a dataset first."

  /** `"true"` or `"false"`: `Boolean.prototype.toString`. */
  function BoolText(b: bool): string {
    if b then "true" else "false"
  }

  /** The first half of `handleRunCode`: without a dataset nothing is
      sent; otherwise the multipart body, fields in append order. The
      options sent are `formData.options`, not the switches. */
  function RunRequest(s: DashState): (r: Result<Http.Request, string>)
    ensures r.Err? <==> s.formData.dataset.None?
    ensures r.Err? ==> r.error == NoDatasetMessage
    ensures r.Ok? ==> r.value.dataset == s.formData.dataset && ReadsBack(r.value.form, s, s.formData.options)
  {
    if s.formData.dataset.None? then Err(NoDatasetMessage)
    else
      FormReadsBack(s, s.formData.options);
      Ok(Http.Request(s.formData.dataset, Form(s, s.formData.options)))
  }

  /** The text fields of the body, sending `options` as the switches. */
  function Form(s: DashState, options: Options.Flags): seq<(Http.Field, string)> {
    Http.Zip(Http.AppendOrder, FormValues(s, options))
  }

  /** The values of the text fields, in append order. */
  function FormValues(s: DashState, options: Options.Flags): (vs: seq<string>)
    ensures |vs| == |Http.AppendOrder|
  {
    [ Options.Json(options),
      s.selectedAlgorithm,
      s.inputs.categoricalInput,
      BoolText(s.inputs.categoricalTargetPresent),
      s.inputs.polynomialDegree,
      s.inputs.regressionRandomState,
      s.inputs.decisionTreeCriterion,
      s.inputs.classificationRandomState ]
  }

  /** What the route's `request.form.get` finds in the request: every field
      the page state holds, with `options` as the switch record. */
  predicate ReadsBack(form: seq<(Http.Field, string)>, s: DashState, options: Options.Flags) {
    && Http.FormGet(form, Http.OptionsField) == Some(Options.Json(options))
    && Http.FormGet(form, Http.SelectedAlgorithmField) == Some(s.selectedAlgorithm)
    && Http.FormGet(form, Http.CategoricalInputField) == Some(s.inputs.categoricalInput)
    && Http.FormGet(form, Http.CategoricalTargetPresentField) == Some(BoolText(s.inputs.categoricalTargetPresent))
    && Http.FormGet(form, Http.PolynomialDegreeField) == Some(s.inputs.polynomialDegree)
    && Http.FormGet(form, Http.RegressionRandomStateField) == Some(s.inputs.regressionRandomState)
    && Http.FormGet(form, Http.DecisionTreeCriterionField) == Some(s.inputs.decisionTreeCriterion)
    && Http.FormGet(form, Http.ClassificationRandomStateField) == Some(s.inputs.classificationRandomState)
  }

  /** Each field is sent once, so the route reads back what was put in. */
  lemma FormReadsBack(s: DashState, options: Options.Flags)
    ensures ReadsBack(Form(s, options), s, options)
  {
    var vs := FormValues(s, options);
    Http.AppendOrderDistinct();
    Http.ZipGet(Http.AppendOrder, vs, 0);
    Http.ZipGet(Http.AppendOrder, vs, 1);
    Http.ZipGet(Http.AppendOrder, vs, 2);
    Http.ZipGet(Http.AppendOrder, vs, 3);
    Http.ZipGet(Http.AppendOrder, vs, 4);
    Http.ZipGet(Http.AppendOrder, vs, 5);
    Http.ZipGet(Http.AppendOrder, vs, 6);
    Http.ZipGet(Http.AppendOrder, vs, 7);
  }

  /** The request sends what the switches show: what `handleRunCode`
      evidently means to send. */
  function RunRequestIntended(s: DashState): (r: Result<Http.Request, string>)
    ensures r.Err? <==> s.formData.dataset.None?
    ensures r.Err? ==> r.error == NoDatasetMessage
    ensures r.Ok? ==> r.value.dataset == s.formData.dataset && ReadsBack(r.value.form, s, s.options)
  {
    if s.formData.dataset.None? then Err(NoDatasetMessage)
    else
      FormReadsBack(s, s.options);
      Ok(Http.Request(s.formData.dataset, Form(s, s.options)))
  }

  /** A run straight after the upload, with no switch touched, sends drop,
      split and scale switched off although the switches show them on. */
  lemma FirstRunSendsOtherOptions(picked: (string, Option<string>))
    requires Csv.Describe(picked.0, picked.1).Ok?
    ensures var s := HandleFileUpload(InitialState, Some(picked)).0;
      && RunRequest(s).Ok?
      && Http.FormGet(RunRequest(s).value.form, Http.OptionsField) == Some(Options.Json(InitialSentOptions))
      && s.options != InitialSentOptions
  {
  }

  /** The two requests differ only while the copies disagree. */
  lemma IntendedAgreesWhenMirrored(s: DashState)
    requires Mirrored(s)
    ensures RunRequestIntended(s) == RunRequest(s)
  {
  }

  /** Besides the switches, the request reads the state only through the
      dataset, the selected algorithm and the inputs: the category and the
      `formData` copies of the algorithm and the code are never sent. */
  lemma RequestIgnoresDisplayOnly(s: DashState, category: string, fd: string, alg: Option<string>, gen: Option<string>)
    ensures var t := s.(algorithmCategory := category,
                        formData := s.formData.(algorithmCategory := fd, selectedAlgorithm := alg, generatedCode := gen));
      RunRequest(t) == RunRequest(s) && RunRequestIntended(t) == RunRequestIntended(s)
  {
  }

  // ---------------------------------------------------------------------
  // Run & Fetch: the response
  // ---------------------------------------------------------------------

  const RunFailedMessage := "Failed to process machine learning pipeline. Please check your Flask backend."
  const RunSucceededMessage := "Machine learning pipeline processed successfully!"

  /** The members that may carry the script, in the order they are tried;
      when none is truthy the whole response is shown. */
  const CodeKeys: seq<string> := ["rawPyStr", "python_code", "code"]
  /** The members that may carry the plot path, in order. */
  const PlotKeys: seq<string> := ["plot_path", "plotPath"]
  /** The members that may carry the model path, in order (note the
      camel-case spelling comes first here). */
  const ModelKeys: seq<string> := ["modelPath", "model_path"]

  /** Index `i` holds the first key of `keys` whose member in `result` is
      truthy. */
  predicate FirstTruthyAt(result: Value, keys: seq<string>, i: int) {
    && 0 <= i < |keys|
    && JsTruthyField(result, keys[i])
    && forall j :: 0 <= j < i ==> !JsTruthyField(result, keys[j])
  }

  /** The first key of `keys` whose member in `result` is truthy: the
      meaning of an `if … else if …` chain over the keys. */
  function FirstTruthy(result: Value, keys: seq<string>): (r: Option<string>)
    ensures r.None? <==> forall i :: 0 <= i < |keys| ==> !JsTruthyField(result, keys[i])
    ensures r.Some? ==> exists i :: FirstTruthyAt(result, keys, i) && keys[i] == r.value
  {
    if |keys| == 0 then None
    else if JsTruthyField(result, keys[0]) then (assert FirstTruthyAt(result, keys, 0); Some(keys[0]))
    else
      var r := FirstTruthy(result, keys[1..]);
      assert forall i :: 1 <= i < |keys| ==> keys[i] == keys[1..][i - 1];
      if r.Some? then
        var i :| FirstTruthyAt(result, keys[1..], i) && keys[1..][i] == r.value;
        assert FirstTruthyAt(result, keys, i + 1);
        r
      else r
  }

  /** The editor text of a member: a string as it is, any other value
      through `JSON.stringify(v, null, 2)`. */
  function AsText(v: Value, stringify: Value -> string): string {
    if v.Str? then v.s else stringify(v)
  }

  /** What the script members of `result` put in the editor. */
  function ScriptOf(result: Value, stringify: Value -> string): string {
    match FirstTruthy(result, CodeKeys)
    case Some(k) => AsText(Field(result, k).value, stringify)
    case None => stringify(result)
  }

  /** What the path members `keys` of `result` make of the stored path. */
  function PathOf(result: Value, keys: seq<string>, kept: Option<Value>): Option<Value> {
    match FirstTruthy(result, keys)
    case Some(k) => Field(result, k)
    case None => kept
  }

  /** The second half of `handleRunCode`. `outcome` is what `fetch`
      delivered (`None`: the request was rejected) and `stringify` is
      `JSON.stringify(…, null, 2)`. A non-2xx status and a `null` body
      (reading a member of `null` throws) both end in the error toast
      with nothing changed; otherwise the editor, the plot path and the
      model path are updated as the chains of `if` decide. */
  function ApplyResponse(s: DashState, outcome: Option<Http.Response>, stringify: Value -> string)
    : (r: (DashState, Toast))
    ensures r.1.SuccessToast? <==> outcome.Some? && Http.IsOk(outcome.value) && !outcome.value.body.Null?
    ensures !r.1.SuccessToast? ==> r == (s, ErrorToast(RunFailedMessage))
    ensures r.1.SuccessToast? ==>
      var result := outcome.value.body;
      && r.0.code == ScriptOf(result, stringify)
      && r.0.pythonFile == ScriptOf(result, stringify)
      && r.0.plotPath == PathOf(result, PlotKeys, s.plotPath)
      && r.0.modelPath == PathOf(result, ModelKeys, s.modelPath)
      && r.0.(code := s.code, pythonFile := s.pythonFile, plotPath := s.plotPath, modelPath := s.modelPath) == s
  {
    match outcome
    case None => (s, ErrorToast(RunFailedMessage))
    case Some(resp) =>
      if !Http.IsOk(resp) || resp.body.Null? then (s, ErrorToast(RunFailedMessage))
      else
        var result := resp.body;
        var text :=
          if JsTruthyField(result, "rawPyStr") then AsText(Field(result, "rawPyStr").value, stringify)
          else if JsTruthyField(result, "python_code") then AsText(Field(result, "python_code").value, stringify)
          else if JsTruthyField(result, "code") then AsText(Field(result, "code").value, stringify)
          else stringify(result);
        var plot :=
          if JsTruthyField(result, "plot_path") then Field(result, "plot_path")
          else if JsTruthyField(result, "plotPath") then Field(result, "plotPath")
          else s.plotPath;
        var model :=
          if JsTruthyField(result, "modelPath") then Field(result, "modelPath")
          else if JsTruthyField(result, "model_path") then Field(result, "model_path")
          else s.modelPath;
        ScriptChain(result, stringify);
        PathChain(result, "plot_path", "plotPath", s.plotPath);
        PathChain(result, "modelPath", "model_path", s.modelPath);
        (s.(code := text, pythonFile := text, plotPath := plot, modelPath := model),
         SuccessToast(RunSucceededMessage))
  }

  /** The three-way chain over the script members picks what `ScriptOf`
      picks. */
  lemma ScriptChain(result: Value, stringify: Value -> string)
    ensures ScriptOf(result, stringify) ==
      if JsTruthyField(result, "rawPyStr") then AsText(Field(result, "rawPyStr").value, stringify)
      else if JsTruthyField(result, "python_code") then AsText(Field(result, "python_code").value, stringify)
      else if JsTruthyField(result, "code") then AsText(Field(result, "code").value, stringify)
      else stringify(result)
  {
    var ks := CodeKeys;
    FirstTruthyCons(result, ks);
    FirstTruthyCons(result, ks[1..]);
    FirstTruthyCons(result, ks[1..][1..]);
  }

  /** One step of the search. */
  lemma FirstTruthyCons(result: Value, keys: seq<string>)
    requires |keys| > 0
    ensures FirstTruthy(result, keys) ==
      if JsTruthyField(result, keys[0]) then Some(keys[0]) else FirstTruthy(result, keys[1..])
  {
  }

  /** The two-way chain over the path members `a`, `b` picks what
      `PathOf` picks. */
  lemma PathChain(result: Value, a: string, b: string, kept: Option<Value>)
    ensures PathOf(result, [a, b], kept) ==
      if JsTruthyField(result, a) then Field(result, a)
      else if JsTruthyField(result, b) then Field(result, b)
      else kept
  {
    var ks := [a, b];
    FirstTruthyCons(result, ks);
    FirstTruthyCons(result, ks[1..]);
  }

  /** A stored path is never a falsy value: the page only stores one after
      testing it. */
  predicate PathsTruthy(s: DashState) {
    && (s.plotPath.Some? ==> JsTruthy(s.plotPath.value))
    && (s.modelPath.Some? ==> JsTruthy(s.modelPath.value))
  }

  lemma {:induction false} FirstTruthyIsTruthy(result: Value, keys: seq<string>)
    requires FirstTruthy(result, keys).Some?
    ensures Field(result, FirstTruthy(result, keys).value).Some?
    ensures JsTruthy(Field(result, FirstTruthy(result, keys).value).value)
  {
    var i :| FirstTruthyAt(result, keys, i) && keys[i] == FirstTruthy(result, keys).value;
  }

  /** A run keeps the stored paths truthy. */
  lemma ApplyResponseKeepsPathsTruthy(s: DashState, outcome: Option<Http.Response>, stringify: Value -> string)
    requires PathsTruthy(s)
    ensures PathsTruthy(ApplyResponse(s, outcome, stringify).0)
  {
    var r := ApplyResponse(s, outcome, stringify);
    if r.1.SuccessToast? {
      var result := outcome.value.body;
      if FirstTruthy(result, PlotKeys).Some? {
        FirstTruthyIsTruthy(result, PlotKeys);
      }
      if FirstTruthy(result, ModelKeys).Some? {
        FirstTruthyIsTruthy(result, ModelKeys);
      }
    }
  }

  // ---------------------------------------------------------------------
  // The editor
  // ---------------------------------------------------------------------

  /** `pythonFile || code`: what the editor shows, saves and copies. */
  function Shown(s: DashState): (t: string)
    ensures t == "" <==> s.pythonFile == "" && s.code == ""
  {
    if s.pythonFile != "" then s.pythonFile else s.code
  }

  /** The editor's `onChange`: the typed text goes to both hooks. */
  function EditCode(s: DashState, v: string): (r: DashState)
    ensures Shown(r) == v
    ensures r.(code := s.code, pythonFile := s.pythonFile) == s
  {
    s.(code := v, pythonFile := v)
  }

  const NothingToSaveMessage := "No Python code to save. Please generate or run code first."
  const SavedMessage := "Python file has been downloaded as ml_pipeline.py"
  const NothingToCopyMessage := "No code to copy."
  const CopiedMessage := "Code has been copied to clipboard."
  const CopyFailedMessage := "Could not copy code to clipboard."

  /** `handleSaveCode`: the text downloaded as `ml_pipeline.py`, if any,
      and the toast. */
  function SaveCode(s: DashState): (r: (Option<string>, Toast))
    ensures r.0.Some? <==> Shown(s) != ""
    ensures r.0.Some? ==> r.0.value == Shown(s) && r.1 == SuccessToast(SavedMessage)
    ensures r.0.None? ==> r.1 == ErrorToast(NothingToSaveMessage)
  {
    if s.pythonFile == "" && s.code == "" then (None, ErrorToast(NothingToSaveMessage))
    else (Some(if s.pythonFile != "" then s.pythonFile else s.code), SuccessToast(SavedMessage))
  }

  /** `handleCopyCode`: the text written to the clipboard, if any;
      `written` is whether the browser accepted the write. */
  function CopyCode(s: DashState, written: bool): (r: (Option<string>, Toast))
    ensures r.0.Some? <==> Shown(s) != "" && written
    ensures r.0.Some? ==> r.0.value == Shown(s)
    ensures Shown(s) == "" ==> r.1 == ErrorToast(NothingToCopyMessage)
  {
    var t := Shown(s);
    if t == "" then (None, ErrorToast(NothingToCopyMessage))
    else if written then (Some(t), SuccessToast(CopiedMessage))
    else (None, ErrorToast(CopyFailedMessage))
  }

  /** Saving and a successful copy deliver the same text, and refuse in
      the same states, though they test emptiness differently. */
  lemma SaveAndCopyAgree(s: DashState)
    ensures SaveCode(s).0 == CopyCode(s, true).0
  {
  }

  /** What was typed is what is saved. */
  lemma SaveAfterEdit(s: DashState, v: string)
    ensures SaveCode(EditCode(s, v)).0 == (if v == "" then None else Some(v))
  {
  }

  /** After a successful run the editor shows the script the response
      carried. */
  lemma ShownAfterRun(s: DashState, outcome: Option<Http.Response>, stringify: Value -> string)
    requires ApplyResponse(s, outcome, stringify).1.SuccessToast?
    ensures Shown(ApplyResponse(s, outcome, stringify).0) == ScriptOf(outcome.value.body, stringify)
  {
  }

  /** Empties the editor and forgets the plot and the model. */
  function Cleared(s: DashState): (r: DashState)
    ensures Shown(r) == "" && r.plotPath.None? && r.modelPath.None?
    ensures r.(code := s.code, pythonFile := s.pythonFile, plotPath := s.plotPath, modelPath := s.modelPath) == s
  {
    s.(code := "", pythonFile := "", plotPath := None, modelPath := None)
  }

  const ClearedMessage := "Editor cleared"
  const UseRunMessage := "Use 'Run & Fetch' to get Python code from backend"

  /** `clearEditor`. */
  function ClearEditor(s: DashState): (r: (DashState, Toast))
    ensures r.0 == Cleared(s).(formData := s.formData.(generatedCode := Some("")))
    ensures r.1 == PlainToast(ClearedMessage)
  {
    (s.(code := "", pythonFile := "", plotPath := None, modelPath := None,
        formData := s.formData.(generatedCode := Some(""))),
     PlainToast(ClearedMessage))
  }

  /** `generateCode`: on this page it generates nothing and only clears. */
  function GenerateCode(s: DashState): (r: (DashState, Toast))
    ensures r.0 == Cleared(s)
    ensures r.1 == InfoToast(UseRunMessage)
  {
    (s.(code := "", pythonFile := "", plotPath := None, modelPath := None), InfoToast(UseRunMessage))
  }

  /** Nothing can be saved after either button; clearing twice is
      clearing once. */
  lemma ClearingEmptiesEditor(s: DashState)
    ensures SaveCode(ClearEditor(s).0).0.None? && SaveCode(GenerateCode(s).0).0.None?
    ensures ClearEditor(ClearEditor(s).0).0 == ClearEditor(s).0
    ensures GenerateCode(GenerateCode(s).0).0 == GenerateCode(s).0
  {
  }

  const NoPlotMessage := "No plot image to download."
  const NoModelMessage := "No model available to download."
  const PlotStartedMessage := "Plot download started!"
  const ModelStartedMessage := "Model download started!"
  const ServerOrigin := "http://127.0.0.1:5000"

  /** `handleDownloadPlot` and `handleDownloadModel`: the address the
      browser is sent to with the success toast, or the error toast when
      no path is stored. `show` is JavaScript's conversion of a non-string
      value inside a template literal. */
  function DownloadUrl(path: Option<Value>, missing: string, started: string, show: Value -> string)
    : (r: Result<(string, Toast), Toast>)
    ensures r.Err? <==> path.None? || !JsTruthy(path.value)
    ensures r.Err? ==> r.error == ErrorToast(missing)
    ensures r.Ok? ==> r.value.1 == SuccessToast(started)
    ensures r.Ok? && path.value.Str? ==> r.value.0 == ServerOrigin + path.value.s
    ensures r.Ok? ==> |ServerOrigin| <= |r.value.0| && r.value.0[..|ServerOrigin|] == ServerOrigin
  {
    if path.None? || !JsTruthy(path.value) then Err(ErrorToast(missing))
    else
      var url := ServerOrigin + AsText(path.value, show);
      assert url[..|ServerOrigin|] == ServerOrigin;
      Ok((url, SuccessToast(started)))
  }

  /** With the invariant, a download is offered exactly when a path is
      stored; a path a run stored as text is fetched from the server at
      that path. */
  lemma DownloadIffStored(s: DashState, show: Value -> string)
    requires PathsTruthy(s)
    ensures DownloadUrl(s.plotPath, NoPlotMessage, PlotStartedMessage, show).Ok? <==> s.plotPath.Some?
    ensures DownloadUrl(s.modelPath, NoModelMessage, ModelStartedMessage, show).Ok? <==> s.modelPath.Some?
    ensures s.plotPath.Some? && s.plotPath.value.Str? ==>
      DownloadUrl(s.plotPath, NoPlotMessage, PlotStartedMessage, show).value
        == (ServerOrigin + s.plotPath.value.s, SuccessToast(PlotStartedMessage))
    ensures s.modelPath.Some? && s.modelPath.value.Str? ==>
      DownloadUrl(s.modelPath, NoModelMessage, ModelStartedMessage, show).value
        == (ServerOrigin + s.modelPath.value.s, SuccessToast(ModelStartedMessage))
  {
  }

  // ---------------------------------------------------------------------
  // The page as a whole
  // ---------------------------------------------------------------------

  /** Something the user can do on the page. `Run` carries what the
      network delivered for the request the page sends. */
  datatype Event =
    | Upload(picked: Option<(string, Option<string>)>)
    | Toggle(key: Options.Key)
    | TargetPresent(b: bool)
    | Input(field: InputField, value: string)
    | Category(value: string)
    | Algorithm(algorithm: string)
    | Edit(text: string)
    | Clear
    | Generate
    | Run(outcome: Option<Http.Response>)

  /** The option values the page's selects offer. */
  const CategoryValues: seq<string> := ["", "classification", "regression"]
  const DegreeValues: seq<string> := ["2", "3", "4", "5"]
  const CriterionValues: seq<string> := ["gini", "entropy", "log_loss"]

  /** The event is one the page offers in state `s`: a select can only
      produce its own options, and an algorithm radio or a parameter of
      an algorithm is only on screen under its category. */
  predicate Available(s: DashState, e: Event) {
    match e
    case Category(v) => v in CategoryValues
    case Algorithm(a) => a in Offered(s.algorithmCategory)
    case Input(PolynomialDegree, v) => v in DegreeValues && s.selectedAlgorithm == "polynomial-regression"
    case Input(DecisionTreeCriterion, v) => v in CriterionValues && s.selectedAlgorithm == "decision-tree"
    case Input(RegressionRandomState, _) => s.selectedAlgorithm == "polynomial-regression"
    case Input(ClassificationRandomState, _) => s.selectedAlgorithm == "decision-tree"
    case Input(CategoricalInput, _) => s.options.categoricalData
    case _ => true
  }

  /** One event: the next state and the toast. A run without a dataset
      stops at the error toast; otherwise the response is applied. */
  function Step(s: DashState, e: Event, stringify: Value -> string): (r: (DashState, Toast))
    ensures e.Toggle? || e.TargetPresent? || e.Input? || e.Category? || e.Algorithm? || e.Edit? ==> r.1 == NoToast
    ensures e.Run? && s.formData.dataset.None? ==> r == (s, ErrorToast(NoDatasetMessage))
  {
    match e
    case Upload(picked) => HandleFileUpload(s, picked)
    case Toggle(k) => (ToggleOption(s, k), NoToast)
    case TargetPresent(b) => (SetTargetPresent(s, b), NoToast)
    case Input(f, v) => (SetInput(s, f, v), NoToast)
    case Category(v) => (SelectCategory(s, v), NoToast)
    case Algorithm(a) => (HandleAlgorithmSelect(s, a), NoToast)
    case Edit(t) => (EditCode(s, t), NoToast)
    case Clear => ClearEditor(s)
    case Generate => GenerateCode(s)
    case Run(outcome) =>
      match RunRequest(s)
      case Err(m) => (s, ErrorToast(m))
      case Ok(_) => ApplyResponse(s, outcome, stringify)
  }

  /** What holds of every state the page can reach. */
  predicate Reachable(s: DashState) {
    && PathsTruthy(s)
    && (s.selectedAlgorithm == "" || s.selectedAlgorithm in Offered(s.algorithmCategory))
    && s.inputs.polynomialDegree in DegreeValues
    && s.inputs.decisionTreeCriterion in CriterionValues
    && (s.formData.dataset.Some? ==> Csv.IsCsvName(s.formData.dataset.value))
  }

  lemma InitialReachable()
    ensures Reachable(InitialState)
  {
  }

  /** Every event the page offers keeps the invariant. */
  lemma StepKeepsReachable(s: DashState, e: Event, stringify: Value -> string)
    requires Reachable(s) && Available(s, e)
    ensures Reachable(Step(s, e, stringify).0)
  {
    match e
    case Run(outcome) =>
      if RunRequest(s).Ok? {
        ApplyResponseKeepsPathsTruthy(s, outcome, stringify);
      }
    case _ =>
  }
}

=== FILE: end_to_end.dfy ===
/**
  One press of "Run & Fetch" from the dashboard through the upload route
  and back into the page state. As written, the route never answers 200,
  so the page always shows the error toast and keeps its state. With the
  corrected pieces (the request sends the switches shown, the builders
  return the script), a successful run puts into the editor exactly the
  script the builder wrote for the switches and inputs on screen, and
  stores the links to the saved plot and model.
 */
module EndToEnd {

  import opened Outcomes
  import opened Values
  import opened Exceptions
  import Http
  import Options
  import Builder
  import Regression
  import Classification
  import Route
  import Dashboard
  import Pipeline

  /** `json.loads` reads back what `JSON.stringify` wrote for the
      switches. */
  predicate DecodesSwitches(loads: string -> Option<Value>, f: Options.Flags) {
    loads(Options.Json(f)) == Some(Options.AsValue(f))
  }

  /** The eight shared builder arguments the page state stands for: the
      file, the processed folder, the switches shown, the column and the
      target flag. */
  function SharedArguments(s: Dashboard.DashState, column: int): (arr: seq<Value>)
    requires s.formData.dataset.Some?
    ensures |arr| == 8 && arr[1] == Str(Route.ProcessedFolder)
    ensures arr[7] == Bool(s.options.performScaling)
  {
    [ FileObj(s.formData.dataset.value),
      Str(Route.ProcessedFolder),
      Bool(s.options.dropFirstColumn),
      Bool(s.options.handleMissingData),
      Int(column),
      Bool(s.inputs.categoricalTargetPresent),
      Bool(s.options.splitDataset),
      Bool(s.options.performScaling) ]
  }

  /** The regression builder's ten arguments for the page state. The
      ensures only spell out the list; `RegressionRequestAnswered` states
      the answer built from it. */
  function RegressionArguments(s: Dashboard.DashState, column: int, degree: int, rs: int): (args: seq<Value>)
    requires s.formData.dataset.Some?
    ensures |args| == 10 && args[1] == Str(Route.ProcessedFolder)
    ensures args[..8] == SharedArguments(s, column) && args[8] == Int(degree) && args[9] == Int(rs)
  {
    SharedArguments(s, column) + [Int(degree), Int(rs)]
  }

  /** The classifier's ten arguments for the page state. The ensures only
      spell out the list; `TreeRequestAnswered` states the answer built
      from it. */
  function TreeArguments(s: Dashboard.DashState, column: int, rs: int): (args: seq<Value>)
    requires s.formData.dataset.Some?
    ensures |args| == 10 && args[1] == Str(Route.ProcessedFolder)
    ensures args[7] == Bool(s.options.performScaling)
    ensures args[..8] == SharedArguments(s, column)
    ensures args[8] == Str(s.inputs.decisionTreeCriterion) && args[9] == Int(rs)
  {
    SharedArguments(s, column) + [Str(s.inputs.decisionTreeCriterion), Int(rs)]
  }

  /** A page state the corrected route admits: a dataset, switches that
      decode, and a readable categorical field. */
  predicate Sendable(s: Dashboard.DashState, loads: string -> Option<Value>, column: int) {
    && s.formData.dataset.Some? && s.formData.dataset.value != ""
    && DecodesSwitches(loads, s.options)
    && Route.Column(Some(s.inputs.categoricalInput)) == Ok(column)
  }

  /** Polynomial regression selected, with readable degree and random
      state. */
  predicate RegressionRequest(s: Dashboard.DashState, loads: string -> Option<Value>, column: int, degree: int, rs: int) {
    && Sendable(s, loads, column)
    && s.selectedAlgorithm == "polynomial-regression"
    && PyInt(Some(s.inputs.polynomialDegree)) == Ok(degree)
    && PyInt(Some(s.inputs.regressionRandomState)) == Ok(rs)
  }

  /** The decision tree selected, with a readable random state. */
  predicate TreeRequest(s: Dashboard.DashState, loads: string -> Option<Value>, column: int, rs: int) {
    && Sendable(s, loads, column)
    && s.selectedAlgorithm == "decision-tree"
    && PyInt(Some(s.inputs.classificationRandomState)) == Ok(rs)
  }

  // ---------------------------------------------------------------------
  // As written
  // ---------------------------------------------------------------------

  /** Whatever the request, the data and the libraries, a run ends in the
      error toast and leaves the page state as it was. */
  lemma RunAlwaysFails(s: Dashboard.DashState, loads: string -> Option<Value>, rt: Builder.Runtime,
                       describe: Exc -> string, stringify: Value -> string)
    requires Dashboard.RunRequest(s).Ok?
    ensures var resp := Route.Handle(Dashboard.RunRequest(s).value, loads, rt, describe);
      Dashboard.ApplyResponse(s, Some(resp), stringify) == (s, ErrorToast(Dashboard.RunFailedMessage))
  {
  }

  // ---------------------------------------------------------------------
  // Corrected
  // ---------------------------------------------------------------------

  /** The corrected request is admitted by the route and carries the
      shared arguments the page state stands for. */
  lemma RequestAdmitted(s: Dashboard.DashState, loads: string -> Option<Value>, column: int)
    requires Sendable(s, loads, column)
    ensures var q := Dashboard.RunRequestIntended(s).value;
      && Http.FormGet(q.form, Http.PolynomialDegreeField) == Some(s.inputs.polynomialDegree)
      && Http.FormGet(q.form, Http.RegressionRandomStateField) == Some(s.inputs.regressionRandomState)
      && Http.FormGet(q.form, Http.ClassificationRandomStateField) == Some(s.inputs.classificationRandomState)
      && Route.Admitted(q, loads, Options.AsValue(s.options).entries, column, s.selectedAlgorithm)
      && Route.Shared(q, Options.AsValue(s.options).entries, column) == SharedArguments(s, column)
      && Route.Switch(Options.AsValue(s.options).entries, Options.PerformScaling) == Bool(s.options.performScaling)
      && Route.Criterion(q.form) == Str(s.inputs.decisionTreeCriterion)
  {
    var q := Dashboard.RunRequestIntended(s).value;
    AdmittedOf(q, s, loads, column);
    SharedOf(q, s, column);
    Options.AsValueGet(s.options, Options.PerformScaling);
  }

  /** A request for the page state's dataset that reads back its fields
      is admitted for the algorithm selected. */
  lemma AdmittedOf(q: Http.Request, s: Dashboard.DashState, loads: string -> Option<Value>, column: int)
    requires Sendable(s, loads, column)
    requires q.dataset == s.formData.dataset && Dashboard.ReadsBack(q.form, s, s.options)
    ensures Route.Admitted(q, loads, Options.AsValue(s.options).entries, column, s.selectedAlgorithm)
  {
  }

  /** A request for the page state's dataset whose target field reads
      back carries the shared arguments the page state stands for. */
  lemma SharedOf(q: Http.Request, s: Dashboard.DashState, column: int)
    requires s.formData.dataset.Some? && q.dataset == s.formData.dataset
    requires Http.FormGet(q.form, Http.CategoricalTargetPresentField)
      == Some(Dashboard.BoolText(s.inputs.categoricalTargetPresent))
    ensures Route.Shared(q, Options.AsValue(s.options).entries, column) == SharedArguments(s, column)
  {
    Route.ArgumentsOfFlags(q.dataset.value, s.options, column, s.inputs.categoricalTargetPresent);
  }

  /** A 200 response whose body links a script, a plot and a model,
      none of them empty. */
  predicate Links(resp: Http.Response, script: string, plot: string, model: string) {
    && resp.status == 200 && resp.body.Obj?
    && Field(resp.body, "rawPyStr") == Some(Str(script)) && script != ""
    && Field(resp.body, "plot_path") == Some(Str(plot)) && plot != ""
    && Field(resp.body, "modelPath") == Some(Str(model)) && model != ""
  }

  /** Such a response is shown in the editor and stored as the page's
      paths. */
  lemma BodyShown(s: Dashboard.DashState, resp: Http.Response, stringify: Value -> string,
                  script: string, plot: string, model: string)
    requires Links(resp, script, plot, model)
    ensures Dashboard.ApplyResponse(s, Some(resp), stringify)
      == (s.(code := script, pythonFile := script, plotPath := Some(Str(plot)), modelPath := Some(Str(model))),
          SuccessToast(Dashboard.RunSucceededMessage))
  {
    Dashboard.ScriptChain(resp.body, stringify);
    Dashboard.PathChain(resp.body, "plot_path", "plotPath", s.plotPath);
    Dashboard.PathChain(resp.body, "modelPath", "model_path", s.modelPath);
  }

  /** Every script starts with the imports, so it is never empty. */
  lemma ScriptNotEmpty(fs: seq<Pipeline.Frag>)
    requires |fs| > 0 && fs[0] == Pipeline.Imports
    ensures Pipeline.ScriptText(fs) != ""
  {
    Pipeline.ScriptStartsWithImports(fs);
  }

  /** The body the corrected route builds from a successful regression
      run links `r3_plot_<timestamp>.png`, `r3_model.joblib` and the
      script the builder wrote. */
  lemma RegressionBody(args: seq<Value>, rt: Builder.Runtime)
    requires |args| == 10 && args[1].Str? && Route.Succeeds(rt)
    ensures var items := Regression.PolynomialRegressionIntended(args, rt);
      && items.Ok? && |items.value| == 5 && Route.PathsAreText(items.value)
      && Links(Http.Response(200, Route.Processed(items.value)), Regression.Script(args),
               "/plot/" + Builder.PlotName(Regression.Tag, rt.timestamp),
               "/download/" + Builder.ModelName(Regression.Tag))
  {
    var items := Regression.PolynomialRegressionIntended(args, rt).value;
    assert items[..4] == Regression.PolynomialRegression(args, rt).value;
    assert items[0] == items[..4][0] && items[3] == items[..4][3];
    Route.ProcessedFields(items);
    ScriptNotEmpty(Regression.Fragments(args));
  }

  /** The corrected regression request is answered 200 with the body
      built from the arguments the page state stands for. */
  lemma RegressionRequestAnswered(s: Dashboard.DashState, loads: string -> Option<Value>, rt: Builder.Runtime,
                                  describe: Exc -> string, column: int, degree: int, rs: int)
    requires RegressionRequest(s, loads, column, degree, rs) && Route.Succeeds(rt)
    ensures var items := Regression.PolynomialRegressionIntended(RegressionArguments(s, column, degree, rs), rt);
      && items.Ok? && |items.value| == 5 && Route.PathsAreText(items.value)
      && Route.HandleIntended(Dashboard.RunRequestIntended(s).value, loads, rt, describe)
           == Http.Response(200, Route.Processed(items.value))
  {
    var q := Dashboard.RunRequestIntended(s).value;
    RequestAdmitted(s, loads, column);
    Route.RegressionAnswered(q, loads, rt, describe, Options.AsValue(s.options).entries, column, degree, rs);
  }

  /** The response to the corrected regression request, member by member. */
  lemma RegressionResponse(s: Dashboard.DashState, loads: string -> Option<Value>, rt: Builder.Runtime,
                           describe: Exc -> string, column: int, degree: int, rs: int)
    requires RegressionRequest(s, loads, column, degree, rs) && Route.Succeeds(rt)
    ensures Links(Route.HandleIntended(Dashboard.RunRequestIntended(s).value, loads, rt, describe),
                  Regression.Script(RegressionArguments(s, column, degree, rs)),
                  "/plot/" + Builder.PlotName(Regression.Tag, rt.timestamp),
                  "/download/" + Builder.ModelName(Regression.Tag))
  {
    RegressionRequestAnswered(s, loads, rt, describe, column, degree, rs);
    RegressionBody(RegressionArguments(s, column, degree, rs), rt);
  }

  /** With the corrected request, route and builder, a regression run
      whose libraries succeed shows the toast of success, puts into the
      editor the script for exactly the switches and inputs on screen,
      and stores the links to the plot and the model it saved. */
  lemma RegressionRun(s: Dashboard.DashState, loads: string -> Option<Value>, rt: Builder.Runtime,
                      describe: Exc -> string, stringify: Value -> string, column: int, degree: int, rs: int)
    requires RegressionRequest(s, loads, column, degree, rs) && Route.Succeeds(rt)
    ensures var q := Dashboard.RunRequestIntended(s).value;
      var r := Dashboard.ApplyResponse(s, Some(Route.HandleIntended(q, loads, rt, describe)), stringify);
      && r.1.SuccessToast?
      && r.0.code == Regression.Script(RegressionArguments(s, column, degree, rs))
      && r.0.plotPath == Some(Str("/plot/" + Builder.PlotName(Regression.Tag, rt.timestamp)))
      && r.0.modelPath == Some(Str("/download/" + Builder.ModelName(Regression.Tag)))
  {
    var resp := Route.HandleIntended(Dashboard.RunRequestIntended(s).value, loads, rt, describe);
    RegressionResponse(s, loads, rt, describe, column, degree, rs);
    BodyShown(s, resp, stringify, Regression.Script(RegressionArguments(s, column, degree, rs)),
              "/plot/" + Builder.PlotName(Regression.Tag, rt.timestamp),
              "/download/" + Builder.ModelName(Regression.Tag));
  }

  /** The body the corrected route builds from a successful classifier
      run links `c6_plot_<timestamp>.png`, `c6_model.joblib` and the
      script the builder wrote. */
  lemma TreeBody(args: seq<Value>, rt: Builder.Runtime)
    requires |args| == 10 && args[1].Str? && PyEqNum(args[7], 1) && Route.Succeeds(rt)
    ensures var items := Classification.DecisionTreeClassifierIntended(args, rt);
      && items.Ok? && |items.value| == 5 && Route.PathsAreText(items.value)
      && Links(Http.Response(200, Route.Processed(items.value)), Classification.Script(args),
               "/plot/" + Builder.PlotName(Classification.Tag, rt.timestamp),
               "/download/" + Builder.ModelName(Classification.Tag))
  {
    Route.ClassifierSucceeds(args, rt);
    var items := Classification.DecisionTreeClassifierIntended(args, rt).value;
    assert items[..4] == Classification.DecisionTreeClassifier(args, rt).value;
    assert items[0] == items[..4][0] && items[3] == items[..4][3];
    Route.ProcessedFields(items);
    ScriptNotEmpty(Classification.Fragments(args));
  }

  /** The corrected decision-tree request with scaling on is answered 200
      with the body built from the arguments the page state stands for. */
  lemma TreeRequestAnswered(s: Dashboard.DashState, loads: string -> Option<Value>, rt: Builder.Runtime,
                            describe: Exc -> string, column: int, rs: int)
    requires TreeRequest(s, loads, column, rs) && s.options.performScaling && Route.Succeeds(rt)
    ensures var items := Classification.DecisionTreeClassifierIntended(TreeArguments(s, column, rs), rt);
      && items.Ok? && |items.value| == 5 && Route.PathsAreText(items.value)
      && Route.HandleIntended(Dashboard.RunRequestIntended(s).value, loads, rt, describe)
           == Http.Response(200, Route.Processed(items.value))
  {
    TreeAdmitted(s, loads, column, rs);
    Route.ClassificationAnswered(Dashboard.RunRequestIntended(s).value, loads, rt, describe,
                                 Options.AsValue(s.options).entries, column, rs, Bool(true));
  }

  /** The response to the corrected decision-tree request, member by
      member. */
  lemma TreeResponse(s: Dashboard.DashState, loads: string -> Option<Value>, rt: Builder.Runtime,
                     describe: Exc -> string, column: int, rs: int)
    requires TreeRequest(s, loads, column, rs) && s.options.performScaling && Route.Succeeds(rt)
    ensures Links(Route.HandleIntended(Dashboard.RunRequestIntended(s).value, loads, rt, describe),
                  Classification.Script(TreeArguments(s, column, rs)),
                  "/plot/" + Builder.PlotName(Classification.Tag, rt.timestamp),
                  "/download/" + Builder.ModelName(Classification.Tag))
  {
    TreeRequestAnswered(s, loads, rt, describe, column, rs);
    TreeBody(TreeArguments(s, column, rs), rt);
  }

  /** With the corrected request, route and builder, a decision-tree run
      with scaling on whose libraries succeed shows the toast of success,
      puts into the editor the script for exactly the switches, criterion
      and inputs on screen, and stores the links to the plot and the
      model it saved. */
  lemma TreeRun(s: Dashboard.DashState, loads: string -> Option<Value>, rt: Builder.Runtime,
                describe: Exc -> string, stringify: Value -> string, column: int, rs: int)
    requires TreeRequest(s, loads, column, rs) && s.options.performScaling && Route.Succeeds(rt)
    ensures var q := Dashboard.RunRequestIntended(s).value;
      var r := Dashboard.ApplyResponse(s, Some(Route.HandleIntended(q, loads, rt, describe)), stringify);
      && r.1.SuccessToast?
      && r.0.code == Classification.Script(TreeArguments(s, column, rs))
      && r.0.plotPath == Some(Str("/plot/" + Builder.PlotName(Classification.Tag, rt.timestamp)))
      && r.0.modelPath == Some(Str("/download/" + Builder.ModelName(Classification.Tag)))
  {
    var resp := Route.HandleIntended(Dashboard.RunRequestIntended(s).value, loads, rt, describe);
    TreeResponse(s, loads, rt, describe, column, rs);
    BodyShown(s, resp, stringify, Classification.Script(TreeArguments(s, column, rs)),
              "/plot/" + Builder.PlotName(Classification.Tag, rt.timestamp),
              "/download/" + Builder.ModelName(Classification.Tag));
  }

  /** Without scaling, the corrected decision-tree request is answered
      500: the classifier's plot reads a scaler it never bound. */
  lemma UnscaledTreeRejected(s: Dashboard.DashState, loads: string -> Option<Value>, rt: Builder.Runtime,
                             describe: Exc -> string, column: int, rs: int)
    requires TreeRequest(s, loads, column, rs) && !s.options.performScaling
    requires rt.fit.Ok? && rt.dump.None?
    ensures Route.HandleIntended(Dashboard.RunRequestIntended(s).value, loads, rt, describe)
      == Route.UnboundScalerResponse(describe)
  {
    UnscaledAdmitted(s, loads, column, rs);
    Route.UnscaledTreeIs500(Dashboard.RunRequestIntended(s).value, loads, rt, describe,
                            Options.AsValue(s.options).entries, column, Bool(false));
  }

  /** Of the algorithms the page offers, only polynomial regression and
      the decision tree have a builder on the server. Linear and logistic
      regression leave `output_path` as `'ans'`, so the corrected request
      for either is answered 500 with the string index error. */
  lemma OfferedWithoutBuilderIs500(s: Dashboard.DashState, loads: string -> Option<Value>, rt: Builder.Runtime,
                                   describe: Exc -> string, column: int)
    requires Sendable(s, loads, column)
    requires s.selectedAlgorithm in Dashboard.Offered(s.algorithmCategory)
    requires s.selectedAlgorithm != "polynomial-regression" && s.selectedAlgorithm != "decision-tree"
    ensures s.selectedAlgorithm == "linear-regression" || s.selectedAlgorithm == "logistic-regression"
    ensures Route.HandleIntended(Dashboard.RunRequestIntended(s).value, loads, rt, describe)
      == Http.Response(500, Obj([("error", Str(describe(StringIndex))), ("message", Str(Route.ServerErrorMessage))]))
  {
    Dashboard.OfferedWithoutBuilder(s.algorithmCategory, s.selectedAlgorithm);
    var q := Dashboard.RunRequestIntended(s).value;
    AdmittedOf(q, s, loads, column);
    Route.NoBuilderIs500(q, loads, rt, describe, Options.AsValue(s.options).entries, column, s.selectedAlgorithm);
  }

  /** The corrected decision-tree request with scaling off is one the
      route admits and sends down the unscaled branch. */
  lemma UnscaledAdmitted(s: Dashboard.DashState, loads: string -> Option<Value>, column: int, rs: int)
    requires TreeRequest(s, loads, column, rs) && !s.options.performScaling
    ensures Route.UnscaledTree(Dashboard.RunRequestIntended(s).value, loads, Options.AsValue(s.options).entries,
                               column, Bool(false))
  {
    var q := Dashboard.RunRequestIntended(s).value;
    var es := Options.AsValue(s.options).entries;
    AdmittedOf(q, s, loads, column);
    assert Route.Admitted(q, loads, es, column, "decision-tree");
    Options.AsValueGet(s.options, Options.PerformScaling);
    assert Route.Switch(es, Options.PerformScaling) == Bool(false);
    assert PyInt(Http.FormGet(q.form, Http.ClassificationRandomStateField)) == Ok(rs);
  }

  /** A decision-tree request the route admits, read back field by field. */
  lemma TreeAdmitted(s: Dashboard.DashState, loads: string -> Option<Value>, column: int, rs: int)
    requires TreeRequest(s, loads, column, rs)
    ensures var q := Dashboard.RunRequestIntended(s).value;
      var es := Options.AsValue(s.options).entries;
      && Route.Admitted(q, loads, es, column, "decision-tree")
      && PyInt(Http.FormGet(q.form, Http.ClassificationRandomStateField)) == Ok(rs)
      && Route.Switch(es, Options.PerformScaling) == Bool(s.options.performScaling)
      && Route.Shared(q, es, column) + [Route.Criterion(q.form), Int(rs)] == TreeArguments(s, column, rs)
  {
    RequestAdmitted(s, loads, column);
  }

  /** So such a run ends in the error toast with the page unchanged, even
      with the corrected request and route. */
  lemma UnscaledTreeFails(s: Dashboard.DashState, loads: string -> Option<Value>, rt: Builder.Runtime,
                          describe: Exc -> string, stringify: Value -> string, column: int, rs: int)
    requires TreeRequest(s, loads, column, rs) && !s.options.performScaling
    requires rt.fit.Ok? && rt.dump.None?
    ensures var q := Dashboard.RunRequestIntended(s).value;
      Dashboard.ApplyResponse(s, Some(Route.HandleIntended(q, loads, rt, describe)), stringify)
        == (s, ErrorToast(Dashboard.RunFailedMessage))
  {
    UnscaledTreeRejected(s, loads, rt, describe, column, rs);
  }
}

=== FILE: exceptions.dfy ===
/**
  The Python exceptions the upload route and the script builders can
  raise, and Python's `int()` applied to a form field. The route turns
  every one of them into a 500 response whose `error` member is
  `str(e)`; the wording of those messages belongs to the Python runtime
  and is a parameter wherever a response is built.
 */
module Exceptions {

  import opened Outcomes
  import Text

  /** An exception, by where it comes from. */
  datatype Exc =
    | JsonInputType            // `json.loads(None)`: TypeError, the `options` field was not sent
    | NoGetMethod              // `options.get` on JSON that is not an object: AttributeError
    | IntOfNone                // `int(None)`: TypeError, the field was not sent
    | IntLiteral(text: string) // `int(text)` with no integer in `text`: ValueError
    | StringIndex              // indexing the 3-character string `'ans'` at 3: IndexError
    | ListIndex                // indexing a builder's result past its end: IndexError
    | PathType                 // `os.path.join` or `basename` of a non-string: TypeError
    | UnboundScaler            // the classifier reads `sc` that was never assigned: UnboundLocalError
    | Library(message: string) // pandas, scikit-learn, matplotlib, joblib or the file system raised

  /** `int(v)` for a value read with `request.form.get`: `None` when the
      field was not sent. */
  function PyInt(v: Option<string>): (r: Result<int, Exc>)
    ensures v.None? ==> r == Err(IntOfNone)
    ensures v.Some? ==> (r.Ok? <==> Text.ParseInt(v.value).Some?)
    ensures r.Ok? ==> Text.ParseInt(v.value) == Some(r.value)
    ensures r.Err? && v.Some? ==> r.error == IntLiteral(v.value)
  {
    match v
    case None => Err(IntOfNone)
    case Some(t) =>
      match Text.ParseInt(t)
      case Some(n) => Ok(n)
      case None => Err(IntLiteral(t))
  }

  /** A field holding the decimal text of an integer converts back to it. */
  lemma PyIntOfDecimal(n: int)
    ensures PyInt(Some(Text.IntToString(n))) == Ok(n)
  {
    Text.ParseIntOfIntToString(n);
  }
}

=== FILE: http.dfy ===
/**
  The request the dashboard sends to `POST /upload` and the response the
  route sends back. The multipart body is the uploaded file (by its file
  name) and the text fields in the order they were appended; the JSON
  body of the response is a `Values.Value`, which `jsonify` writes and
  `response.json()` reads back unchanged.
 */
module Http {

  import opened Outcomes
  import opened Values

  /** The text fields of the form. Both sides spell each key the same way
      (`FieldName`), so the model names them by a tag. */
  datatype Field =
    | OptionsField
    | SelectedAlgorithmField
    | CategoricalInputField
    | CategoricalTargetPresentField
    | PolynomialDegreeField
    | RegressionRandomStateField
    | DecisionTreeCriterionField
    | ClassificationRandomStateField

  /** The key under which a field travels. */
  function FieldName(f: Field): string {
    match f
    case OptionsField => "options"
    case SelectedAlgorithmField => "selectedAlgorithm"
    case CategoricalInputField => "categoricalInput"
    case CategoricalTargetPresentField => "categoricalTargetPresent"
    case PolynomialDegreeField => "polynomialDegree"
    case RegressionRandomStateField => "regressionRandomState"
    case DecisionTreeCriterionField => "decisionTreeCriterion"
    case ClassificationRandomStateField => "classificationRandomState"
  }

  /** A multipart request: the file under `dataset`, if any, by its file
      name, and the text fields in order. */
  datatype Request = Request(dataset: Option<string>, form: seq<(Field, string)>)

  /** `request.form.get(key)`: the first value sent under the key, `None`
      when the key was not sent. */
  function FormGet(form: seq<(Field, string)>, key: Field): Option<string> {
    if |form| == 0 then None
    else if form[0].0 == key then Some(form[0].1)
    else FormGet(form[1..], key)
  }

  /** `get` finds nothing exactly when the key was not sent, finds only
      what was sent under the key, and finds the first such value. */
  lemma {:induction false} FormGetSpec(form: seq<(Field, string)>, key: Field)
    ensures var r := FormGet(form, key);
      && (r.None? <==> forall i :: 0 <= i < |form| ==> form[i].0 != key)
      && (r.Some? ==> (key, r.value) in form)
      && (forall i :: 0 <= i < |form| && form[i].0 == key && FirstWith(form, key, i) ==> r == Some(form[i].1))
  {
    if |form| > 0 && form[0].0 != key {
      FormGetSpec(form[1..], key);
      assert forall i :: 1 <= i < |form| ==> form[i] == form[1..][i - 1];
    }
  }

  /** The order in which the dashboard appends the text fields. */
  const AppendOrder: seq<Field> := [
    OptionsField, SelectedAlgorithmField, CategoricalInputField, CategoricalTargetPresentField,
    PolynomialDegreeField, RegressionRandomStateField, DecisionTreeCriterionField,
    ClassificationRandomStateField ]

  /** A fact about the constant `AppendOrder`: every field is appended
      once. */
  lemma AppendOrderDistinct()
    ensures forall i, j :: 0 <= i < |AppendOrder| && 0 <= j < |AppendOrder| && i != j ==>
      AppendOrder[i] != AppendOrder[j]
  {
  }

  /** The form that sends `values[i]` under `keys[i]`. */
  function Zip(keys: seq<Field>, values: seq<string>): (form: seq<(Field, string)>)
    requires |keys| == |values|
    ensures |form| == |keys|
    ensures forall i :: 0 <= i < |keys| ==> form[i] == (keys[i], values[i])
  {
    seq(|keys|, i requires 0 <= i < |keys| => (keys[i], values[i]))
  }

  /** With no key repeated, the route reads back each value under its key. */
  lemma ZipGet(keys: seq<Field>, values: seq<string>, i: int)
    requires |keys| == |values| && 0 <= i < |keys|
    requires forall j :: 0 <= j < |keys| && j != i ==> keys[j] != keys[i]
    ensures FormGet(Zip(keys, values), keys[i]) == Some(values[i])
  {
    FormGetFirst(Zip(keys, values), i);
  }

  /** The field at index `i` is the first one sent under its key, so it is
      the one the route reads. */
  lemma FormGetFirst(form: seq<(Field, string)>, i: int)
    requires 0 <= i < |form| && FirstWith(form, form[i].0, i)
    ensures FormGet(form, form[i].0) == Some(form[i].1)
  {
    FormGetSpec(form, form[i].0);
  }

  /** No field before index `i` is sent under `key`. */
  predicate FirstWith(form: seq<(Field, string)>, key: Field, i: int) {
    forall j :: 0 <= j < i && j < |form| ==> form[j].0 != key
  }

  /** An HTTP response with a JSON body. */
  datatype Response = Response(status: int, body: Value)

  /** `response.ok`: the status is in the 2xx range. */
  predicate IsOk(r: Response) {
    200 <= r.status <= 299
  }
}

=== FILE: options.dfy ===
/**
  The six preprocessing switches of the client pages (`options` in both
  pages, and `formData.options` on the dashboard) and `toggleOption`.
 */
module Options {

  import opened Outcomes
  import Values

  /** The `options` record. */
  datatype Flags = Flags(
    importLibraries: bool,
    dropFirstColumn: bool,
    handleMissingData: bool,
    categoricalData: bool,
    splitDataset: bool,
    performScaling: bool)

  /** `keyof typeof options`. */
  datatype Key =
    | ImportLibraries | DropFirstColumn | HandleMissingData
    | CategoricalData | SplitDataset | PerformScaling

  /** `options[key]`. */
  function Get(f: Flags, k: Key): bool {
    match k
    case ImportLibraries => f.importLibraries
    case DropFirstColumn => f.dropFirstColumn
    case HandleMissingData => f.handleMissingData
    case CategoricalData => f.categoricalData
    case SplitDataset => f.splitDataset
    case PerformScaling => f.performScaling
  }

  /** `{ ...options, [key]: value }`. */
  function Set(f: Flags, k: Key, v: bool): (r: Flags)
    ensures Get(r, k) == v
    ensures forall k' :: k' != k ==> Get(r, k') == Get(f, k')
  {
    Flags(
      if k == ImportLibraries then v else f.importLibraries,
      if k == DropFirstColumn then v else f.dropFirstColumn,
      if k == HandleMissingData then v else f.handleMissingData,
      if k == CategoricalData then v else f.categoricalData,
      if k == SplitDataset then v else f.splitDataset,
      if k == PerformScaling then v else f.performScaling)
  }

  /** Two records are equal exactly when they agree on every key. */
  lemma FlagsExtensional(f: Flags, g: Flags)
    requires forall k :: Get(f, k) == Get(g, k)
    ensures f == g
  {
    assert Get(f, ImportLibraries) == Get(g, ImportLibraries);
    assert Get(f, DropFirstColumn) == Get(g, DropFirstColumn);
    assert Get(f, HandleMissingData) == Get(g, HandleMissingData);
    assert Get(f, CategoricalData) == Get(g, CategoricalData);
    assert Get(f, SplitDataset) == Get(g, SplitDataset);
    assert Get(f, PerformScaling) == Get(g, PerformScaling);
  }

  /** `toggleOption(key)`: `{ ...prev, [key]: !prev[key] }`. */
  function Toggle(f: Flags, k: Key): (r: Flags)
    ensures Get(r, k) == !Get(f, k)
    ensures forall k' :: k' != k ==> Get(r, k') == Get(f, k')
  {
    Set(f, k, !Get(f, k))
  }

  /** Toggling the same key twice restores the record. */
  lemma ToggleTwice(f: Flags, k: Key)
    ensures Toggle(Toggle(f, k), k) == f
  {
    FlagsExtensional(Toggle(Toggle(f, k), k), f);
  }

  /** Toggles of two keys commute. */
  lemma ToggleCommutes(f: Flags, k1: Key, k2: Key)
    ensures Toggle(Toggle(f, k1), k2) == Toggle(Toggle(f, k2), k1)
  {
    var a := Toggle(Toggle(f, k1), k2);
    var b := Toggle(Toggle(f, k2), k1);
    forall k ensures Get(a, k) == Get(b, k) {
    }
    FlagsExtensional(a, b);
  }

  /** The initial `options` of both pages. */
  const InitialOptions := Flags(
    importLibraries := true, dropFirstColumn := true, handleMissingData := false,
    categoricalData := false, splitDataset := true, performScaling := true)

  /** The keys on which two records differ. */
  function Differences(f: Flags, g: Flags): (ks: set<Key>)
    ensures forall k :: k in ks <==> Get(f, k) != Get(g, k)
  {
    set k: Key | Get(f, k) != Get(g, k)
  }

  // ---------------------------------------------------------------------
  // The record on the wire
  // ---------------------------------------------------------------------

  /** The keys in the order the object literal declares them. */
  const AllKeys: seq<Key> := [
    ImportLibraries, DropFirstColumn, HandleMissingData,
    CategoricalData, SplitDataset, PerformScaling]

  /** The property name of a key. */
  function KeyName(k: Key): string {
    match k
    case ImportLibraries => "importLibraries"
    case DropFirstColumn => "dropFirstColumn"
    case HandleMissingData => "handleMissingData"
    case CategoricalData => "categoricalData"
    case SplitDataset => "splitDataset"
    case PerformScaling => "performScaling"
  }

  /** `JSON.stringify(options)`: the members in declaration order, no
      blanks. */
  function Json(f: Flags): string {
    "{" + JsonMembers(f, AllKeys) + "}"
  }

  function JsonMembers(f: Flags, ks: seq<Key>): string {
    if |ks| == 0 then ""
    else
      var m := "\"" + KeyName(ks[0]) + "\":" + (if Get(f, ks[0]) then "true" else "false");
      if |ks| == 1 then m else m + "," + JsonMembers(f, ks[1..])
  }

  /** The object `json.loads` makes of that text. */
  function AsValue(f: Flags): (v: Values.Value)
    ensures v.Obj? && |v.entries| == |AllKeys|
    ensures forall i :: 0 <= i < |AllKeys| ==>
      v.entries[i] == (KeyName(AllKeys[i]), Values.Bool(Get(f, AllKeys[i])))
  {
    Values.Obj(seq(|AllKeys|, i requires 0 <= i < |AllKeys| =>
      (KeyName(AllKeys[i]), Values.Bool(Get(f, AllKeys[i])))))
  }

  /** Every key of the record can be read back from the decoded object. */
  lemma AsValueGet(f: Flags, k: Key)
    ensures Values.Get(AsValue(f).entries, KeyName(k)) == Some(Values.Bool(Get(f, k)))
  {
    var es := AsValue(f).entries;
    var i := match k
      case ImportLibraries => 0 case DropFirstColumn => 1 case HandleMissingData => 2
      case CategoricalData => 3 case SplitDataset => 4 case PerformScaling => 5;
    assert AllKeys[i] == k;
    KeyNamesDistinct();
    Values.GetLast(es, KeyName(k), i);
  }

  /** A fact about the constant `AllKeys`: no two keys share a property
      name. */
  lemma KeyNamesDistinct()
    ensures forall i, j :: 0 <= i < j < |AllKeys| ==> KeyName(AllKeys[i]) != KeyName(AllKeys[j])
  {
  }
}

=== FILE: order.dfy ===
/**
  The fixed order in which the generator page appends its eight
  fragments. Fragments are numbered by rank, in the order of the `if`
  statements of `generateCode` (0 load, 1 imports, 2 drop, 3 impute,
  4 encode, 5 split, 6 scale, 7 model). The schedule lists the ranks in
  script order; which ranks are switched on is a parameter, so the facts
  here do not depend on how a page state sets the switches.
 */
module Order {

  /** The position of the fragment of rank `rank` in the script. As
      written (`importsFirst` false) it is the rank itself: the load
      fragment comes first. With `importsFirst` the import fragment and
      the load fragment trade places. */
  function Pos(rank: int, importsFirst: bool): int {
    if importsFirst && rank == 0 then 1
    else if importsFirst && rank == 1 then 0
    else rank
  }

  /** The ranks in script order. */
  function Schedule(importsFirst: bool): (rs: seq<int>)
    ensures forall r :: r in rs <==> 0 <= r < 8
  {
    if importsFirst then [1, 0, 2, 3, 4, 5, 6, 7] else [0, 1, 2, 3, 4, 5, 6, 7]
  }

  /** The switched-on entries of `xs`, in their order. */
  function Filter(active: int -> bool, xs: seq<int>): (ys: seq<int>)
    ensures forall y :: y in ys ==> y in xs && active(y)
  {
    if xs == [] then []
    else (if active(xs[0]) then [xs[0]] else []) + Filter(active, xs[1..])
  }

  /** The positions of the ranks `rs` strictly increase along `rs`. */
  predicate Increasing(rs: seq<int>, importsFirst: bool) {
    forall i, j :: 0 <= i < j < |rs| ==> Pos(rs[i], importsFirst) < Pos(rs[j], importsFirst)
  }

  lemma ConsIncreasing(r: int, tail: seq<int>, importsFirst: bool)
    requires Increasing(tail, importsFirst)
    requires forall y :: y in tail ==> Pos(r, importsFirst) < Pos(y, importsFirst)
    ensures Increasing([r] + tail, importsFirst)
  {
    var rs := [r] + tail;
    forall i, j | 0 <= i < j < |rs|
      ensures Pos(rs[i], importsFirst) < Pos(rs[j], importsFirst)
    {
      assert rs[j] == tail[j - 1];
      if i > 0 {
        assert rs[i] == tail[i - 1];
      }
    }
  }

  /** Dropping entries keeps the others in order. */
  lemma {:induction false} FilterIncreasing(active: int -> bool, xs: seq<int>, importsFirst: bool)
    requires Increasing(xs, importsFirst)
    ensures Increasing(Filter(active, xs), importsFirst)
  {
    if xs != [] {
      var tail := xs[1..];
      assert Increasing(tail, importsFirst) by {
        forall i, j | 0 <= i < j < |tail| ensures Pos(tail[i], importsFirst) < Pos(tail[j], importsFirst) {
          assert tail[i] == xs[i + 1] && tail[j] == xs[j + 1];
        }
      }
      FilterIncreasing(active, tail, importsFirst);
      var ft := Filter(active, tail);
      if active(xs[0]) {
        forall y | y in ft ensures Pos(xs[0], importsFirst) < Pos(y, importsFirst) {
          var k :| 0 <= k < |tail| && tail[k] == y;
          assert xs[k + 1] == y;
        }
        ConsIncreasing(xs[0], ft, importsFirst);
      }
    }
  }

  /** Every switched-on entry is kept. */
  lemma {:induction false} FilterComplete(active: int -> bool, xs: seq<int>, r: int)
    requires r in xs && active(r)
    ensures r in Filter(active, xs)
  {
    if xs[0] != r {
      assert r in xs[1..];
      FilterComplete(active, xs[1..], r);
    }
  }

  /** A fact about the two constant schedules: they list the ranks by
      increasing position. */
  lemma ScheduleIncreasing(importsFirst: bool)
    ensures Increasing(Schedule(importsFirst), importsFirst)
  {
  }
}

=== FILE: outcomes.dfy ===
/** Optional values, results with an error, and the notifications of the
    pages, used across the model. */
module Outcomes {

  /** A value that may be absent: a missing form field, a missing key,
      a JavaScript `null`, or a Python call that raised. */
  datatype Option<+T> = None | Some(value: T) {
    function GetOr(default: T): T {
      match this
      case Some(v) => v
      case None => default
    }
  }

  /** Either a value or the error that stopped the computation. */
  datatype Result<+R, +E> = Ok(value: R) | Err(error: E)

  /** The notification a page handler shows, if any. */
  datatype Toast =
    | NoToast
    | PlainToast(message: string)  // `toast(message)`, the default style
    | InfoToast(message: string)
    | SuccessToast(message: string)
    | ErrorToast(message: string)
}

=== FILE: paths.dfy ===
/**
  `os.path.join` and `os.path.basename` as the server uses them. The
  processed folder is a Windows path (`D:\buffer_\uploads`), so the
  Windows flavour (`ntpath`) is modelled: both `\` and `/` separate
  components and `join` inserts `\`. Only what the server needs is
  modelled: the second part of a join is a plain file name (no drive,
  not absolute), and a drive prefix without a separator after it is not
  split off by `basename`.
 */
module Paths {

  /** A path separator. */
  predicate IsSep(c: char) {
    c == '\\' || c == '/'
  }

  /** The name contains no separator. */
  predicate IsPlainName(name: string) {
    forall i :: 0 <= i < |name| ==> !IsSep(name[i])
  }

  /** `os.path.join(folder, name)` for a plain file name. */
  function Join(folder: string, name: string): (p: string)
    ensures |p| >= |name| && p[|p| - |name|..] == name
  {
    if folder == "" then name
    else if IsSep(folder[|folder| - 1]) then folder + name
    else folder + "\\" + name
  }

  /** `os.path.basename(p)`: what follows the last separator. */
  function Basename(p: string): (b: string)
    ensures IsPlainName(b)
    ensures |b| <= |p| && p[|p| - |b|..] == b
  {
    if p == "" || IsSep(p[|p| - 1]) then ""
    else
      var b := Basename(p[..|p| - 1]);
      assert p[..|p| - 1][|p| - 1 - |b|..] == b;
      b + [p[|p| - 1]]
  }

  /** A plain name after a separator is the base name. */
  lemma {:induction false} BasenameAfterSep(prefix: string, name: string)
    requires |prefix| > 0 && IsSep(prefix[|prefix| - 1]) && IsPlainName(name)
    ensures Basename(prefix + name) == name
    decreases |name|
  {
    var p := prefix + name;
    if name != "" {
      assert p[..|p| - 1] == prefix + name[..|name| - 1];
      BasenameAfterSep(prefix, name[..|name| - 1]);
      assert name == name[..|name| - 1] + [name[|name| - 1]];
    }
  }

  /** A plain name is its own base name. */
  lemma {:induction false} BasenameOfPlain(name: string)
    requires IsPlainName(name)
    ensures Basename(name) == name
    decreases |name|
  {
    if name != "" {
      BasenameOfPlain(name[..|name| - 1]);
      assert name == name[..|name| - 1] + [name[|name| - 1]];
    }
  }

  /** The base name of a joined path is the file name that was joined. */
  lemma BasenameOfJoin(folder: string, name: string)
    requires IsPlainName(name)
    ensures Basename(Join(folder, name)) == name
  {
    if folder == "" {
      BasenameOfPlain(name);
    } else if IsSep(folder[|folder| - 1]) {
      BasenameAfterSep(folder, name);
    } else {
      assert folder + "\\" + name == (folder + "\\") + name;
      BasenameAfterSep(folder + "\\", name);
    }
  }
}

=== FILE: pipeline.dfy ===
/**
  What the two server-side script builders have in common: the
  fragments they append to the script text `s`, in the order their
  `if` statements append them, and the switches that select the
  fragments. A builder always opens with the imports and the load, then
  appends the switched-on preprocessing fragments and closes with its
  model fragment. Each fragment's text is a newline followed by its
  lines, each line ending in a newline, as the triple-quoted templates
  are written.
 */
module Pipeline {

  import opened Outcomes
  import Text
  import opened Scripts

  /** One template. Arguments are the texts the f-string placeholders
      insert. */
  datatype Frag =
    | Imports
    | Load(ind: string)
    | Impute
    | Encode(cat: string)
    | Label
    | Split(testSize: string, rs: string)
    | Scale
    | PolyFit(deg: string)
    | TreeFit(crit: string, rs: string)

  /** The names a fragment reads before binding them. Builtins
      (`int`, `str`, `round`, `min`, `max`, `enumerate`) are not listed. */
  function Uses(f: Frag): set<Symbol> {
    match f
    case Imports => {}
    case Load(_) => {Pd, Filepath}
    case Impute => {Np, X}
    case Encode(_) => {X}
    case Label => {Y}
    case Split(_, _) => {X, Y}
    case Scale => {XTrain, XTest}
    case PolyFit(_) => {XTrain, YTrain, XTest, YTest, ProcessedFolder, Plt}
    case TreeFit(_, _) => {XTrain, YTrain, XTest, YTest, ProcessedFolder, Sc, Np, Plt}
  }

  /** The names a fragment binds. */
  function Binds(f: Frag): set<Symbol> {
    match f
    case Imports => {Pd, Np, Plt}
    case Load(_) => {Dataset, X, Y}
    case Impute => {SimpleImputer, Imputer, X}
    case Encode(_) => {ColumnTransformer, OneHotEncoder, Ct, X}
    case Label => {LabelEncoder, Le, Y}
    case Split(_, _) => {TrainTestSplit, XTrain, XTest, YTrain, YTest}
    case Scale => {StandardScaler, Sc, XTrain, XTest}
    case PolyFit(_) =>
      {PolynomialFeatures, PolyReg, XPoly, LinearRegression, Regressor, YPred,
       R2Score, R2s, Os, Joblib, OutputPath, Time, Timestamp, PlotPath}
    case TreeFit(_, _) =>
      {DecisionTreeClassifier, Classifier, YPred, AccuracyScore, Joblib, Os, OutputPath,
       Time, ListedColormap, Timestamp, PlotPath, XSet, YSet, X1, X2, LoopI, LoopJ}
  }

  const SplitPrefix := "X_train, X_test, y_train, y_test = train_test_split(X, y, test_size = "
  const DegreePrefix := "poly_reg = PolynomialFeatures(degree = "
  const CriterionPrefix := "classifier = DecisionTreeClassifier(criterion = '"

  /** The lines of a template, placeholders filled in. */
  function FragLines(f: Frag): seq<string> {
    match f
    case Imports => ["import pandas as pd", "import numpy as np", "import matplotlib.pyplot as plt"]
    case Load(ind) => [
      "dataset = pd.read_csv(filepath)",
      "X = dataset.iloc[:, " + ind + ":-1].values",
      "y = dataset.iloc[:, -1].values"]
    case Impute => [
      "from sklearn.impute import SimpleImputer",
      "imputer = SimpleImputer(missing_values = np.nan, strategy='mean')",
      "imputer.fit(X[:, 1:3])",
      "X[:, 1:3] = imputer.transform(X[:, 1:3])"]
    case Encode(cat) => [
      "from sklearn.compose import ColumnTransformer",
      "from sklearn.preprocessing import OneHotEncoder",
      "ct = ColumnTransformer(transformers=[('encoder', OneHotEncoder(), [" + cat + "])], remainder='passthrough')",
      "X = ct.fit_transform(X)"]
    case Label => [
      "from sklearn.preprocessing import LabelEncoder",
      "le = LabelEncoder()",
      "y = le.fit_transform(y)"]
    case Split(testSize, rs) => [
      "from sklearn.model_selection import train_test_split",
      SplitLine(testSize, rs)]
    case Scale => [
      "from sklearn.preprocessing import StandardScaler",
      "sc = StandardScaler()",
      "X_train = sc.fit_transform(X_train)",
      "X_test = sc.transform(X_test)"]
    case PolyFit(deg) => [
      "from sklearn.preprocessing import PolynomialFeatures",
      DegreeLine(deg)] + PolyFitTail
    case TreeFit(crit, rs) => [
      "from sklearn.tree import DecisionTreeClassifier",
      CriterionLine(crit, rs)] + TreeFitTail
  }

  /** The split statement with its two placeholders. */
  function SplitLine(testSize: string, rs: string): string {
    SplitPrefix + testSize + ", random_state = " + rs + ")"
  }

  /** The polynomial features statement with the degree. */
  function DegreeLine(deg: string): string {
    DegreePrefix + deg + ")"
  }

  /** The classifier statement with the criterion and the random state. */
  function CriterionLine(crit: string, rs: string): string {
    CriterionPrefix + crit + "', random_state = " + rs + ")"
  }

  const PolyFitTail: seq<string> := [
    "X_poly = poly_reg.fit_transform(X_train)",
    "",
    "from sklearn.linear_model import LinearRegression",
    "regressor = LinearRegression()",
    "regressor.fit(X_poly, y_train)",
    "",
    "y_pred = regressor.predict(poly_reg.transform(X_test))",
    "",
    "from sklearn.metrics import r2_score",
    "r2s = 'R^2 score = ' + str(round(r2_score(y_test, y_pred)*100,2)) + '%'",
    "",
    "import os",
    "import joblib",
    "output_path = os.path.join(PROCESSED_FOLDER, 'r3_model.joblib')",
    "joblib.dump(regressor, output_path)",
    "",
    "import time",
    "timestamp = int(time.time())",
    "plot_path = os.path.join(PROCESSED_FOLDER, f'r3_plot_timestamp.png')",
    "plt.scatter(y_test, y_pred, color = 'red')",
    "plt.plot([min(y_test), max(y_test)], [min(y_test), max(y_test)], color='blue', linestyle='--')",
    "plt.title('Polynomial Regression')",
    "plt.xlabel('Actual')",
    "plt.ylabel('Predicted')",
    "plt.show()"]

  const TreeFitTail: seq<string> := [
    "classifier.fit(X_train, y_train)",
    "",
    "y_pred = classifier.predict(X_test)",
    "from sklearn.metrics import accuracy_score",
    "accuracy_score(y_test, y_pred)",
    "",
    "import joblib",
    "import os",
    "output_path = os.path.join(PROCESSED_FOLDER, 'c6_model.joblib')",
    "joblib.dump(classifier, output_path)",
    "",
    "import time",
    "from matplotlib.colors import ListedColormap",
    "timestamp = int(time.time())",
    "plot_path = os.path.join(PROCESSED_FOLDER, f'c6_plot_timestamp.png')",
    "X_set, y_set = sc.inverse_transform(X_test), y_test",
    "X1, X2 = np.meshgrid(np.arange(start = X_set[:, 0].min() - 10, stop = X_set[:, 0].max() + 10, step = 0.25),",
    "                    np.arange(start = X_set[:, 1].min() - 1000, stop = X_set[:, 1].max() + 1000, step = 0.25))",
    "plt.contourf(X1, X2, classifier.predict(sc.transform(np.array([X1.ravel(), X2.ravel()]).T)).reshape(X1.shape),",
    "            alpha = 0.75, cmap = ListedColormap(('red', 'green')))",
    "plt.xlim(X1.min(), X1.max())",
    "plt.ylim(X2.min(), X2.max())",
    "for i, j in enumerate(np.unique(y_set)):",
    "    plt.scatter(X_set[y_set == j, 0], X_set[y_set == j, 1], c = ListedColormap(('red', 'green'))(i), label = j)",
    "plt.title('Decision Tree Classification (Test set)')",
    "plt.xlabel('Age')",
    "plt.ylabel('Estimated Salary')",
    "plt.legend()",
    "plt.show()"]

  /** The text a fragment appends to `s`. */
  function FragText(f: Frag): string {
    "\n" + Text.Lines(FragLines(f))
  }

  /** A fragment as a script block, its text taken from `text`. */
  function FragBlock(f: Frag, text: Frag -> string): Block {
    Block(text(f), Uses(f), Binds(f))
  }

  function Blocks(fs: seq<Frag>, text: Frag -> string): (bs: seq<Block>)
    ensures |bs| == |fs|
    ensures forall i :: 0 <= i < |fs| ==> bs[i] == FragBlock(fs[i], text)
  {
    seq(|fs|, i requires 0 <= i < |fs| => FragBlock(fs[i], text))
  }

  // ---------------------------------------------------------------------
  // Which fragments a builder appends
  // ---------------------------------------------------------------------

  /** What a builder's switches select: the column the load starts at,
      whether to impute, to encode a column (and which), to encode the
      target, to split (and with which random state) and to scale. */
  datatype Plan = Plan(
    ind: string,
    impute: bool,
    encode: bool,
    cat: string,
    labelTarget: bool,
    split: bool,
    rs: string,
    scale: bool)

  /** `[f]` when the switch is on, nothing otherwise. */
  function Opt(on: bool, f: Frag): (fs: seq<Frag>)
    ensures on ==> fs == [f]
    ensures !on ==> fs == []
  {
    if on then [f] else []
  }

  /** The fragments in the order the builders append them, closing with
      the model fragment `fit`. */
  function Frags(p: Plan, testSize: string, fit: Frag): (fs: seq<Frag>)
    ensures |fs| >= 3 && fs[0] == Imports && fs[1] == Load(p.ind) && fs[|fs| - 1] == fit
  {
    Prefix(p, testSize) + [fit]
  }

  /** A script's text: the fragments' texts one after the other. */
  function ScriptText(fs: seq<Frag>): string {
    Render(Blocks(fs, FragText))
  }

  // ---------------------------------------------------------------------
  // The names a generated script leaves unbound
  // ---------------------------------------------------------------------

  /** The names the fragments bind, and the names they read before any
      earlier fragment binds them: `Scripts.Defined` and
      `Scripts.Undefined` without the text (`ShapeOfBlocks`). */
  function Bound(fs: seq<Frag>): set<Symbol> {
    if |fs| == 0 then {} else Bound(fs[..|fs| - 1]) + Binds(fs[|fs| - 1])
  }

  function Unbound(fs: seq<Frag>): set<Symbol> {
    if |fs| == 0 then {}
    else Unbound(fs[..|fs| - 1]) + (Uses(fs[|fs| - 1]) - Bound(fs[..|fs| - 1]))
  }

  lemma {:induction false} ShapeOfBlocks(fs: seq<Frag>, text: Frag -> string)
    ensures Defined(Blocks(fs, text)) == Bound(fs)
    ensures Undefined(Blocks(fs, text)) == Unbound(fs)
    decreases |fs|
  {
    if |fs| > 0 {
      var bs := Blocks(fs, text);
      assert bs[..|bs| - 1] == Blocks(fs[..|fs| - 1], text);
      ShapeOfBlocks(fs[..|fs| - 1], text);
    }
  }

  /** Appending one switchable fragment: the names it reads that nothing
      before it binds become unbound, and its own names become bound. */
  lemma AddOpt(fs: seq<Frag>, on: bool, f: Frag)
    ensures Bound(fs + Opt(on, f)) == Bound(fs) + (if on then Binds(f) else {})
    ensures Unbound(fs + Opt(on, f)) == Unbound(fs) + (if on then Uses(f) - Bound(fs) else {})
  {
    if on {
      assert (fs + [f])[..|fs|] == fs;
    } else {
      assert fs + [] == fs;
    }
  }

  /** The fragments before the model fragment, built up stage by stage
      as the builders append them. */
  function Prefix(p: Plan, testSize: string): seq<Frag> {
    SplitDone(p, testSize) + Opt(p.scale, Scale)
  }

  function Loaded(p: Plan): seq<Frag> {
    [Imports, Load(p.ind)]
  }

  function Imputed(p: Plan): seq<Frag> {
    Loaded(p) + Opt(p.impute, Impute)
  }

  function Encoded(p: Plan): seq<Frag> {
    Imputed(p) + Opt(p.encode, Encode(p.cat))
  }

  function Labelled(p: Plan): seq<Frag> {
    Encoded(p) + Opt(p.labelTarget, Label)
  }

  function SplitDone(p: Plan, testSize: string): seq<Frag> {
    Labelled(p) + Opt(p.split, Split(testSize, p.rs))
  }

  /** Before the split: the modules and the data are bound, the training
      and test sets, the scaler and the output folder are not. */
  predicate BeforeSplit(d: set<Symbol>) {
    Np in d && Plt in d && X in d && Y in d
    && ProcessedFolder !in d && Sc !in d
    && XTrain !in d && XTest !in d && YTrain !in d && YTest !in d
  }

  /** The imports and the load leave only `filepath` unbound. */
  lemma LoadedShape(p: Plan)
    ensures Unbound(Loaded(p)) == {Filepath}
    ensures BeforeSplit(Bound(Loaded(p)))
  {
    AddOpt([], true, Imports);
    assert [] + Opt(true, Imports) == [Imports];
    AddOpt([Imports], true, Load(p.ind));
    assert [Imports] + Opt(true, Load(p.ind)) == [Imports, Load(p.ind)];
  }

  lemma ImputedShape(p: Plan)
    ensures Unbound(Imputed(p)) == {Filepath}
    ensures BeforeSplit(Bound(Imputed(p)))
  {
    LoadedShape(p);
    AddOpt(Loaded(p), p.impute, Impute);
  }

  lemma EncodedShape(p: Plan)
    ensures Unbound(Encoded(p)) == {Filepath}
    ensures BeforeSplit(Bound(Encoded(p)))
  {
    ImputedShape(p);
    AddOpt(Imputed(p), p.encode, Encode(p.cat));
  }

  lemma LabelledShape(p: Plan)
    ensures Unbound(Labelled(p)) == {Filepath}
    ensures BeforeSplit(Bound(Labelled(p)))
  {
    EncodedShape(p);
    AddOpt(Encoded(p), p.labelTarget, Label);
  }

  lemma SplitDoneShape(p: Plan, testSize: string)
    ensures Unbound(SplitDone(p, testSize)) == {Filepath}
    ensures var d := Bound(SplitDone(p, testSize));
      && Np in d && Plt in d && ProcessedFolder !in d && Sc !in d
      && (XTrain in d <==> p.split) && (XTest in d <==> p.split)
      && (YTrain in d <==> p.split) && (YTest in d <==> p.split)
  {
    LabelledShape(p);
    AddOpt(Labelled(p), p.split, Split(testSize, p.rs));
  }

  /** The preprocessing part of a script leaves only `filepath` unbound,
      plus the training and test sets when the scaling runs on a set the
      split never made. */
  lemma PrefixUnbound(p: Plan, testSize: string)
    ensures Unbound(Prefix(p, testSize))
      == {Filepath} + (if p.scale && !p.split then {XTrain, XTest} else {})
  {
    SplitDoneShape(p, testSize);
    var d4 := Bound(SplitDone(p, testSize));
    AddOpt(SplitDone(p, testSize), p.scale, Scale);
    if p.scale {
      assert Uses(Scale) - d4 == if p.split then {} else {XTrain, XTest};
    }
  }

  /** Which of the names the model fragments read the preprocessing part
      binds. */
  lemma PrefixBound(p: Plan, testSize: string)
    ensures var d := Bound(Prefix(p, testSize));
      && Np in d && Plt in d && ProcessedFolder !in d
      && (XTrain in d <==> p.split || p.scale) && (XTest in d <==> p.split || p.scale)
      && (YTrain in d <==> p.split) && (YTest in d <==> p.split)
      && (Sc in d <==> p.scale)
  {
    SplitDoneShape(p, testSize);
    AddOpt(SplitDone(p, testSize), p.scale, Scale);
  }

  /** The names a builder's script leaves unbound: the two its runner
      must supply (`filepath`, `PROCESSED_FOLDER`), the training and test
      sets when the split is off, and, for the classifier, the scaler
      when the scaling is off. */
  lemma FragsUndefined(p: Plan, testSize: string, fit: Frag, text: Frag -> string)
    requires fit.PolyFit? || fit.TreeFit?
    ensures Undefined(Blocks(Frags(p, testSize, fit), text))
      == {Filepath, ProcessedFolder}
         + (if p.split then {} else {XTrain, XTest, YTrain, YTest})
         + (if fit.TreeFit? && !p.scale then {Sc} else {})
    ensures Sc in Undefined(Blocks(Frags(p, testSize, fit), text)) <==> fit.TreeFit? && !p.scale
  {
    var pre := Prefix(p, testSize);
    PrefixUnbound(p, testSize);
    PrefixBound(p, testSize);
    AddOpt(pre, true, fit);
    assert Frags(p, testSize, fit) == pre + Opt(true, fit);
    ShapeOfBlocks(Frags(p, testSize, fit), text);
    FitReads(p, fit, Unbound(pre), Bound(pre));
  }

  /** The set arithmetic of the last step of `FragsUndefined`. */
  lemma FitReads(p: Plan, fit: Frag, u: set<Symbol>, d: set<Symbol>)
    requires fit.PolyFit? || fit.TreeFit?
    requires u == {Filepath} + (if p.scale && !p.split then {XTrain, XTest} else {})
    requires Np in d && Plt in d && ProcessedFolder !in d
    requires (XTrain in d <==> p.split || p.scale) && (XTest in d <==> p.split || p.scale)
    requires (YTrain in d <==> p.split) && (YTest in d <==> p.split)
    requires Sc in d <==> p.scale
    ensures u + (Uses(fit) - d)
      == {Filepath, ProcessedFolder}
         + (if p.split then {} else {XTrain, XTest, YTrain, YTest})
         + (if fit.TreeFit? && !p.scale then {Sc} else {})
    ensures Sc in u + (Uses(fit) - d) <==> fit.TreeFit? && !p.scale
  {
  }

  // ---------------------------------------------------------------------
  // The text of a generated script
  // ---------------------------------------------------------------------

  /** A line of a block whose text is a newline and then its lines
      appears in the rendered script. */
  lemma LineInRender(fs: seq<Frag>, text: Frag -> string, lines: seq<string>, i: int, k: int)
    returns (off: int)
    requires 0 <= i < |fs| && 0 <= k < |lines|
    requires text(fs[i]) == "\n" + Text.Lines(lines)
    ensures Text.OccursAt(lines[k], Render(Blocks(fs, text)), off)
  {
    var bs := Blocks(fs, text);
    var o1 := BlockInRender(bs, i);
    var o2 := Text.LinesContains(lines, k);
    Text.OccursInConcat(lines[k], "\n", Text.Lines(lines), o2);
    Text.OccursTransitive(lines[k], text(fs[i]), Render(bs), 1 + o2, o1);
    off := o1 + 1 + o2;
  }

  /** Every line of every fragment appears in the script. */
  lemma FragLineOccurs(fs: seq<Frag>, i: int, k: int) returns (off: int)
    requires 0 <= i < |fs| && 0 <= k < |FragLines(fs[i])|
    ensures Text.OccursAt(FragLines(fs[i])[k], ScriptText(fs), off)
  {
    off := LineInRender(fs, FragText, FragLines(fs[i]), i, k);
  }

  /** A generated script opens with the imports, so `pd` is bound before
      the load reads the file. */
  lemma ScriptStartsWithImports(fs: seq<Frag>)
    requires |fs| > 0 && fs[0] == Imports
    ensures |FragText(Imports)| <= |ScriptText(fs)|
    ensures ScriptText(fs)[..|FragText(Imports)|] == FragText(Imports)
  {
    RenderStartsWithFirst(Blocks(fs, FragText));
  }

  /** Which fragments a script holds: the imports, the load and the model
      fragment always, each preprocessing fragment exactly when its switch
      is on. */
  lemma FragsContain(p: Plan, testSize: string, fit: Frag)
    requires fit.PolyFit? || fit.TreeFit?
    ensures var fs := Frags(p, testSize, fit);
      && Imports in fs && Load(p.ind) in fs && fit in fs
      && (Impute in fs <==> p.impute)
      && (Encode(p.cat) in fs <==> p.encode)
      && (Label in fs <==> p.labelTarget)
      && (Split(testSize, p.rs) in fs <==> p.split)
      && (Scale in fs <==> p.scale)
  {
    var fs := Frags(p, testSize, fit);
    // One switch at a time: together the cases multiply.
    assert Impute in fs <==> p.impute by { }
    assert Encode(p.cat) in fs <==> p.encode by { }
    assert Label in fs <==> p.labelTarget by { }
    assert Split(testSize, p.rs) in fs <==> p.split by { }
    assert Scale in fs <==> p.scale by { }
  }

  /** Every line of a fragment the script holds appears in its text. */
  lemma LineOfFragOccurs(fs: seq<Frag>, f: Frag, k: int) returns (off: int)
    requires f in fs && 0 <= k < |FragLines(f)|
    ensures Text.OccursAt(FragLines(f)[k], ScriptText(fs), off)
  {
    var i :| 0 <= i < |fs| && fs[i] == f;
    off := FragLineOccurs(fs, i, k);
  }

  /** The statements that carry the builders' parameters appear in the
      script whenever their fragment does. */
  lemma SplitLineOccurs(fs: seq<Frag>, testSize: string, rs: string) returns (off: int)
    requires Split(testSize, rs) in fs
    ensures Text.OccursAt(SplitLine(testSize, rs), ScriptText(fs), off)
  {
    off := LineOfFragOccurs(fs, Split(testSize, rs), 1);
  }

  lemma DegreeLineOccurs(fs: seq<Frag>, deg: string) returns (off: int)
    requires PolyFit(deg) in fs
    ensures Text.OccursAt(DegreeLine(deg), ScriptText(fs), off)
  {
    off := LineOfFragOccurs(fs, PolyFit(deg), 1);
  }

  lemma CriterionLineOccurs(fs: seq<Frag>, crit: string, rs: string) returns (off: int)
    requires TreeFit(crit, rs) in fs
    ensures Text.OccursAt(CriterionLine(crit, rs), ScriptText(fs), off)
  {
    off := LineOfFragOccurs(fs, TreeFit(crit, rs), 1);
  }
}

=== FILE: regression.dfy ===
/**
  `func_polynomialRegression`: reads its ten arguments, builds the text
  of a script that repeats the run, runs the pipeline and returns the
  paths of the saved model, script and plot with the R² score line.

  The arguments, in the order the upload route passes them: the uploaded
  file, the processed folder, `dropFirstColumn`, `handleMissingData`, the
  categorical column (or -1), `categoricalTargetPresent`, `splitDataset`,
  `performScaling`, the polynomial degree and the random state.
 */
module Regression {

  import opened Outcomes
  import opened Values
  import opened Exceptions
  import opened Scripts
  import opened Pipeline
  import opened Builder
  import Paths
  import Text

  const Tag := "r3"
  const ScoreLabel := "R^2 score = "
  const TestSize := "0.2"

  /** The switches, read as the builder reads them: the load starts at
      column 0 when the drop option equals `False` and at column 1
      otherwise; imputation, the split and the scaling run when their
      option equals `True`; a column is encoded unless the categorical
      argument is -1. The target encoding the run performs when
      `categoricalTargetPresent` equals `True` is never written into the
      script. */
  function Switches(arr: seq<Value>): Plan
    requires |arr| == 10
  {
    Plan(
      ind := if PyEqNum(arr[2], 0) then "0" else "1",
      impute := PyEqNum(arr[3], 1),
      encode := !PyEqNum(arr[4], -1),
      cat := PyStr(arr[4]),
      labelTarget := false,
      split := PyEqNum(arr[6], 1),
      rs := PyStr(arr[9]),
      scale := PyEqNum(arr[7], 1))
  }

  /** The fragments of the script, closing with the polynomial fit of the
      requested degree. */
  function Fragments(arr: seq<Value>): seq<Frag>
    requires |arr| == 10
  {
    Frags(Switches(arr), TestSize, PolyFit(PyStr(arr[8])))
  }

  /** The script text the builder writes to `r3.py`. */
  function Script(arr: seq<Value>): string
    requires |arr| == 10
  {
    ScriptText(Fragments(arr))
  }

  /** One call: the four results on success, the first exception
      otherwise. The script is written to the file but not returned. */
  function PolynomialRegression(arr: seq<Value>, rt: Runtime): (r: Result<seq<Value>, Exc>)
    requires |arr| == 10
    ensures r.Ok? <==> rt.fit.Ok? && arr[1].Str? && rt.dump.None? && rt.plot.None? && rt.write.None?
    ensures r.Ok? ==> |r.value| == 4 && r.value[2] == Str(ScoreLabel + rt.fit.value + "%")
    ensures r.Ok? ==> forall i :: 0 <= i < 4 ==> r.value[i].Str?
    ensures r.Ok? ==>
      && Paths.Basename(r.value[0].s) == ModelName(Tag)
      && Paths.Basename(r.value[1].s) == ScriptName(Tag)
      && Paths.Basename(r.value[3].s) == PlotName(Tag, rt.timestamp)
    ensures rt.fit.Err? ==> r == Err(Library(rt.fit.error))
    ensures rt.fit.Ok? && !arr[1].Str? ==> r == Err(PathType)
  {
    var r := Run(rt, arr[1], Tag, ScoreLabel, false);
    if r.Ok? then
      OutputNames(arr[1].s, Tag, ScoreLabel, rt.fit.value, rt.timestamp);
      r
    else r
  }

  /** The builder as the upload route reads its result: the same call,
      returning the script text as a fifth result. */
  function PolynomialRegressionIntended(arr: seq<Value>, rt: Runtime): (r: Result<seq<Value>, Exc>)
    requires |arr| == 10
    ensures r.Ok? <==> PolynomialRegression(arr, rt).Ok?
    ensures r.Err? ==> r == PolynomialRegression(arr, rt)
    ensures r.Ok? ==> |r.value| == 5 && r.value[..4] == PolynomialRegression(arr, rt).value
    ensures r.Ok? ==> r.value[4] == Str(Script(arr))
  {
    match PolynomialRegression(arr, rt)
    case Ok(out) => Ok(out + [Str(Script(arr))])
    case Err(e) => Err(e)
  }

  // ---------------------------------------------------------------------
  // The script
  // ---------------------------------------------------------------------

  /** The script holds a fragment exactly when its switch is on; it never
      holds the target encoding. */
  lemma ScriptSwitches(arr: seq<Value>)
    requires |arr| == 10
    ensures var fs := Fragments(arr);
      && fs[0] == Imports
      && fs[1] == Load(if PyEqNum(arr[2], 0) then "0" else "1")
      && (Impute in fs <==> PyEqNum(arr[3], 1))
      && (Encode(PyStr(arr[4])) in fs <==> !PyEqNum(arr[4], -1))
      && Label !in fs
      && (Split(TestSize, PyStr(arr[9])) in fs <==> PyEqNum(arr[6], 1))
      && (Scale in fs <==> PyEqNum(arr[7], 1))
      && fs[|fs| - 1] == PolyFit(PyStr(arr[8]))
  {
    FragsContain(Switches(arr), TestSize, PolyFit(PyStr(arr[8])));
  }

  /** The script reads only `filepath` and `PROCESSED_FOLDER` from its
      runner, plus the training and test sets when the split is off (the
      run binds them to the whole data then; the script does not). */
  lemma ScriptUnbound(arr: seq<Value>)
    requires |arr| == 10
    ensures Undefined(Blocks(Fragments(arr), FragText))
      == {Filepath, ProcessedFolder}
         + (if PyEqNum(arr[6], 1) then {} else {XTrain, XTest, YTrain, YTest})
  {
    FragsUndefined(Switches(arr), TestSize, PolyFit(PyStr(arr[8])), FragText);
  }

  /** The degree is written into the script. */
  lemma DegreeInScript(arr: seq<Value>) returns (off: int)
    requires |arr| == 10
    ensures Text.OccursAt(DegreeLine(PyStr(arr[8])), Script(arr), off)
  {
    var fs := Fragments(arr);
    assert fs[|fs| - 1] == PolyFit(PyStr(arr[8]));
    off := DegreeLineOccurs(fs, PyStr(arr[8]));
  }

  /** With the split on, its test size and random state are written into
      the script. */
  lemma SplitInScript(arr: seq<Value>) returns (off: int)
    requires |arr| == 10 && PyEqNum(arr[6], 1)
    ensures Text.OccursAt(SplitLine(TestSize, PyStr(arr[9])), Script(arr), off)
  {
    FragsContain(Switches(arr), TestSize, PolyFit(PyStr(arr[8])));
    off := SplitLineOccurs(Fragments(arr), TestSize, PyStr(arr[9]));
  }

  /** The script does not depend on `categoricalTargetPresent`. */
  lemma ScriptIgnoresTarget(arr: seq<Value>, v: Value)
    requires |arr| == 10
    ensures Script(arr[5 := v]) == Script(arr)
  {
    assert Switches(arr[5 := v]) == Switches(arr);
  }
}

=== FILE: route.dfy ===
/**
  `POST /upload`: reads the multipart request, turns the options and the
  fields into the builders' argument list, calls the builder the
  selected algorithm names and answers with a JSON body. Every exception
  ends in a 500 response; a missing file and options that are not JSON
  end in a 400 response.
 */
module Route {

  import opened Outcomes
  import opened Values
  import opened Exceptions
  import Http
  import Paths
  import Options
  import Builder
  import Regression
  import Classification

  const ProcessedFolder := "D:\\buffer_\\uploads"
  const NoFileMessage := "No file uploaded"
  const BadOptionsMessage := "Invalid options format"
  const ProcessedMessage := "File processed"
  const ServerErrorMessage := "An error occurred on the server."

  /** Why the route did not answer 200: a request it rejects with 400, or
      an exception it reports with 500. */
  datatype Failure = BadRequest(message: string) | Raised(e: Exc)

  /** What `output_path` holds when the route reads it: the initial string
      `'ans'` when no builder ran, or the list a builder returned. */
  datatype Output = Fallback | Built(items: seq<Value>)

  /** `options.get(key, False)`. */
  function Switch(entries: seq<(string, Value)>, k: Options.Key): Value {
    Get(entries, Options.KeyName(k)).GetOr(Bool(false))
  }

  /** A switch reads as the last value the options carry under its name,
      and as `False` when no entry has that name. */
  lemma SwitchSpec(entries: seq<(string, Value)>, k: Options.Key)
    ensures (forall i :: 0 <= i < |entries| ==> entries[i].0 != Options.KeyName(k)) ==>
      Switch(entries, k) == Bool(false)
    ensures forall i ::
      (0 <= i < |entries| && entries[i].0 == Options.KeyName(k)
       && forall j :: i < j < |entries| ==> entries[j].0 != Options.KeyName(k))
      ==> Switch(entries, k) == entries[i].1
  {
    var key := Options.KeyName(k);
    var r := Get(entries, key);
    forall i | 0 <= i < |entries| && entries[i].0 == key && (forall j :: i < j < |entries| ==> entries[j].0 != key)
      ensures Switch(entries, k) == entries[i].1
    {
      assert r.Some?;
      var i' :| 0 <= i' < |entries| && entries[i'] == (key, r.value)
        && forall j :: i' < j < |entries| ==> entries[j].0 != key;
      assert i' == i;
    }
  }

  /** `int(categorical_input) if categorical_input != '' else -1`: an
      empty field means no column; a missing one is `int(None)`. The
      ensures only spell out the three cases; `ColumnSpec` states what
      the result means. */
  function Column(v: Option<string>): (r: Result<int, Exc>)
    ensures v == Some("") ==> r == Ok(-1)
    ensures v.None? ==> r == Err(IntOfNone)
    ensures v.Some? && v.value != "" ==> r == PyInt(v)
  {
    if v == Some("") then Ok(-1) else PyInt(v)
  }

  /** What the categorical field means to the builders: a column is found
      exactly for an empty field or one `int()` reads; the decimal text of
      an integer gives that integer; an empty field and `-1` are the same
      "no column"; anything else is reported with the text sent. */
  lemma ColumnSpec(v: Option<string>)
    ensures Column(v).Ok? <==> v == Some("") || (v.Some? && Text.ParseInt(v.value).Some?)
    ensures v.Some? && Column(v).Err? ==> Column(v) == Err(IntLiteral(v.value))
    ensures forall n: int :: Column(Some(Text.IntToString(n))) == Ok(n)
    ensures Column(Some("")) == Column(Some("-1"))
  {
    forall n: int
      ensures Column(Some(Text.IntToString(n))) == Ok(n)
    {
      Exceptions.PyIntOfDecimal(n);
    }
    Exceptions.PyIntOfDecimal(-1);
    assert Text.IntToString(-1) == "-1";
  }

  /** The eight arguments both builders share. */
  function Arguments(fileName: string, entries: seq<(string, Value)>, column: int, target: bool)
    : (arr: seq<Value>)
    ensures |arr| == 8
  {
    [ FileObj(fileName),
      Str(ProcessedFolder),
      Switch(entries, Options.DropFirstColumn),
      Switch(entries, Options.HandleMissingData),
      Int(column),
      Bool(target),
      Switch(entries, Options.SplitDataset),
      Switch(entries, Options.PerformScaling) ]
  }

  /** A switch the options leave out reaches the builders as `False`. */
  lemma AbsentSwitchesAreFalse(fileName: string, entries: seq<(string, Value)>, column: int, target: bool)
    ensures Absent(entries, Options.DropFirstColumn) ==> Arguments(fileName, entries, column, target)[2] == Bool(false)
    ensures Absent(entries, Options.HandleMissingData) ==> Arguments(fileName, entries, column, target)[3] == Bool(false)
    ensures Absent(entries, Options.SplitDataset) ==> Arguments(fileName, entries, column, target)[6] == Bool(false)
    ensures Absent(entries, Options.PerformScaling) ==> Arguments(fileName, entries, column, target)[7] == Bool(false)
  {
    var arr := Arguments(fileName, entries, column, target);
    assert Absent(entries, Options.DropFirstColumn) ==> arr[2] == Bool(false) by {
      SwitchSpec(entries, Options.DropFirstColumn);
    }
    assert Absent(entries, Options.HandleMissingData) ==> arr[3] == Bool(false) by {
      SwitchSpec(entries, Options.HandleMissingData);
    }
    assert Absent(entries, Options.SplitDataset) ==> arr[6] == Bool(false) by {
      SwitchSpec(entries, Options.SplitDataset);
    }
    assert Absent(entries, Options.PerformScaling) ==> arr[7] == Bool(false) by {
      SwitchSpec(entries, Options.PerformScaling);
    }
  }

  /** No entry of the options carries the switch's name. */
  predicate Absent(entries: seq<(string, Value)>, k: Options.Key) {
    forall i :: 0 <= i < |entries| ==> entries[i].0 != Options.KeyName(k)
  }

  /** The `if selected_algorithm == …` dispatch; any other algorithm
      leaves `output_path` as it was. */
  function Build(form: seq<(Http.Field, string)>, arr: seq<Value>, rt: Builder.Runtime, intended: bool)
    : (r: Result<Output, Exc>)
    requires |arr| == 8
    ensures Http.FormGet(form, Http.SelectedAlgorithmField) == Some("polynomial-regression") ==>
      r == BuildRegression(form, arr, rt, intended)
    ensures Http.FormGet(form, Http.SelectedAlgorithmField) == Some("decision-tree") ==>
      r == BuildClassification(form, arr, rt, intended)
    ensures Http.FormGet(form, Http.SelectedAlgorithmField) !in {Some("polynomial-regression"), Some("decision-tree")}
      ==> r == Ok(Fallback)
    ensures r.Ok? && r.value.Built? ==> |r.value.items| == if intended then 5 else 4
    ensures r.Ok? && r.value.Built? ==>
      r.value.items[0].Str? && r.value.items[1].Str? && r.value.items[3].Str?
  {
    var algorithm := Http.FormGet(form, Http.SelectedAlgorithmField);
    if algorithm == Some("polynomial-regression") then BuildRegression(form, arr, rt, intended)
    else if algorithm == Some("decision-tree") then BuildClassification(form, arr, rt, intended)
    else Ok(Fallback)
  }

  /** The regression branch: the degree, then the random state, each
      through `int()`, appended to the shared arguments. */
  function BuildRegression(form: seq<(Http.Field, string)>, arr: seq<Value>, rt: Builder.Runtime, intended: bool)
    : (r: Result<Output, Exc>)
    requires |arr| == 8
    ensures PyInt(Http.FormGet(form, Http.PolynomialDegreeField)).Err? ==>
      r == Err(PyInt(Http.FormGet(form, Http.PolynomialDegreeField)).error)
    ensures (PyInt(Http.FormGet(form, Http.PolynomialDegreeField)).Ok?
             && PyInt(Http.FormGet(form, Http.RegressionRandomStateField)).Err?) ==>
      r == Err(PyInt(Http.FormGet(form, Http.RegressionRandomStateField)).error)
    ensures r.Ok? ==> r.value.Built? && |r.value.items| == if intended then 5 else 4
    ensures r.Ok? ==> r.value.items[0].Str? && r.value.items[1].Str? && r.value.items[3].Str?
  {
    match PyInt(Http.FormGet(form, Http.PolynomialDegreeField))
    case Err(e) => Err(e)
    case Ok(deg) =>
      match PyInt(Http.FormGet(form, Http.RegressionRandomStateField))
      case Err(e) => Err(e)
      case Ok(rs) =>
        var args := arr + [Int(deg), Int(rs)];
        var out :=
          if intended then Regression.PolynomialRegressionIntended(args, rt)
          else Regression.PolynomialRegression(args, rt);
        match out
        case Ok(items) => Ok(Built(items))
        case Err(e) => Err(e)
  }

  /** The decision-tree branch: the criterion as sent (or `None`) and the
      random state through `int()`, appended to the shared arguments. */
  function BuildClassification(form: seq<(Http.Field, string)>, arr: seq<Value>, rt: Builder.Runtime, intended: bool)
    : (r: Result<Output, Exc>)
    requires |arr| == 8
    ensures PyInt(Http.FormGet(form, Http.ClassificationRandomStateField)).Err? ==>
      r == Err(PyInt(Http.FormGet(form, Http.ClassificationRandomStateField)).error)
    ensures r.Ok? ==> r.value.Built? && |r.value.items| == if intended then 5 else 4
    ensures r.Ok? ==> r.value.items[0].Str? && r.value.items[1].Str? && r.value.items[3].Str?
  {
    match PyInt(Http.FormGet(form, Http.ClassificationRandomStateField))
    case Err(e) => Err(e)
    case Ok(rs) =>
      var args := arr + [Criterion(form), Int(rs)];
      var out :=
        if intended then Classification.DecisionTreeClassifierIntended(args, rt)
        else Classification.DecisionTreeClassifier(args, rt);
      match out
      case Ok(items) => Ok(Built(items))
      case Err(e) => Err(e)
  }

  /** The body of a processed request, read from `output_path`: a single
      result is passed on as it is; otherwise the fifth result is read,
      and the paths among the first four are shown by their base names. */
  function Respond(out: Output): (r: Result<Value, Exc>)
    ensures out.Fallback? ==> r == Err(StringIndex)
    ensures out.Built? && |out.items| == 1 ==>
      r == Ok(Obj([("message", Str(ProcessedMessage)), ("result", out.items[0])]))
    ensures out.Built? && |out.items| != 1 && |out.items| < 5 ==> r == Err(ListIndex)
    ensures out.Built? && |out.items| >= 5 && !PathsAreText(out.items) ==> r == Err(PathType)
    ensures out.Built? && |out.items| >= 5 && PathsAreText(out.items) ==> r == Ok(Processed(out.items))
  {
    match out
    case Fallback => Err(StringIndex)
    case Built(items) =>
      if |items| == 1 then Ok(Obj([("message", Str(ProcessedMessage)), ("result", items[0])]))
      else if |items| < 5 then Err(ListIndex)
      else if !PathsAreText(items) then Err(PathType)
      else Ok(Processed(items))
  }

  /** `os.path.basename` accepts only strings: the model file, the data
      file and the plot must be text. */
  predicate PathsAreText(items: seq<Value>)
    requires |items| >= 5
  {
    items[0].Str? && items[1].Str? && items[3].Str?
  }

  /** The 200 body for five results. */
  function Processed(items: seq<Value>): Value
    requires |items| >= 5 && PathsAreText(items)
  {
    Obj(Members(
      Str("/download/" + Paths.Basename(items[0].s)),
      Str("/download/" + Paths.Basename(items[1].s)),
      items[2],
      items[4],
      Str("/plot/" + Paths.Basename(items[3].s))))
  }

  /** The members of the 200 body. Their keys are distinct, so the order
      in which `jsonify` writes them plays no part. */
  function Members(model: Value, data: Value, result: Value, script: Value, plot: Value)
    : seq<(string, Value)>
  {
    [ ("message", Str(ProcessedMessage)),
      ("modelPath", model),
      ("rawFilePath", data),
      ("result", result),
      ("rawPyStr", script),
      ("plot_path", plot) ]
  }

  /** Each member the dashboard reads is found under its key. */
  lemma MembersGet(model: Value, data: Value, result: Value, script: Value, plot: Value)
    ensures Get(Members(model, data, result, script, plot), "modelPath") == Some(model)
    ensures Get(Members(model, data, result, script, plot), "rawPyStr") == Some(script)
    ensures Get(Members(model, data, result, script, plot), "plot_path") == Some(plot)
  {
    var es := Members(model, data, result, script, plot);
    GetLast(es, "modelPath", 1);
    GetLast(es, "rawPyStr", 4);
    GetLast(es, "plot_path", 5);
  }

  /** The 200 body links the model and the plot by the base names of the
      builder's first and fourth results, and carries the fifth as the
      script. */
  lemma ProcessedFields(items: seq<Value>)
    requires |items| >= 5 && PathsAreText(items)
    ensures Field(Processed(items), "modelPath") == Some(Str("/download/" + Paths.Basename(items[0].s)))
    ensures Field(Processed(items), "rawPyStr") == Some(items[4])
    ensures Field(Processed(items), "plot_path") == Some(Str("/plot/" + Paths.Basename(items[3].s)))
  {
    MembersGet(Str("/download/" + Paths.Basename(items[0].s)), Str("/download/" + Paths.Basename(items[1].s)),
               items[2], items[4], Str("/plot/" + Paths.Basename(items[3].s)));
  }

  /** The body of `upload()` up to the response. `loads` is `json.loads`
      (`None`: the text is not JSON). */
  function Process(q: Http.Request, loads: string -> Option<Value>, rt: Builder.Runtime, intended: bool)
    : (r: Result<Value, Failure>)
    ensures q.dataset.None? || q.dataset == Some("") ==> r == Err(BadRequest(NoFileMessage))
    ensures r.Err? && r.error.BadRequest? ==>
      r.error.message == NoFileMessage || r.error.message == BadOptionsMessage
    ensures !intended ==> r.Err?
  {
    if q.dataset.None? || q.dataset.value == "" then Err(BadRequest(NoFileMessage))
    else
      match Http.FormGet(q.form, Http.OptionsField)
      case None => Err(Raised(JsonInputType))
      case Some(text) =>
        match loads(text)
        case None => Err(BadRequest(BadOptionsMessage))
        case Some(options) =>
          if !options.Obj? then Err(Raised(NoGetMethod))
          else
            match Column(Http.FormGet(q.form, Http.CategoricalInputField))
            case Err(e) => Err(Raised(e))
            case Ok(column) =>
              var target := Http.FormGet(q.form, Http.CategoricalTargetPresentField) == Some("true");
              var arr := Arguments(q.dataset.value, options.entries, column, target);
              match Build(q.form, arr, rt, intended)
              case Err(e) => Err(Raised(e))
              case Ok(out) =>
                match Respond(out)
                case Ok(body) => Ok(body)
                case Err(e) => Err(Raised(e))
  }

  /** The HTTP response: 200 with the body, 400 with `{"error": …}`, or
      500 with `{"error": str(e), "message": …}`; `describe` is `str(e)`. */
  function Reply(r: Result<Value, Failure>, describe: Exc -> string): (resp: Http.Response)
    ensures resp.status == 200 <==> r.Ok?
    ensures resp.status == 400 <==> r.Err? && r.error.BadRequest?
    ensures resp.status == 500 <==> r.Err? && r.error.Raised?
    ensures r.Ok? ==> resp.body == r.value
  {
    match r
    case Ok(body) => Http.Response(200, body)
    case Err(BadRequest(m)) => Http.Response(400, Obj([("error", Str(m))]))
    case Err(Raised(e)) =>
      Http.Response(500, Obj([("error", Str(describe(e))), ("message", Str(ServerErrorMessage))]))
  }

  /** The route as written. */
  function Handle(q: Http.Request, loads: string -> Option<Value>, rt: Builder.Runtime, describe: Exc -> string)
    : (resp: Http.Response)
    ensures resp.status == 400 || resp.status == 500
  {
    Reply(Process(q, loads, rt, false), describe)
  }

  /** The route with builders that return the script as the fifth result,
      which is what the route reads. */
  function HandleIntended(q: Http.Request, loads: string -> Option<Value>, rt: Builder.Runtime, describe: Exc -> string)
    : (resp: Http.Response)
    ensures resp.status == 200 || resp.status == 400 || resp.status == 500
    ensures resp.status == 200 <==> Process(q, loads, rt, true).Ok?
  {
    Reply(Process(q, loads, rt, true), describe)
  }

  // ---------------------------------------------------------------------
  // Properties
  // ---------------------------------------------------------------------

  /** A request without a file is rejected with 400 before anything else
      is read. */
  lemma NoFileIs400(q: Http.Request, loads: string -> Option<Value>, rt: Builder.Runtime, describe: Exc -> string)
    requires q.dataset.None? || q.dataset == Some("")
    ensures Handle(q, loads, rt, describe) == Http.Response(400, Obj([("error", Str(NoFileMessage))]))
    ensures HandleIntended(q, loads, rt, describe) == Handle(q, loads, rt, describe)
  {
  }

  /** How a request that carries a file fails before any builder runs:
      a missing `options` field and options that are not a JSON object
      raise, options that are not JSON are the only other 400, and a
      categorical field `int()` rejects raises. */
  lemma ProcessFailures(q: Http.Request, loads: string -> Option<Value>, rt: Builder.Runtime, intended: bool)
    requires q.dataset.Some? && q.dataset.value != ""
    ensures var opts := Http.FormGet(q.form, Http.OptionsField);
      opts.None? ==> Process(q, loads, rt, intended) == Err(Raised(JsonInputType))
    ensures var opts := Http.FormGet(q.form, Http.OptionsField);
      opts.Some? && loads(opts.value).None? ==>
        Process(q, loads, rt, intended) == Err(BadRequest(BadOptionsMessage))
    ensures var opts := Http.FormGet(q.form, Http.OptionsField);
      opts.Some? && loads(opts.value).Some? && !loads(opts.value).value.Obj? ==>
        Process(q, loads, rt, intended) == Err(Raised(NoGetMethod))
    ensures var opts := Http.FormGet(q.form, Http.OptionsField);
      var column := Column(Http.FormGet(q.form, Http.CategoricalInputField));
      opts.Some? && loads(opts.value).Some? && loads(opts.value).value.Obj? && column.Err? ==>
        Process(q, loads, rt, intended) == Err(Raised(column.error))
    ensures var opts := Http.FormGet(q.form, Http.OptionsField);
      var r := Process(q, loads, rt, intended);
      r.Err? && r.error.BadRequest? <==> opts.Some? && loads(opts.value).None?
  {
  }

  /** Options text that is not JSON is answered 400 "Invalid options
      format". */
  lemma BadOptionsIs400(q: Http.Request, loads: string -> Option<Value>, rt: Builder.Runtime, describe: Exc -> string)
    requires q.dataset.Some? && q.dataset.value != ""
    requires Http.FormGet(q.form, Http.OptionsField).Some?
    requires loads(Http.FormGet(q.form, Http.OptionsField).value).None?
    ensures Handle(q, loads, rt, describe) == Http.Response(400, Obj([("error", Str(BadOptionsMessage))]))
    ensures HandleIntended(q, loads, rt, describe) == Handle(q, loads, rt, describe)
  {
    ProcessFailures(q, loads, rt, false);
    ProcessFailures(q, loads, rt, true);
  }

  /** A request without an `options` field is answered 500: `json.loads`
      raises `TypeError` on `None`, which the decode handler does not
      catch. */
  lemma MissingOptionsIs500(q: Http.Request, loads: string -> Option<Value>, rt: Builder.Runtime, describe: Exc -> string)
    requires q.dataset.Some? && q.dataset.value != ""
    requires Http.FormGet(q.form, Http.OptionsField).None?
    ensures Handle(q, loads, rt, describe)
      == Http.Response(500, Obj([("error", Str(describe(JsonInputType))), ("message", Str(ServerErrorMessage))]))
    ensures HandleIntended(q, loads, rt, describe) == Handle(q, loads, rt, describe)
  {
    ProcessFailures(q, loads, rt, false);
    ProcessFailures(q, loads, rt, true);
  }

  /** Options that decode to something other than an object are answered
      500: they have no `get`. */
  lemma NonObjectOptionsIs500(q: Http.Request, loads: string -> Option<Value>, rt: Builder.Runtime, describe: Exc -> string)
    requires q.dataset.Some? && q.dataset.value != ""
    requires Http.FormGet(q.form, Http.OptionsField).Some?
    requires loads(Http.FormGet(q.form, Http.OptionsField).value).Some?
    requires !loads(Http.FormGet(q.form, Http.OptionsField).value).value.Obj?
    ensures Handle(q, loads, rt, describe)
      == Http.Response(500, Obj([("error", Str(describe(NoGetMethod))), ("message", Str(ServerErrorMessage))]))
    ensures HandleIntended(q, loads, rt, describe) == Handle(q, loads, rt, describe)
  {
    ProcessFailures(q, loads, rt, false);
    ProcessFailures(q, loads, rt, true);
  }

  /** A categorical field that `int()` rejects is answered 500 with that
      error, before any builder runs. */
  lemma BadColumnIs500(q: Http.Request, loads: string -> Option<Value>, rt: Builder.Runtime, describe: Exc -> string)
    requires q.dataset.Some? && q.dataset.value != ""
    requires Http.FormGet(q.form, Http.OptionsField).Some?
    requires loads(Http.FormGet(q.form, Http.OptionsField).value).Some?
    requires loads(Http.FormGet(q.form, Http.OptionsField).value).value.Obj?
    requires Column(Http.FormGet(q.form, Http.CategoricalInputField)).Err?
    ensures var e := Column(Http.FormGet(q.form, Http.CategoricalInputField)).error;
      Handle(q, loads, rt, describe)
        == Http.Response(500, Obj([("error", Str(describe(e))), ("message", Str(ServerErrorMessage))]))
    ensures HandleIntended(q, loads, rt, describe) == Handle(q, loads, rt, describe)
  {
    ProcessFailures(q, loads, rt, false);
    ProcessFailures(q, loads, rt, true);
  }

  /** Every run a builder completes ends in a 500 response reporting the
      index error. */
  lemma CompletedRunIsListIndex(q: Http.Request, loads: string -> Option<Value>, rt: Builder.Runtime,
                                describe: Exc -> string, arr: seq<Value>)
    requires q.dataset.Some? && q.dataset.value != ""
    requires Http.FormGet(q.form, Http.OptionsField).Some?
    requires loads(Http.FormGet(q.form, Http.OptionsField).value).Some?
    requires loads(Http.FormGet(q.form, Http.OptionsField).value).value.Obj?
    requires Column(Http.FormGet(q.form, Http.CategoricalInputField)).Ok?
    requires arr == Arguments(q.dataset.value, loads(Http.FormGet(q.form, Http.OptionsField).value).value.entries,
                              Column(Http.FormGet(q.form, Http.CategoricalInputField)).value,
                              Http.FormGet(q.form, Http.CategoricalTargetPresentField) == Some("true"))
    requires Build(q.form, arr, rt, false).Ok? && Build(q.form, arr, rt, false).value.Built?
    ensures Handle(q, loads, rt, describe)
      == Http.Response(500, Obj([("error", Str(describe(ListIndex))), ("message", Str(ServerErrorMessage))]))
  {
  }

  /** The builders' switches are the options' members read back: the
      switch record, sent as JSON and decoded, gives each switch as a
      boolean. `importLibraries` and `categoricalData` are read but
      never passed on. */
  lemma ArgumentsFromSwitches(fileName: string, f: Options.Flags, column: int, target: bool)
    ensures var arr := Arguments(fileName, Options.AsValue(f).entries, column, target);
      && arr[2] == Bool(f.dropFirstColumn)
      && arr[3] == Bool(f.handleMissingData)
      && arr[6] == Bool(f.splitDataset)
      && arr[7] == Bool(f.performScaling)
    ensures forall g: Options.Flags ::
      g.(importLibraries := f.importLibraries, categoricalData := f.categoricalData) == f ==>
      Arguments(fileName, Options.AsValue(g).entries, column, target)
        == Arguments(fileName, Options.AsValue(f).entries, column, target)
  {
    SwitchArguments(fileName, f, column, target);
    forall g: Options.Flags | g.(importLibraries := f.importLibraries, categoricalData := f.categoricalData) == f
      ensures Arguments(fileName, Options.AsValue(g).entries, column, target)
        == Arguments(fileName, Options.AsValue(f).entries, column, target)
    {
      SameBuilderSwitches(fileName, f, g, column, target);
    }
  }

  /** The four switch arguments are the record's switches. */
  lemma SwitchArguments(fileName: string, f: Options.Flags, column: int, target: bool)
    ensures var arr := Arguments(fileName, Options.AsValue(f).entries, column, target);
      && arr[2] == Bool(f.dropFirstColumn)
      && arr[3] == Bool(f.handleMissingData)
      && arr[6] == Bool(f.splitDataset)
      && arr[7] == Bool(f.performScaling)
  {
    ArgumentsOfFlags(fileName, f, column, target);
  }

  /** Two records that differ at most in the switches the builders do not
      take give the same arguments. */
  lemma SameBuilderSwitches(fileName: string, f: Options.Flags, g: Options.Flags, column: int, target: bool)
    requires g.(importLibraries := f.importLibraries, categoricalData := f.categoricalData) == f
    ensures Arguments(fileName, Options.AsValue(g).entries, column, target)
      == Arguments(fileName, Options.AsValue(f).entries, column, target)
  {
    ArgumentsOfFlags(fileName, f, column, target);
    ArgumentsOfFlags(fileName, g, column, target);
  }

  /** The eight arguments of a decoded switch record. */
  lemma ArgumentsOfFlags(fileName: string, f: Options.Flags, column: int, target: bool)
    ensures Arguments(fileName, Options.AsValue(f).entries, column, target)
      == [ FileObj(fileName), Str(ProcessedFolder), Bool(f.dropFirstColumn), Bool(f.handleMissingData),
           Int(column), Bool(target), Bool(f.splitDataset), Bool(f.performScaling) ]
  {
    Options.AsValueGet(f, Options.DropFirstColumn);
    Options.AsValueGet(f, Options.HandleMissingData);
    Options.AsValueGet(f, Options.SplitDataset);
    Options.AsValueGet(f, Options.PerformScaling);
  }

  // ---------------------------------------------------------------------
  // The corrected route
  // ---------------------------------------------------------------------

  /** The request a run needs: a file, options that decode to an object,
      a readable categorical field and the named algorithm. */
  predicate Admitted(q: Http.Request, loads: string -> Option<Value>, entries: seq<(string, Value)>, column: int,
                     algorithm: string)
  {
    && q.dataset.Some? && q.dataset.value != ""
    && Http.FormGet(q.form, Http.OptionsField).Some?
    && loads(Http.FormGet(q.form, Http.OptionsField).value) == Some(Obj(entries))
    && Column(Http.FormGet(q.form, Http.CategoricalInputField)) == Ok(column)
    && Http.FormGet(q.form, Http.SelectedAlgorithmField) == Some(algorithm)
  }

  /** The shared arguments of an admitted request. */
  function Shared(q: Http.Request, entries: seq<(string, Value)>, column: int): (arr: seq<Value>)
    requires q.dataset.Some?
    ensures |arr| == 8 && arr[0] == FileObj(q.dataset.value) && arr[1] == Str(ProcessedFolder)
    ensures arr[4] == Int(column)
    ensures arr[5] == Bool(Http.FormGet(q.form, Http.CategoricalTargetPresentField) == Some("true"))
  {
    Arguments(q.dataset.value, entries, column,
              Http.FormGet(q.form, Http.CategoricalTargetPresentField) == Some("true"))
  }

  /** Nothing the libraries or the file system do fails. */
  predicate Succeeds(rt: Builder.Runtime) {
    rt.fit.Ok? && rt.dump.None? && rt.plot.None? && rt.write.None?
  }

  /** An admitted request is answered with what the builder's results
      make of the body. */
  lemma ProcessAdmitted(q: Http.Request, loads: string -> Option<Value>, rt: Builder.Runtime, intended: bool,
                        entries: seq<(string, Value)>, column: int, algorithm: string)
    requires Admitted(q, loads, entries, column, algorithm)
    requires Build(q.form, Shared(q, entries, column), rt, intended).Ok?
    requires Respond(Build(q.form, Shared(q, entries, column), rt, intended).value).Ok?
    ensures Process(q, loads, rt, intended)
      == Ok(Respond(Build(q.form, Shared(q, entries, column), rt, intended).value).value)
  {
  }

  /** The corrected regression branch hands on the builder's five
      results. */
  lemma RegressionBuilt(form: seq<(Http.Field, string)>, arr: seq<Value>, rt: Builder.Runtime, degree: int, rs: int)
    requires |arr| == 8 && arr[1].Str?
    requires Http.FormGet(form, Http.SelectedAlgorithmField) == Some("polynomial-regression")
    requires PyInt(Http.FormGet(form, Http.PolynomialDegreeField)) == Ok(degree)
    requires PyInt(Http.FormGet(form, Http.RegressionRandomStateField)) == Ok(rs)
    requires Succeeds(rt)
    ensures var items := Regression.PolynomialRegressionIntended(arr + [Int(degree), Int(rs)], rt);
      && items.Ok? && |items.value| == 5 && PathsAreText(items.value)
      && Build(form, arr, rt, true) == Ok(Built(items.value))
  {
    var args := arr + [Int(degree), Int(rs)];
    assert args[1] == arr[1];
  }

  /** With the corrected builders, an admitted polynomial-regression
      request whose run succeeds is answered 200 with the regression
      builder's five results. */
  lemma RegressionAnswered(q: Http.Request, loads: string -> Option<Value>, rt: Builder.Runtime,
                           describe: Exc -> string, entries: seq<(string, Value)>, column: int,
                           degree: int, rs: int)
    requires Admitted(q, loads, entries, column, "polynomial-regression")
    requires PyInt(Http.FormGet(q.form, Http.PolynomialDegreeField)) == Ok(degree)
    requires PyInt(Http.FormGet(q.form, Http.RegressionRandomStateField)) == Ok(rs)
    requires Succeeds(rt)
    ensures var items := Regression.PolynomialRegressionIntended(Shared(q, entries, column) + [Int(degree), Int(rs)], rt);
      && items.Ok? && |items.value| == 5 && PathsAreText(items.value)
      && HandleIntended(q, loads, rt, describe) == Http.Response(200, Processed(items.value))
  {
    var arr := Shared(q, entries, column);
    RegressionBuilt(q.form, arr, rt, degree, rs);
    var items := Regression.PolynomialRegressionIntended(arr + [Int(degree), Int(rs)], rt).value;
    assert Respond(Built(items)) == Ok(Processed(items));
    ProcessAdmitted(q, loads, rt, true, entries, column, "polynomial-regression");
  }

  /** The criterion field as the classifier receives it:
      `request.form.get` gives `None` for a missing field. */
  function Criterion(form: seq<(Http.Field, string)>): (v: Value)
    ensures Http.FormGet(form, Http.DecisionTreeCriterionField).None? <==> v == Null
    ensures Http.FormGet(form, Http.DecisionTreeCriterionField).Some? ==>
      v == Str(Http.FormGet(form, Http.DecisionTreeCriterionField).value)
  {
    match Http.FormGet(form, Http.DecisionTreeCriterionField)
    case None => Null
    case Some(c) => Str(c)
  }

  /** The criterion is not checked against the values the page offers:
      the first text sent under the field reaches the classifier, whatever
      it is, and `None` does exactly when the field was not sent. */
  lemma CriterionSpec(form: seq<(Http.Field, string)>)
    ensures Criterion(form) == Null <==>
      forall i :: 0 <= i < |form| ==> form[i].0 != Http.DecisionTreeCriterionField
    ensures Criterion(form).Str? ==> (Http.DecisionTreeCriterionField, Criterion(form).s) in form
    ensures forall i ::
      0 <= i < |form| && form[i].0 == Http.DecisionTreeCriterionField
      && Http.FirstWith(form, Http.DecisionTreeCriterionField, i)
      ==> Criterion(form) == Str(form[i].1)
  {
    Http.FormGetSpec(form, Http.DecisionTreeCriterionField);
  }

  /** The corrected decision-tree branch hands on the builder's five
      results when scaling is on. */
  lemma ClassificationBuilt(form: seq<(Http.Field, string)>, arr: seq<Value>, rt: Builder.Runtime, rs: int)
    requires |arr| == 8 && arr[1].Str? && PyEqNum(arr[7], 1)
    requires PyInt(Http.FormGet(form, Http.ClassificationRandomStateField)) == Ok(rs)
    requires Succeeds(rt)
    ensures var items := Classification.DecisionTreeClassifierIntended(arr + [Criterion(form), Int(rs)], rt);
      && items.Ok? && |items.value| == 5 && PathsAreText(items.value)
      && BuildClassification(form, arr, rt, true) == Ok(Built(items.value))
  {
    var args := arr + [Criterion(form), Int(rs)];
    assert args[1] == arr[1] && args[7] == arr[7];
    ClassifierSucceeds(args, rt);
  }

  /** A classifier run with scaling on and nothing failing gives five
      results whose paths are text. */
  lemma ClassifierSucceeds(args: seq<Value>, rt: Builder.Runtime)
    requires |args| == 10 && args[1].Str? && PyEqNum(args[7], 1) && Succeeds(rt)
    ensures var items := Classification.DecisionTreeClassifierIntended(args, rt);
      items.Ok? && |items.value| == 5 && PathsAreText(items.value)
  {
    assert Classification.DecisionTreeClassifier(args, rt).Ok?;
  }

  /** With the corrected builders, an admitted decision-tree request with
      scaling on whose run succeeds is answered 200 with the classifier's
      five results. */
  lemma ClassificationAnswered(q: Http.Request, loads: string -> Option<Value>, rt: Builder.Runtime,
                               describe: Exc -> string, entries: seq<(string, Value)>, column: int, rs: int,
                               scale: Value)
    requires Admitted(q, loads, entries, column, "decision-tree")
    requires Switch(entries, Options.PerformScaling) == scale && PyEqNum(scale, 1)
    requires PyInt(Http.FormGet(q.form, Http.ClassificationRandomStateField)) == Ok(rs)
    requires Succeeds(rt)
    ensures var items := Classification.DecisionTreeClassifierIntended(
                           Shared(q, entries, column) + [Criterion(q.form), Int(rs)], rt);
      && items.Ok? && |items.value| == 5 && PathsAreText(items.value)
      && HandleIntended(q, loads, rt, describe) == Http.Response(200, Processed(items.value))
  {
    var arr := Shared(q, entries, column);
    ClassificationBuilt(q.form, arr, rt, rs);
    assert Build(q.form, arr, rt, true) == BuildClassification(q.form, arr, rt, true);
    var items := Classification.DecisionTreeClassifierIntended(arr + [Criterion(q.form), Int(rs)], rt).value;
    assert Respond(Built(items)) == Ok(Processed(items));
    ProcessAdmitted(q, loads, rt, true, entries, column, "decision-tree");
  }

  /** An admitted request whose builder raises is answered with that
      exception. */
  lemma ProcessRaises(q: Http.Request, loads: string -> Option<Value>, rt: Builder.Runtime, intended: bool,
                      entries: seq<(string, Value)>, column: int, algorithm: string)
    requires Admitted(q, loads, entries, column, algorithm)
    requires Build(q.form, Shared(q, entries, column), rt, intended).Err?
    ensures Process(q, loads, rt, intended)
      == Err(Raised(Build(q.form, Shared(q, entries, column), rt, intended).error))
  {
  }

  /** An admitted request whose builder leaves `output_path` as `'ans'` is
      answered with the string index error. */
  lemma ProcessFallback(q: Http.Request, loads: string -> Option<Value>, rt: Builder.Runtime, intended: bool,
                        entries: seq<(string, Value)>, column: int, algorithm: string)
    requires Admitted(q, loads, entries, column, algorithm)
    requires algorithm != "polynomial-regression" && algorithm != "decision-tree"
    ensures Process(q, loads, rt, intended) == Err(Raised(StringIndex))
  {
    assert Build(q.form, Shared(q, entries, column), rt, intended) == Ok(Fallback);
  }

  /** An algorithm the server has no builder for is answered 500 with the
      string index error, before and after the correction. */
  lemma NoBuilderIs500(q: Http.Request, loads: string -> Option<Value>, rt: Builder.Runtime,
                       describe: Exc -> string, entries: seq<(string, Value)>, column: int, algorithm: string)
    requires Admitted(q, loads, entries, column, algorithm)
    requires algorithm != "polynomial-regression" && algorithm != "decision-tree"
    ensures Handle(q, loads, rt, describe)
      == Http.Response(500, Obj([("error", Str(describe(StringIndex))), ("message", Str(ServerErrorMessage))]))
    ensures HandleIntended(q, loads, rt, describe) == Handle(q, loads, rt, describe)
  {
    ProcessFallback(q, loads, rt, false, entries, column, algorithm);
    ProcessFallback(q, loads, rt, true, entries, column, algorithm);
  }

  /** A random-state field left empty, as the dashboard sends it until the
      user types one, is rejected by `int('')`: an admitted request for
      either builder is answered 500 with that error, before and after the
      correction. The regression branch reads the degree first. */
  lemma EmptyRandomStateIs500(q: Http.Request, loads: string -> Option<Value>, rt: Builder.Runtime,
                              describe: Exc -> string, entries: seq<(string, Value)>, column: int, algorithm: string)
    requires Admitted(q, loads, entries, column, algorithm)
    requires algorithm == "polynomial-regression" ==>
      PyInt(Http.FormGet(q.form, Http.PolynomialDegreeField)).Ok?
      && Http.FormGet(q.form, Http.RegressionRandomStateField) == Some("")
    requires algorithm == "decision-tree" ==> Http.FormGet(q.form, Http.ClassificationRandomStateField) == Some("")
    requires algorithm == "polynomial-regression" || algorithm == "decision-tree"
    ensures Handle(q, loads, rt, describe)
      == Http.Response(500, Obj([("error", Str(describe(IntLiteral("")))), ("message", Str(ServerErrorMessage))]))
    ensures HandleIntended(q, loads, rt, describe) == Handle(q, loads, rt, describe)
  {
    EmptyRandomStateRaises(q.form, Shared(q, entries, column), rt, false);
    EmptyRandomStateRaises(q.form, Shared(q, entries, column), rt, true);
    ProcessRaises(q, loads, rt, false, entries, column, algorithm);
    ProcessRaises(q, loads, rt, true, entries, column, algorithm);
  }

  /** An empty random-state field ends either branch with `int('')`'s
      error. */
  lemma EmptyRandomStateRaises(form: seq<(Http.Field, string)>, arr: seq<Value>, rt: Builder.Runtime, intended: bool)
    requires |arr| == 8
    requires Http.FormGet(form, Http.SelectedAlgorithmField) == Some("polynomial-regression") ==>
      PyInt(Http.FormGet(form, Http.PolynomialDegreeField)).Ok?
      && Http.FormGet(form, Http.RegressionRandomStateField) == Some("")
    requires Http.FormGet(form, Http.SelectedAlgorithmField) == Some("decision-tree") ==>
      Http.FormGet(form, Http.ClassificationRandomStateField) == Some("")
    requires Http.FormGet(form, Http.SelectedAlgorithmField) in {Some("polynomial-regression"), Some("decision-tree")}
    ensures Build(form, arr, rt, intended) == Err(IntLiteral(""))
  {
    Text.ParseIntOfBlank("");
  }

  /** Without scaling, a decision-tree run that fits and saves its model
      stops at the plot, which reads the scaler that was never bound: the
      route answers 500, before and after the correction alike. */
  lemma UnscaledTreeIs500(q: Http.Request, loads: string -> Option<Value>, rt: Builder.Runtime,
                          describe: Exc -> string, entries: seq<(string, Value)>, column: int, scale: Value)
    requires UnscaledTree(q, loads, entries, column, scale)
    requires rt.fit.Ok? && rt.dump.None?
    ensures Handle(q, loads, rt, describe) == UnboundScalerResponse(describe)
    ensures HandleIntended(q, loads, rt, describe) == UnboundScalerResponse(describe)
  {
    var arr := Shared(q, entries, column);
    UnscaledTreeRaises(q.form, arr, rt, false);
    ProcessRaises(q, loads, rt, false, entries, column, "decision-tree");
    UnscaledTreeRaises(q.form, arr, rt, true);
    ProcessRaises(q, loads, rt, true, entries, column, "decision-tree");
  }

  /** An admitted decision-tree request with a readable random state and
      a scaling switch other than 1. */
  predicate UnscaledTree(q: Http.Request, loads: string -> Option<Value>, entries: seq<(string, Value)>,
                         column: int, scale: Value)
  {
    && Admitted(q, loads, entries, column, "decision-tree")
    && Switch(entries, Options.PerformScaling) == scale && !PyEqNum(scale, 1)
    && PyInt(Http.FormGet(q.form, Http.ClassificationRandomStateField)).Ok?
  }

  /** The 500 response reporting the unbound scaler. */
  function UnboundScalerResponse(describe: Exc -> string): Http.Response {
    Http.Response(500, Obj([("error", Str(describe(UnboundScaler))), ("message", Str(ServerErrorMessage))]))
  }

  /** The decision-tree branch without scaling raises the unbound scaler
      once the model is fitted and saved. */
  lemma UnscaledTreeRaises(form: seq<(Http.Field, string)>, arr: seq<Value>, rt: Builder.Runtime, intended: bool)
    requires |arr| == 8 && arr[1].Str? && !PyEqNum(arr[7], 1)
    requires PyInt(Http.FormGet(form, Http.ClassificationRandomStateField)).Ok?
    requires rt.fit.Ok? && rt.dump.None?
    ensures BuildClassification(form, arr, rt, intended) == Err(UnboundScaler)
  {
    var rs := PyInt(Http.FormGet(form, Http.ClassificationRandomStateField)).value;
    var args := arr + [Criterion(form), Int(rs)];
    assert args[1] == arr[1] && args[7] == arr[7];
    assert Classification.DecisionTreeClassifier(args, rt) == Err(UnboundScaler);
  }
}

=== FILE: scripts.dfy ===
/**
  Generated Python scripts as sequences of text blocks, and the def/use
  analysis over them. Each block records the names its statements read
  before assigning them (`uses`) and the names it binds (`binds`).
  A name is undefined in a script when some block uses it and no earlier
  block binds it; running such a script raises `NameError` at that
  block. Python builtins (`print`, `min`, `max`, `round`, `str`, `int`,
  `enumerate`) are always in scope and are not listed.
 */
module Scripts {

  import Text

  /** The names bound or read by the generated scripts. */
  datatype Symbol =
    // modules
    | Pd | Np | Plt | Os | Joblib | Time
    // library classes and functions
    | TrainTestSplit | StandardScaler | ColumnTransformer | OneHotEncoder
    | SimpleImputer | LabelEncoder | PolynomialFeatures | LinearRegression
    | R2Score | AccuracyScore | ListedColormap
    | LogisticRegression | Svc | DecisionTreeClassifier | RandomForestClassifier
    | GaussianNB | Svr | DecisionTreeRegressor | RandomForestRegressor
    // names the scripts expect their runner to bind
    | Filepath | ProcessedFolder
    // pipeline variables
    | Dataset | X | Y | Imputer | Ct | Le
    | XTrain | XTest | YTrain | YTest | Sc
    | Classifier | Regressor | PolyReg | XPoly | YPred
    | R2s | OutputPath | Timestamp | PlotPath
    | XSet | YSet | X1 | X2 | LoopI | LoopJ

  /** One fragment of a script. */
  datatype Block = Block(text: string, uses: set<Symbol>, binds: set<Symbol>)

  /** The script text: the blocks' texts one after the other. */
  function Render(bs: seq<Block>): string {
    if |bs| == 0 then "" else Render(bs[..|bs| - 1]) + bs[|bs| - 1].text
  }

  /** Every name some block of `bs` binds. */
  function Defined(bs: seq<Block>): set<Symbol> {
    if |bs| == 0 then {} else Defined(bs[..|bs| - 1]) + bs[|bs| - 1].binds
  }

  /** The names read by some block before any earlier block binds them. */
  function Undefined(bs: seq<Block>): set<Symbol> {
    if |bs| == 0 then {}
    else Undefined(bs[..|bs| - 1]) + (bs[|bs| - 1].uses - Defined(bs[..|bs| - 1]))
  }

  /** A script in which every name is bound before it is read. */
  predicate Closed(bs: seq<Block>) {
    Undefined(bs) == {}
  }

  /** `x` is needed by block `i` and bound by none of the blocks before it. */
  predicate UsedBeforeBound(bs: seq<Block>, x: Symbol, i: int) {
    0 <= i < |bs| && x in bs[i].uses
    && forall j :: 0 <= j < i ==> x !in bs[j].binds
  }

  lemma {:induction false} DefinedSpec(bs: seq<Block>, x: Symbol)
    ensures x in Defined(bs) <==> exists i :: 0 <= i < |bs| && x in bs[i].binds
  {
    if |bs| > 0 {
      var init := bs[..|bs| - 1];
      DefinedSpec(init, x);
      if x in Defined(bs) && x !in bs[|bs| - 1].binds {
        var i :| 0 <= i < |init| && x in init[i].binds;
        assert bs[i] == init[i];
      }
      if exists i :: 0 <= i < |bs| && x in bs[i].binds {
        var i :| 0 <= i < |bs| && x in bs[i].binds;
        if i < |init| {
          assert init[i] == bs[i];
        }
      }
    }
  }

  /** The analysis finds exactly the names that some block reads before
      any earlier block binds them. */
  lemma UndefinedSpec(bs: seq<Block>, x: Symbol)
    ensures x in Undefined(bs) <==> exists i :: UsedBeforeBound(bs, x, i)
  {
    if x in Undefined(bs) {
      UndefinedIsUsedBeforeBound(bs, x);
    }
    if exists i :: UsedBeforeBound(bs, x, i) {
      var i :| UsedBeforeBound(bs, x, i);
      UsedBeforeBoundIsUndefined(bs, x, i);
    }
  }

  lemma {:induction false} UndefinedIsUsedBeforeBound(bs: seq<Block>, x: Symbol)
    requires x in Undefined(bs)
    ensures exists i :: UsedBeforeBound(bs, x, i)
  {
    var n := |bs| - 1;
    var init := bs[..n];
    if x in Undefined(init) {
      UndefinedIsUsedBeforeBound(init, x);
      var i :| UsedBeforeBound(init, x, i);
      assert UsedBeforeBound(bs, x, i);
    } else {
      assert x in bs[n].uses && x !in Defined(init);
      DefinedSpec(init, x);
      assert forall j :: 0 <= j < n ==> bs[j] == init[j];
      assert UsedBeforeBound(bs, x, n);
    }
  }

  lemma {:induction false} UsedBeforeBoundIsUndefined(bs: seq<Block>, x: Symbol, i: int)
    requires UsedBeforeBound(bs, x, i)
    ensures x in Undefined(bs)
  {
    var n := |bs| - 1;
    var init := bs[..n];
    if i < n {
      assert UsedBeforeBound(init, x, i);
      UsedBeforeBoundIsUndefined(init, x, i);
    } else {
      assert forall j :: 0 <= j < n ==> init[j] == bs[j];
      DefinedSpec(init, x);
      assert x !in Defined(init);
    }
  }

  lemma {:induction false} RenderAppend(a: seq<Block>, b: seq<Block>)
    ensures Render(a + b) == Render(a) + Render(b)
    decreases |b|
  {
    if |b| > 0 {
      var ab := a + b;
      assert ab[..|ab| - 1] == a + b[..|b| - 1];
      RenderAppend(a, b[..|b| - 1]);
    } else {
      assert a + b == a;
    }
  }

  lemma {:induction false} DefinedAppend(a: seq<Block>, b: seq<Block>)
    ensures Defined(a + b) == Defined(a) + Defined(b)
    decreases |b|
  {
    if |b| > 0 {
      var ab := a + b;
      assert ab[..|ab| - 1] == a + b[..|b| - 1];
      DefinedAppend(a, b[..|b| - 1]);
    } else {
      assert a + b == a;
    }
  }

  /** Appending blocks adds the names they read that neither the earlier
      blocks nor they themselves bind first. */
  lemma {:induction false} UndefinedAppend(a: seq<Block>, b: seq<Block>)
    ensures Undefined(a + b) == Undefined(a) + (Undefined(b) - Defined(a))
    decreases |b|
  {
    if |b| > 0 {
      var ab := a + b;
      var b' := b[..|b| - 1];
      assert ab[..|ab| - 1] == a + b';
      UndefinedAppend(a, b');
      DefinedAppend(a, b');
    } else {
      assert a + b == a;
    }
  }

  /** Every block's text appears in the rendered script. */
  lemma {:induction false} BlockInRender(bs: seq<Block>, i: int) returns (off: int)
    requires 0 <= i < |bs|
    ensures Text.OccursAt(bs[i].text, Render(bs), off)
    decreases |bs|
  {
    var init := bs[..|bs| - 1];
    if i == |bs| - 1 {
      off := |Render(init)|;
      Text.OccursInConcat(bs[i].text, Render(init), bs[i].text, 0);
    } else {
      var o := BlockInRender(init, i);
      Text.OccursInConcat(bs[i].text, Render(init), bs[|bs| - 1].text, o);
      off := o;
    }
  }

  /** The rendered script opens with the first block's text. */
  lemma RenderStartsWithFirst(bs: seq<Block>)
    requires |bs| > 0
    ensures |bs[0].text| <= |Render(bs)| && Render(bs)[..|bs[0].text|] == bs[0].text
  {
    RenderAppend([bs[0]], bs[1..]);
    assert [bs[0]] + bs[1..] == bs;
    assert [bs[0]][..0] == [];
  }

  /** A script renders to nothing exactly when every block is empty. */
  lemma {:induction false} RenderEmpty(bs: seq<Block>)
    ensures Render(bs) == "" <==> forall i :: 0 <= i < |bs| ==> bs[i].text == ""
    decreases |bs|
  {
    if |bs| > 0 {
      var init := bs[..|bs| - 1];
      RenderEmpty(init);
      assert forall i :: 0 <= i < |init| ==> init[i] == bs[i];
    }
  }

  /** The blocks with their texts erased: all the def/use analysis sees. */
  function Skeleton(bs: seq<Block>): (r: seq<Block>)
    ensures |r| == |bs|
    ensures forall i :: 0 <= i < |bs| ==> r[i] == Block("", bs[i].uses, bs[i].binds)
  {
    seq(|bs|, i requires 0 <= i < |bs| => Block("", bs[i].uses, bs[i].binds))
  }

  /** The analysis does not look at the texts. */
  lemma {:induction false} UndefinedOfSkeleton(bs: seq<Block>)
    ensures Undefined(Skeleton(bs)) == Undefined(bs)
    ensures Defined(Skeleton(bs)) == Defined(bs)
    decreases |bs|
  {
    if |bs| > 0 {
      var init := bs[..|bs| - 1];
      UndefinedOfSkeleton(init);
      assert Skeleton(bs)[..|bs| - 1] == Skeleton(init);
    }
  }
}

=== FILE: text.dfy ===
/**
  String primitives shared by the client pages and the server: the
  JavaScript `split`, `trim` and global `replace` used by the CSV reader,
  the ASCII lower-casing used by the file-name check, the decimal rendering
  of integers and Python's `int(str)` used by the upload route.
  Strings are `seq<char>`; nothing here performs Unicode normalisation.
 */
module Text {

  import opened Outcomes

  // ---------------------------------------------------------------------
  // Whitespace
  // ---------------------------------------------------------------------

  /** The characters JavaScript's `String.prototype.trim` removes:
      WhiteSpace and LineTerminator of ECMAScript (tab, vertical tab,
      form feed, space, no-break space, byte order mark, the Unicode
      space separators, and the four line terminators). */
  predicate IsJsSpace(c: char) {
    || c == ' ' || c == '\t' || c == '\n' || c == '\r'
    || c == '\U{000B}' || c == '\U{000C}'
    || c == '\U{00A0}' || c == '\U{FEFF}' || c == '\U{1680}'
    || ('\U{2000}' <= c <= '\U{200A}')
    || c == '\U{2028}' || c == '\U{2029}'
    || c == '\U{202F}' || c == '\U{205F}' || c == '\U{3000}'
  }

  /** The characters Python's `str.strip()` (and so `int(str)`) removes. */
  predicate IsPySpace(c: char) {
    || c == ' ' || c == '\t' || c == '\n' || c == '\r'
    || ('\U{000B}' <= c <= '\U{000C}')
    || ('\U{001C}' <= c <= '\U{001F}')
    || c == '\U{0085}' || c == '\U{00A0}' || c == '\U{1680}'
    || ('\U{2000}' <= c <= '\U{200A}')
    || c == '\U{2028}' || c == '\U{2029}'
    || c == '\U{202F}' || c == '\U{205F}' || c == '\U{3000}'
  }

  /** True when every character of `s` satisfies `space`. */
  predicate AllSpace(s: string, space: char -> bool) {
    forall i :: 0 <= i < |s| ==> space(s[i])
  }

  /** Drops the leading characters that satisfy `space`. */
  function TrimStart(s: string, space: char -> bool): (r: string)
    ensures |r| <= |s|
    decreases |s|
  {
    if |s| > 0 && space(s[0]) then TrimStart(s[1..], space) else s
  }

  /** Drops the trailing characters that satisfy `space`. */
  function TrimEnd(s: string, space: char -> bool): (r: string)
    ensures |r| <= |s|
    decreases |s|
  {
    if |s| > 0 && space(s[|s| - 1]) then TrimEnd(s[..|s| - 1], space) else s
  }

  /** Removes whitespace at both ends, as `trim()` / `strip()` do. */
  function Trim(s: string, space: char -> bool): string {
    TrimEnd(TrimStart(s, space), space)
  }

  /** `s.trim()` in JavaScript. */
  function JsTrim(s: string): string {
    Trim(s, IsJsSpace)
  }

  /** `TrimStart` keeps a suffix that does not start with whitespace and
      cuts off only whitespace. */
  lemma {:induction false} TrimStartSpec(s: string, space: char -> bool)
    ensures var r := TrimStart(s, space);
      && r == s[|s| - |r|..] && (|r| == 0 || !space(r[0])) && AllSpace(s[..|s| - |r|], space)
    decreases |s|
  {
    if |s| > 0 && space(s[0]) {
      var t := s[1..];
      var r := TrimStart(t, space);
      assert TrimStart(s, space) == r;
      TrimStartSpec(t, space);
      assert t[|t| - |r|..] == s[|s| - |r|..];
      var cut, rest := s[..|s| - |r|], t[..|t| - |r|];
      assert AllSpace(rest, space);
      forall k | 0 <= k < |cut| ensures space(cut[k]) {
        if k > 0 {
          assert cut[k] == rest[k - 1];
        }
      }
    }
  }

  /** `TrimEnd` keeps a prefix that does not end with whitespace and cuts
      off only whitespace. */
  lemma {:induction false} TrimEndSpec(s: string, space: char -> bool)
    ensures var r := TrimEnd(s, space);
      && r == s[..|r|] && (|r| == 0 || !space(r[|r| - 1])) && AllSpace(s[|r|..], space)
    decreases |s|
  {
    if |s| > 0 && space(s[|s| - 1]) {
      var p := s[..|s| - 1];
      var r := TrimEnd(p, space);
      assert TrimEnd(s, space) == r;
      TrimEndSpec(p, space);
      assert p[..|r|] == s[..|r|];
      var cut, rest := s[|r|..], p[|r|..];
      assert AllSpace(rest, space);
      forall k | 0 <= k < |cut| ensures space(cut[k]) {
        if k < |rest| {
          assert cut[k] == rest[k];
        }
      }
    }
  }

  /** A trimmed string is the slice of the input that starts after the
      leading whitespace; it neither starts nor ends with whitespace, and
      only whitespace was cut off around it. */
  lemma TrimIsSlice(s: string, space: char -> bool)
    ensures var i := |s| - |TrimStart(s, space)|; var r := Trim(s, space);
      && i + |r| <= |s| && r == s[i..i + |r|]
      && AllSpace(s[..i], space) && AllSpace(s[i + |r|..], space)
    ensures var r := Trim(s, space);
      |r| == 0 || (!space(r[0]) && !space(r[|r| - 1]))
  {
    TrimSlice(s, space);
    TrimEnds(s, space);
  }

  lemma TrimSlice(s: string, space: char -> bool)
    ensures var i := |s| - |TrimStart(s, space)|; var r := Trim(s, space);
      && i + |r| <= |s| && r == s[i..i + |r|]
      && AllSpace(s[..i], space) && AllSpace(s[i + |r|..], space)
  {
    var t := TrimStart(s, space);
    TrimStartSpec(s, space);
    TrimEndSpec(t, space);
    TrimSliceOf(s, space, t, TrimEnd(t, space));
  }

  lemma TrimSliceOf(s: string, space: char -> bool, t: string, r: string)
    requires |t| <= |s| && t == s[|s| - |t|..]
    requires |r| <= |t| && r == t[..|r|] && AllSpace(t[|r|..], space)
    ensures var i := |s| - |t|; i + |r| <= |s| && r == s[i..i + |r|] && AllSpace(s[i + |r|..], space)
  {
    SliceOfSuffix(s, |s| - |t|, t, r);
  }

  lemma SliceOfSuffix(s: string, i: int, t: string, r: string)
    requires 0 <= i <= |s| && t == s[i..] && |r| <= |t| && r == t[..|r|]
    ensures r == s[i..i + |r|] && t[|r|..] == s[i + |r|..]
  {
  }

  lemma TrimEnds(s: string, space: char -> bool)
    ensures var r := Trim(s, space);
      |r| == 0 || (!space(r[0]) && !space(r[|r| - 1]))
  {
    var t := TrimStart(s, space);
    var r := TrimEnd(t, space);
    assert Trim(s, space) == r;
    TrimStartSpec(s, space);
    TrimEndSpec(t, space);
    if |r| > 0 {
      assert |t| > 0 && !space(t[0]);
      assert r[0] == t[0];
    }
  }

  /** Trimming leaves nothing exactly when the string is all whitespace;
      this is the blank-line test of the CSV reader. */
  lemma TrimEmptyIffBlank(s: string, space: char -> bool)
    ensures Trim(s, space) == [] <==> AllSpace(s, space)
  {
    var t := TrimStart(s, space);
    if AllSpace(s, space) {
      TrimStartOfBlank(s, space);
    }
    if Trim(s, space) == [] {
      TrimStartSpec(s, space);
      TrimEndSpec(t, space);
      assert AllSpace(t[0..], space);
      assert t == [];
      assert s[..|s|] == s;
    }
  }

  lemma {:induction false} TrimStartOfBlank(s: string, space: char -> bool)
    requires AllSpace(s, space)
    ensures TrimStart(s, space) == []
    decreases |s|
  {
    if |s| > 0 {
      assert space(s[0]);
      TrimStartOfBlank(s[1..], space);
    }
  }

  /** A string with no whitespace at either end is its own trim. */
  lemma TrimOfUnpadded(s: string, space: char -> bool)
    requires |s| > 0 && !space(s[0]) && !space(s[|s| - 1])
    ensures Trim(s, space) == s
  {
    assert TrimStart(s, space) == s;
  }

  /** Trimming is idempotent. */
  lemma TrimIdempotent(s: string, space: char -> bool)
    ensures Trim(Trim(s, space), space) == Trim(s, space)
  {
    var r := Trim(s, space);
    TrimIsSlice(s, space);
  }

  // ---------------------------------------------------------------------
  // Removing a character everywhere (`s.replace(/c/g, "")`)
  // ---------------------------------------------------------------------

  /** `s` with every occurrence of `c` deleted, the rest in order. */
  function RemoveAll(s: string, c: char): (r: string)
    ensures c !in r
    ensures |r| <= |s|
    ensures forall x :: x != c ==> (x in r <==> x in s)
    ensures c !in s ==> r == s
    decreases |s|
  {
    if |s| == 0 then []
    else if s[0] == c then RemoveAll(s[1..], c)
    else assert s == [s[0]] + s[1..]; [s[0]] + RemoveAll(s[1..], c)
  }

  // ---------------------------------------------------------------------
  // Splitting on one separator and joining back
  // ---------------------------------------------------------------------

  /** `s.split(sep)` for a one-character separator: the pieces between
      separators, always at least one (the empty string gives `[""]`). */
  function Split(s: string, sep: char): (r: seq<string>)
    ensures |r| >= 1
    ensures forall i :: 0 <= i < |r| ==> sep !in r[i]
    decreases |s|
  {
    if |s| == 0 then [""]
    else if s[0] == sep then [""] + Split(s[1..], sep)
    else
      var rest := Split(s[1..], sep);
      [[s[0]] + rest[0]] + rest[1..]
  }

  /** `parts.join(sep)`. */
  function Join(parts: seq<string>, sep: char): string
    decreases |parts|
  {
    if |parts| == 0 then ""
    else if |parts| == 1 then parts[0]
    else parts[0] + [sep] + Join(parts[1..], sep)
  }

  /** Joining the pieces of a split gives back the original text. */
  lemma {:induction false} JoinSplit(s: string, sep: char)
    ensures Join(Split(s, sep), sep) == s
    decreases |s|
  {
    if |s| == 0 {
    } else if s[0] == sep {
      JoinSplit(s[1..], sep);
      assert s == [sep] + s[1..];
    } else {
      var rest := Split(s[1..], sep);
      JoinSplit(s[1..], sep);
      if |rest| == 1 {
        assert Join(rest, sep) == rest[0];
      } else {
        assert Join(rest, sep) == rest[0] + [sep] + Join(rest[1..], sep);
        assert ([[s[0]] + rest[0]] + rest[1..])[1..] == rest[1..];
      }
      assert s == [s[0]] + s[1..];
    }
  }

  /** Splitting a join of separator-free pieces gives back the pieces. */
  lemma {:induction false} SplitJoin(parts: seq<string>, sep: char)
    requires |parts| >= 1
    requires forall i :: 0 <= i < |parts| ==> sep !in parts[i]
    ensures Split(Join(parts, sep), sep) == parts
    decreases |parts|, |parts[0]|
  {
    var p := parts[0];
    if |p| == 0 {
      if |parts| == 1 {
      } else {
        SplitJoin(parts[1..], sep);
        var j := Join(parts, sep);
        assert j == [sep] + Join(parts[1..], sep);
        assert j[1..] == Join(parts[1..], sep);
        assert [""] + parts[1..] == parts;
      }
    } else {
      var tail := [p[1..]] + parts[1..];
      assert sep !in tail[0];
      assert forall i :: 1 <= i < |tail| ==> tail[i] == parts[i];
      SplitJoin(tail, sep);
      var j := Join(parts, sep);
      if |parts| == 1 {
        assert j == p;
        assert Join(tail, sep) == p[1..];
      } else {
        assert j == p + [sep] + Join(parts[1..], sep);
        assert Join(tail, sep) == p[1..] + [sep] + Join(parts[1..], sep);
      }
      assert j[0] == p[0] && j[0] != sep;
      assert j[1..] == Join(tail, sep);
      var rest := Split(j[1..], sep);
      assert rest == tail;
      assert [p[0]] + p[1..] == p;
      assert [[j[0]] + rest[0]] + rest[1..] == parts;
    }
  }

  /** Removal splits over concatenation. */
  lemma {:induction false} RemoveAllAppend(a: string, b: string, c: char)
    ensures RemoveAll(a + b, c) == RemoveAll(a, c) + RemoveAll(b, c)
    decreases |a|
  {
    if |a| == 0 {
      assert a + b == b;
    } else {
      assert (a + b)[0] == a[0];
      assert (a + b)[1..] == a[1..] + b;
      RemoveAllAppend(a[1..], b, c);
    }
  }

  // ---------------------------------------------------------------------
  // Case and suffixes
  // ---------------------------------------------------------------------

  /** `toLowerCase` on one character, for the ASCII letters. */
  function LowerAscii(c: char): (r: char)
    ensures 'A' <= c <= 'Z' ==> r as int == c as int + 32
    ensures !('A' <= c <= 'Z') ==> r == c
  {
    if 'A' <= c <= 'Z' then (c as int + 32) as char else c
  }

  function ToLowerAscii(s: string): (r: string)
    ensures |r| == |s|
    ensures forall i :: 0 <= i < |s| ==> r[i] == LowerAscii(s[i])
  {
    seq(|s|, i requires 0 <= i < |s| => LowerAscii(s[i]))
  }

  /** Lower-casing leaves no upper-case ASCII letter, turns each one into a
      lower-case letter, keeps every other character, fixes exactly the
      strings without upper-case letters, and is idempotent. */
  lemma ToLowerAsciiSpec(s: string)
    ensures |ToLowerAscii(s)| == |s|
    ensures forall i :: 0 <= i < |s| ==> !('A' <= ToLowerAscii(s)[i] <= 'Z')
    ensures forall i :: 0 <= i < |s| && 'A' <= s[i] <= 'Z' ==> 'a' <= ToLowerAscii(s)[i] <= 'z'
    ensures forall i :: 0 <= i < |s| && !('A' <= s[i] <= 'Z') ==> ToLowerAscii(s)[i] == s[i]
    ensures ToLowerAscii(s) == s <==> forall i :: 0 <= i < |s| ==> !('A' <= s[i] <= 'Z')
    ensures ToLowerAscii(ToLowerAscii(s)) == ToLowerAscii(s)
  {
    var t := ToLowerAscii(s);
    if t == s {
      forall i | 0 <= i < |s|
        ensures !('A' <= s[i] <= 'Z')
      {
        assert t[i] == s[i];
      }
    }
    assert ToLowerAscii(t) == t;
  }

  /** `s.endsWith(suffix)`. */
  predicate EndsWith(s: string, suffix: string) {
    |suffix| <= |s| && s[|s| - |suffix|..] == suffix
  }

  /** The lines joined with a newline after each one, so that `Lines([a, b])`
      is `a + "\n" + b + "\n"`; templates are written as lists of lines. */
  function Lines(ls: seq<string>): (r: string)
    ensures |ls| > 0 ==> |r| > 0 && r[|r| - 1] == '\n'
    ensures |r| >= |ls|
  {
    if |ls| == 0 then "" else Lines(ls[..|ls| - 1]) + ls[|ls| - 1] + "\n"
  }

  /** `needle` occurs in `hay` starting at index `off`. */
  predicate OccursAt(needle: string, hay: string, off: int) {
    0 <= off && off + |needle| <= |hay| && hay[off..off + |needle|] == needle
  }

  lemma OccursInConcat(needle: string, a: string, b: string, off: int)
    ensures OccursAt(needle, a, off) ==> OccursAt(needle, a + b, off)
    ensures OccursAt(needle, b, off) ==> OccursAt(needle, a + b, |a| + off)
  {
    if OccursAt(needle, a, off) {
      assert (a + b)[off..off + |needle|] == a[off..off + |needle|];
    }
    if OccursAt(needle, b, off) {
      assert (a + b)[|a| + off..|a| + off + |needle|] == b[off..off + |needle|];
    }
  }

  /** A prefix of a prefix is a prefix. */
  lemma PrefixTransitive(a: string, b: string, c: string)
    requires |b| <= |a| && a[..|b|] == b
    requires |c| <= |b| && b[..|c|] == c
    ensures |c| <= |a| && a[..|c|] == c
  {
    assert a[..|b|][..|c|] == a[..|c|];
  }

  lemma OccursTransitive(x: string, y: string, z: string, i: int, j: int)
    requires OccursAt(x, y, i) && OccursAt(y, z, j)
    ensures OccursAt(x, z, j + i)
  {
    forall k | 0 <= k < |x|
      ensures z[j + i..j + i + |x|][k] == x[k]
    {
      assert x[k] == y[i..i + |x|][k] == y[i + k];
      assert y[i + k] == z[j..j + |y|][i + k] == z[j + i + k];
    }
  }

  /** Every line of a template occurs in its text. */
  lemma {:induction false} LinesContains(ls: seq<string>, i: int) returns (off: int)
    requires 0 <= i < |ls|
    ensures OccursAt(ls[i], Lines(ls), off)
    decreases |ls|
  {
    var init := ls[..|ls| - 1];
    if i == |ls| - 1 {
      off := |Lines(init)|;
      OccursInConcat(ls[i], Lines(init), ls[i], 0);
      OccursInConcat(ls[i], Lines(init) + ls[i], "\n", off);
    } else {
      var o := LinesContains(init, i);
      OccursInConcat(ls[i], Lines(init), ls[|ls| - 1] + "\n", o);
      assert Lines(ls) == Lines(init) + (ls[|ls| - 1] + "\n");
      off := o;
    }
  }

  // ---------------------------------------------------------------------
  // Decimal integers
  // ---------------------------------------------------------------------

  predicate IsDigit(c: char) {
    '0' <= c <= '9'
  }

  function DigitChar(d: nat): (c: char)
    requires d < 10
    ensures IsDigit(c)
  {
    ('0' as int + d) as char
  }

  function DigitValue(c: char): (d: nat)
    requires IsDigit(c)
    ensures d < 10
  {
    c as int - '0' as int
  }

  /** The decimal digits of `n`, most significant first, no leading zero. */
  function NatToString(n: nat): (r: string)
    ensures |r| >= 1
    ensures forall i :: 0 <= i < |r| ==> IsDigit(r[i])
    ensures |r| > 1 ==> r[0] != '0'
  {
    if n < 10 then [DigitChar(n)] else NatToString(n / 10) + [DigitChar(n % 10)]
  }

  /** `str(n)` in Python, `String(n)` in JavaScript, for an integer. */
  function IntToString(n: int): (r: string)
    ensures |r| >= 1 && IsDigit(r[|r| - 1])
    ensures (r[0] == '-') <==> n < 0
  {
    if n < 0 then "-" + NatToString(-n) else NatToString(n)
  }

  /** The number a string of decimal digits denotes. */
  function DigitsValue(ds: string): nat
    requires forall i :: 0 <= i < |ds| ==> IsDigit(ds[i])
  {
    if |ds| == 0 then 0
    else DigitsValue(ds[..|ds| - 1]) * 10 + DigitValue(ds[|ds| - 1])
  }

  lemma {:induction false} DigitsValueOfNatToString(n: nat)
    ensures DigitsValue(NatToString(n)) == n
  {
    if n >= 10 {
      DigitsValueOfNatToString(n / 10);
      var r := NatToString(n);
      assert r[..|r| - 1] == NatToString(n / 10);
    }
  }

  /** The body of an integer literal as Python's `int()` accepts it:
      decimal digits, with single underscores allowed between digits. */
  predicate IsDigitGroups(s: string) {
    && |s| > 0
    && IsDigit(s[0]) && IsDigit(s[|s| - 1])
    && (forall i :: 0 <= i < |s| ==> IsDigit(s[i]) || s[i] == '_')
    && (forall i :: 0 <= i < |s| - 1 ==> !(s[i] == '_' && s[i + 1] == '_'))
  }

  lemma {:induction false} RemoveUnderscoresLeavesDigits(s: string)
    requires forall i :: 0 <= i < |s| ==> IsDigit(s[i]) || s[i] == '_'
    ensures forall i :: 0 <= i < |RemoveAll(s, '_')| ==> IsDigit(RemoveAll(s, '_')[i])
    decreases |s|
  {
    if |s| > 0 {
      RemoveUnderscoresLeavesDigits(s[1..]);
    }
  }

  /** `int(s)` in Python for a string argument: `None` stands for the
      `ValueError` it raises. Leading and trailing whitespace is ignored,
      one sign is allowed. */
  function ParseInt(s: string): Option<int> {
    ParseTrimmed(Trim(s, IsPySpace))
  }

  /** `int()` once the surrounding whitespace is gone: an optional sign,
      then digit groups. */
  function ParseTrimmed(t: string): Option<int> {
    var neg := |t| > 0 && t[0] == '-';
    var body := if |t| > 0 && (t[0] == '-' || t[0] == '+') then t[1..] else t;
    if !IsDigitGroups(body) then None
    else
      RemoveUnderscoresLeavesDigits(body);
      var v: int := DigitsValue(RemoveAll(body, '_'));
      Some(if neg then -v else v)
  }

  /** Python's `int()` reads back what `str()` writes for every integer. */
  lemma ParseIntOfIntToString(n: int)
    ensures ParseInt(IntToString(n)) == Some(n)
  {
    var s := IntToString(n);
    TrimOfUnpadded(s, IsPySpace);
    ParseTrimmedOfIntToString(n);
  }

  lemma ParseTrimmedOfIntToString(n: int)
    ensures ParseTrimmed(IntToString(n)) == Some(n)
  {
    var s := IntToString(n);
    var m: nat := if n < 0 then -n else n;
    var ds := NatToString(m);
    var body := if s[0] == '-' then s[1..] else s;
    assert body == ds;
    assert forall i :: 0 <= i < |ds| ==> ds[i] != '_';
    assert RemoveAll(ds, '_') == ds;
    assert IsDigitGroups(body);
    DigitsValueOfNatToString(m);
  }

  /** The empty string and blank strings are not integers. */
  lemma ParseIntOfBlank(s: string)
    requires AllSpace(s, IsPySpace)
    ensures ParseInt(s) == None
  {
    TrimEmptyIffBlank(s, IsPySpace);
  }
}

=== FILE: values.dfy ===
/**
  The dynamic values that travel between the dashboard and the server:
  JSON documents as JavaScript sees them after `response.json()`, as
  Python sees them after `json.loads`, and the positional arguments the
  upload route hands to the script builders. The comparisons and the
  conversions to text that the source applies to them are written out
  here, because JavaScript truthiness, Python's `== True` / `== 1` and
  Python's `str()` each have their own rules.
 */
module Values {

  import opened Outcomes
  import Text

  /** A JSON-shaped value. `Obj` keeps its entries in document order;
      `FileObj` is the uploaded file object, which only appears on the
      Python side (the route puts it first in the argument list). Floating
      point numbers are not modelled. */
  datatype Value =
    | Null
    | Bool(b: bool)
    | Int(i: int)
    | Str(s: string)
    | Arr(items: seq<Value>)
    | Obj(entries: seq<(string, Value)>)
    | FileObj(filename: string)

  // ---------------------------------------------------------------------
  // Object lookup
  // ---------------------------------------------------------------------

  /** The value stored under `key`; when the document repeats a key, both
      `JSON.parse` and `json.loads` keep the last one. */
  function Get(entries: seq<(string, Value)>, key: string): (r: Option<Value>)
    ensures r.None? <==> forall i :: 0 <= i < |entries| ==> entries[i].0 != key
    ensures r.Some? ==>
      (exists i :: 0 <= i < |entries| && entries[i] == (key, r.value)
        && forall j :: i < j < |entries| ==> entries[j].0 != key)
  {
    if |entries| == 0 then None
    else if entries[|entries| - 1].0 == key then Some(entries[|entries| - 1].1)
    else Get(entries[..|entries| - 1], key)
  }

  /** A key that occurs once, at index `i`, is found there. */
  lemma GetLast(entries: seq<(string, Value)>, key: string, i: int)
    requires 0 <= i < |entries| && entries[i].0 == key
    requires forall j :: 0 <= j < |entries| && j != i ==> entries[j].0 != key
    ensures Get(entries, key) == Some(entries[i].1)
  {
  }

  /** The member `key` of `v` read as `v.key` in JavaScript: `None` is
      `undefined` (also when `v` is not an object). */
  function Field(v: Value, key: string): Option<Value> {
    if v.Obj? then Get(v.entries, key) else None
  }

  // ---------------------------------------------------------------------
  // JavaScript truthiness
  // ---------------------------------------------------------------------

  /** `if (v)` in JavaScript: `null`, `false`, `0` and `""` are falsy,
      every array and object is truthy. */
  predicate JsTruthy(v: Value) {
    match v
    case Null => false
    case Bool(b) => b
    case Int(i) => i != 0
    case Str(s) => s != ""
    case _ => true
  }

  /** A property read `result.key` in a condition: absent is `undefined`,
      which is falsy. */
  predicate JsTruthyField(v: Value, key: string) {
    var f := Field(v, key);
    f.Some? && JsTruthy(f.value)
  }

  // ---------------------------------------------------------------------
  // Python comparisons against integer literals
  // ---------------------------------------------------------------------

  /** The number a value stands for in a Python numeric comparison:
      `bool` is a subclass of `int`, so `True` is 1 and `False` is 0;
      other values compare unequal to every number. */
  function PyNumber(v: Value): Option<int> {
    match v
    case Bool(b) => Some(if b then 1 else 0)
    case Int(i) => Some(i)
    case _ => None
  }

  /** Python's `v == n` for an integer (or boolean) literal `n`. */
  predicate PyEqNum(v: Value, n: int) {
    PyNumber(v) == Some(n)
  }

  /** `v == True` and `v == 1` are the same test in Python; the two builders
      use one form each. It holds exactly of `True` and of the integer 1. */
  lemma EqTrueIsEqOne(v: Value)
    ensures PyEqNum(v, 1) <==> (v == Bool(true) || v == Int(1))
    ensures PyEqNum(v, 0) <==> (v == Bool(false) || v == Int(0))
  {
  }

  // ---------------------------------------------------------------------
  // Python str()
  // ---------------------------------------------------------------------

  /** `str(v)`, which is also what an f-string placeholder `{v}` inserts. */
  function PyStr(v: Value): string
    decreases v, 1
  {
    match v
    case Null => "None"
    case Bool(b) => if b then "True" else "False"
    case Int(i) => Text.IntToString(i)
    case Str(s) => s
    case Arr(items) => "[" + ReprItems(v, items) + "]"
    case Obj(entries) => "{" + ReprEntries(v, entries) + "}"
    case FileObj(name) => "<FileStorage: '" + name + "'>"
  }

  /** `repr(v)`: like `str` except that strings are quoted. Escaping of
      quotes and backslashes inside the string is not modelled. */
  function PyRepr(v: Value): string
    decreases v, 2
  {
    if v.Str? then "'" + v.s + "'" else PyStr(v)
  }

  function ReprItems(parent: Value, items: seq<Value>): string
    requires forall i :: 0 <= i < |items| ==> items[i] < parent
    decreases parent, 0, |items|
  {
    if |items| == 0 then ""
    else if |items| == 1 then PyRepr(items[0])
    else PyRepr(items[0]) + ", " + ReprItems(parent, items[1..])
  }

  function ReprEntries(parent: Value, entries: seq<(string, Value)>): string
    requires forall i :: 0 <= i < |entries| ==> entries[i].1 < parent
    decreases parent, 0, |entries|
  {
    if |entries| == 0 then ""
    else
      var e := "'" + entries[0].0 + "': " + PyRepr(entries[0].1);
      if |entries| == 1 then e else e + ", " + ReprEntries(parent, entries[1..])
  }

  /** Booleans render as Python's `True` / `False`, integers in decimal. */
  lemma PyStrOfScalars(b: bool, n: int)
    ensures PyStr(Bool(b)) == (if b then "True" else "False")
    ensures Text.ParseInt(PyStr(Int(n))) == Some(n)
  {
    Text.ParseIntOfIntToString(n);
  }
}
